=== FILE: README.md ===
# Katana builder status, modelled in Dafny

This project models the per-builder status bookkeeping of Katana, a
Buildbot fork, together with the helpers around it. The model covers:

- **Builder status**: build numbering from the files on disk, the build
  cache and its miss path, and event and file pruning. It also covers the
  finished-builds scan with its latest-build memo, the merged
  event/step/build timeline, the per-codebase cache key, the pending-builds
  cache, and the single-flight bookkeeping of background loads and cancels.
- **Build request merging**: the properties check, the buildset-properties
  cache, and choosing the request to merge into.
- **Artifact steps**: the force-rebuild flags, the rsync command with its
  retry wrapper, remote locations, and the list of artifact build request
  ids.
- **"My builds" page**: the data it prepares.
- **Result decoration**: a result code becomes its name and CSS class.
- **Column helpers**: the two string-length helpers of a database
  component.

The model is functional. A builder is a `BuilderState` record, and every
mutating method becomes a function that returns the new state. The
builder's directory is a map from file name to pickled content (`Store`),
where `None` stands for a file that cannot be unpickled. Python exceptions
become `Failure` values (`Wrappers.Result`).

Python details are modelled explicitly:

- truthiness: build number 0, request id 0, port 0 and the empty string
  are false;
- negative list indices;
- `dict.get` defaults;
- `"%s" % None`;
- ASCII `.lower()`;
- Python 2 ordering between `None`, integers and strings.

Each file holds one module:

| file | module | models |
|---|---|---|
| wrappers.dfy | Wrappers | `Option`, `Result`, the exceptions raised |
| strings.dfy | Strings | decimal rendering, regex digit runs, `split`/`join`, ordering of names, `.lower()`, space escaping |
| records.dfy | Records | builds, steps, source stamps, events, result codes, the on-disk store |
| cache_key.dfy | CacheKey | `getCacheKey` and `getCodebasesCacheKey` |
| build_files.dfy | BuildFiles | build/log file names, `determineNextBuildNumber`, the file part of `prune` |
| latest_build_memo.dfy | LatestBuildMemo | `updateLatestBuildCache`, `saveLatestBuild`, `shouldUseLatestBuildCache` |
| single_flight.dfy | SingleFlight | the `loadingBuilds` / `cancelBuilds` reference counts |
| builder_status.dfy | BuilderStatus | the builder's state and its operations |
| finished_builds.dfy | FinishedBuilds | `generateFinishedBuilds` |
| timeline.dfy | Timeline | `eventGenerator` |
| pending_builds.dfy | PendingBuilds | `PendingBuildsCache` |
| request_merger.dfy | RequestMerger | `BuildRequestMerger` |
| artifact.dfy | Artifact | the artifact steps' pure helpers |
| mybuilds.dfy | MyBuilds | `MybuildsResource` |
| result_css.dfy | ResultCss | `add_css_classes_to_results` |
| db_columns.dfy | DbColumns | `truncateColumn`, `check_length` |

## Model

| member | source | states |
|---|---|---|
| Strings.NatToDecimal | master/buildbot/status/builder.py:250-251 | The `"%d"` rendering of a natural number is a non-empty digit string that reads back as the number and has no leading zero. |
| Strings.NatToDecimalInjective | master/buildbot/status/builder.py:250-251 | Different build numbers get different file names. |
| Strings.DigitRun | master/buildbot/status/builder.py:208 | The leading run of digits that `(\d+)` captures is all digits and stops at the first non-digit. |
| Strings.LexLeTotal | master/buildbot/status/builder.py:65 | Codebase names are totally ordered by the ordering `sorted` uses. |
| Strings.LexLeTransitive | master/buildbot/status/builder.py:65 | That ordering is transitive. |
| Strings.LexLeAntisymmetric | master/buildbot/status/builder.py:65 | That ordering is antisymmetric, so sorting by name is unique for distinct names. |
| Strings.JoinSplit | master/buildbot/status/builder.py:925 | Splitting a cache key on `;` and joining the pieces gives the key back. |
| Strings.SplitPrefix | master/buildbot/status/builder.py:925 | A key that starts with a separator-free entry splits into that entry followed by the split of the rest. |
| Strings.NonEmpty | master/buildbot/status/builder.py:925 | The `if key` filter keeps exactly the non-empty pieces. |
| Strings.Lower | master/buildbot/steps/artifact.py:36 | `.lower()` keeps the length and lowers each ASCII letter in place. |
| Strings.UnescapeEscape | master/buildbot/steps/artifact.py:385 | Escaping spaces as `\ ` loses nothing: unescaping gives the artifact name back. |
| Strings.EscapedSpacesArePreceded | master/buildbot/steps/artifact.py:385 | Every space in the escaped name comes right after a backslash. |
| CacheKey.CodebaseBranch | master/buildbot/status/builder.py:49-58 | An override wins and is returned unchanged. Otherwise the configured branch (a string, the head of a non-empty list, else "") is recorded under the codebase. No other override changes. |
| CacheKey.SortByName | master/buildbot/status/builder.py:65 | Sorting by codebase name is a permutation whose names ascend. |
| CacheKey.FoldKey | master/buildbot/status/builder.py:67-71 | After the loop the overrides map holds every codebase of the project and keeps every override the caller gave. |
| CacheKey.GetCacheKey | master/buildbot/status/builder.py:61-72 | No project, or a project without codebases, gives "" and leaves the overrides alone. Otherwise the overrides gain exactly the project's codebase names and keep the caller's values. |
| CacheKey.GetCacheKeyContents | master/buildbot/status/builder.py:61-72 | For distinct codebase names, the key is the `name=branch;` entries of the codebases sorted by name, each with its override or else its configured branch. |
| CacheKey.GetCacheKeyIdempotent | master/buildbot/status/builder.py:61-72 | Computing the key again with the overrides it filled in gives the same key and the same overrides. |
| CacheKey.CacheKeyOrderIndependent | master/buildbot/status/builder.py:61-72 | For distinct codebase names, the key does not depend on the order in which the project lists its codebases. |
| CacheKey.CacheKeyExampleOrder | master/buildbot/status/builder.py:44-46 | `defaultbranch` beats `branch`, a list branch contributes its head, and entries come out sorted by name. |
| CacheKey.CacheKeyExampleTrunk | master/buildbot/status/builder.py:44-58 | A codebase configured on `trunk` gives `A=trunk;` without an override and `A=feature;` with one. |
| CacheKey.CodebasesCacheKey | master/buildbot/status/builder.py:908-917 | With no codebases requested the key is "". The caller's overrides always survive. |
| BuildFiles.BuildFileNameRoundTrip | master/buildbot/status/builder.py:250-251 | A build's file name reads back as its number for the file-name pattern and for the build-file pattern, and it is not a log name. |
| BuildFiles.LogFileNameRoundTrip | master/buildbot/status/builder.py:339-340 | `<n>-<suffix>` reads back as log file `n`, starts with `n`, and is not a build file. |
| BuildFiles.DetermineNextBuildNumber | master/buildbot/status/builder.py:201-217 | The next number is above every number a file name starts with, and it is one past such a number unless there is none (then 0). |
| BuildFiles.EarliestLog | master/buildbot/status/builder.py:319-333 | The log horizon is never earlier than the build horizon and never earlier than `next - logHorizon`. |
| BuildFiles.PruneFiles | master/buildbot/status/builder.py:335-364 | Only existing build or log files are deleted, and nothing is deleted when the earliest build is 0. |
| BuildFiles.PruneBuildFile | master/buildbot/status/builder.py:345-360 | Build file `n` is deleted if and only if pruning is on, `n` is not cached, and `n` is below the earliest build. |
| BuildFiles.PruneLogFile | master/buildbot/status/builder.py:345-360 | Log file `n-…` is deleted if and only if pruning is on, `n` is not cached, and `n` is below the earliest log. |
| BuildFiles.PruneSparesCached | master/buildbot/status/builder.py:358 | A file of a cached build is never deleted. |
| BuildFiles.PruneExample | master/buildbot/status/builder.py:319-360 | With next 20, build horizon 5 and log horizon 3, builds up to 14 and logs up to 16 go, cached ones excepted. |
| BuildFiles.PruneEvents | master/buildbot/status/builder.py:314 | `events[-h:]` keeps the newest `h` events for `h > 0`, and keeps them all for `h == 0`. |
| LatestBuildMemo.UpdateLatestBuildCacheAsWritten | master/buildbot/status/builder.py:919-934 | The update either writes the key or leaves the memo alone. No other key changes. |
| LatestBuildMemo.BuildZeroIsTreatedAsEmpty | master/buildbot/status/builder.py:920-927 | As written, a memo holding build 0 is overwritten by "no build", and build 0 is refused for a multi-codebase key. |
| LatestBuildMemo.UpdateLatestBuildCache | master/buildbot/status/builder.py:919-934 | A found build is always stored. "No build" never overwrites a remembered build and is never stored under a key with several codebases. Otherwise it is stored. |
| LatestBuildMemo.UpdatePoliciesAgreeOffZero | master/buildbot/status/builder.py:919-934 | The corrected update differs from the code only where build 0 is involved. |
| LatestBuildMemo.StampCodebases | master/buildbot/status/builder.py:946-949 | The codebases taken from a build are exactly its stamps with a non-empty codebase and a non-empty branch. |
| LatestBuildMemo.SaveLatestBuild | master/buildbot/status/builder.py:936-955 | A resumed build is not saved. A build is saved under the key of its own codebases with its number, and no other key changes. "No build" goes through the update policy under the caller's key. |
| LatestBuildMemo.SaveLatestBuildAsWritten | master/buildbot/status/builder.py:936-955 | As written: a resumed build is not saved, a non-zero build is saved under its own codebases' key, and "no build" leaves a memo holding a non-zero build alone. |
| LatestBuildMemo.SavePoliciesAgreeOffZero | master/buildbot/status/builder.py:919-955 | Saving as written and saving with the corrected update agree whenever neither the build nor the memo involves build 0. |
| LatestBuildMemo.SaveBuildZeroDiverges | master/buildbot/status/builder.py:920-922 | As written, saving "no build" erases a remembered build 0; the corrected save keeps it. |
| LatestBuildMemo.MemoExampleKeepsBuild | master/buildbot/status/builder.py:920-922 | An empty result does not erase a remembered build. |
| LatestBuildMemo.MemoExampleMultiCodebase | master/buildbot/status/builder.py:924-926 | An empty result is not remembered for a key with two codebases. |
| SingleFlight.Acquire | master/buildbot/status/builder.py:562-571 | The first request creates an entry with one access and no build. Later requests add one access. |
| SingleFlight.Release | master/buildbot/status/builder.py:553-558 | A release drops one access and deletes the entry when none is left. |
| SingleFlight.BuildLoaded | master/buildbot/status/builder.py:549-551 | A loaded build is recorded only if the entry has none yet. |
| SingleFlight.GetLoadedBuild | master/buildbot/status/builder.py:553-560 | The waiter gets the recorded build and gives back its access. |
| SingleFlight.RefCountTrace | master/buildbot/status/builder.py:553-571 | For any interleaving of requests and releases that never releases more than it requested, the entry's access count is the balance so far. Other builds' entries are untouched. |
| SingleFlight.BalancedReleaseClears | master/buildbot/status/builder.py:553-571 | After `k` requests and `k` releases the entry is gone. |
| SingleFlight.FirstRequestCreatesEntry | master/buildbot/status/builder.py:562-567 | A first request creates a fresh entry, and two requests followed by two releases restore the map. |
| SingleFlight.CancelWiringLeavesEntry | master/buildbot/status/builder.py:702-716 | As written, two cancel requests with one release callback leave the entry in place. |
| SingleFlight.JoinCancel | master/buildbot/status/builder.py:707-715 | Corrected join: the first cancel request opens an entry with one share; a later one leaves the entry as it is. No other entry changes. |
| SingleFlight.JoinsHoldOne | master/buildbot/status/builder.py:707-715 | With the corrected join, any number of overlapping cancel requests leaves one share for that build and every other entry unchanged. |
| SingleFlight.CorrectedCancelClears | master/buildbot/status/builder.py:702-715 | With the corrected join, the single completion callback of any number of overlapping cancel requests restores the map exactly. |
| BuilderStatus.NewBuild | master/buildbot/status/builder.py:849-861 | A new build gets the next number, the counter moves up by one, and nothing else changes. |
| BuilderStatus.NewBuilds | master/buildbot/status/builder.py:849-861 | `k` new builds get `k` consecutive, strictly increasing numbers starting at the old counter. |
| BuilderStatus.FindCurrent | master/buildbot/status/builder.py:303-306 | A running build is found if and only if one with that number is running. |
| BuilderStatus.GetBuild | master/buildbot/status/builder.py:480-489 | A negative number counts back from the next number. Outside `[0, next)` there is no build. Inside, the answer is the cache, the running builds, then the file, in that order. The lookup never changes what any number resolves to, only caches, and keeps every cached build. |
| BuilderStatus.GetEvent | master/buildbot/status/builder.py:491-495 | An event exists for exactly the indices Python accepts, negative ones counting from the end. |
| BuilderStatus.BuildBranches | master/buildbot/status/builder.py:497-499 | The branches of a build are exactly its stamps' branches. |
| BuilderStatus.CountMatchingAll | master/buildbot/status/builder.py:416-424 | Every stamp is counted if and only if every stamp's codebase is requested with its branch. |
| BuilderStatus.FoundCodebasesMeansAll | master/buildbot/status/builder.py:416-424 | A build matches the requested codebases if and only if some are requested and all its stamps match them. |
| BuilderStatus.BuildStarted | master/buildbot/status/builder.py:864-873 | A started build is appended to the running builds. It is cached under its number unless an entry is already resident there, which stays. Nothing else changes. |
| BuilderStatus.RunningBuildServedFromMemory | master/buildbot/status/builder.py:864-873 | Once started, a build is returned by `getBuild` without touching the disk, or the entry already resident under its number if there was one. |
| BuilderStatus.StartedBuildStaysUnavailable | master/buildbot/status/builder.py:256-265 | As written, a `getBuild(-1)` between `newBuild` and `buildStarted` marks the new number unavailable, and the mark survives the start. Without its resident entry, the number then resolves to nothing although its file holds the build. |
| BuilderStatus.BuildStartedCorrected | master/buildbot/status/builder.py:864-871 | Corrected start: as `buildStarted`, and the number is no longer marked unavailable. |
| BuilderStatus.CorrectedStartedBuildReloads | master/buildbot/status/builder.py:256-265 | With the corrected start, the same sequence leaves the number resolvable from its file once the resident entry is gone. |
| BuilderStatus.RemoveFirst | master/buildbot/status/builder.py:894 | Removing a running build drops exactly one entry when it is there and none otherwise. |
| BuilderStatus.BuildFinished | master/buildbot/status/builder.py:891-906 | A finished build leaves the running builds (its first occurrence only) and replaces its cache entry if it has one; no number enters or leaves the cache. It is remembered as the latest build of its codebases. Then the events are trimmed to the horizon, and a file is deleted from the store (with the build's file written) exactly when pruning makes it eligible. Nothing else in the builder changes. |
| BuilderStatus.FinishedBuildReloads | master/buildbot/status/builder.py:891-906 | A finished build that is in the cache survives the prune, so a newly constructed builder status reads it back from its file. |
| BuilderStatus.FinishedBuildSurvivesRestart | master/buildbot/status/builder.py:147-186 | After a restart through the pickle, which keeps the unavailable numbers, a finished, cached build whose number was never marked unavailable is read back from its file. |
| BuilderStatus.RestartKeepsUnavailable | master/buildbot/status/builder.py:147-186 | A number marked unavailable is still marked after a restart through the pickle and resolves to nothing, whatever the directory holds. |
| BuilderStatus.AddEvent | master/buildbot/status/builder.py:808-816 | The events become the newest `eventHorizon` of the old events followed by the new one, or all of them when the horizon is 0. The new event is the newest one kept, and nothing else changes. |
| BuilderStatus.Prune | master/buildbot/status/builder.py:311-364 | Pruning keeps the newest `eventHorizon` events (all of them for 0) and changes nothing else in the builder. It touches no file when only events are pruned. Otherwise it deletes exactly the build and log files that fall below the horizons and are not cached, and only when the earliest build is not 0. A cached build's file is never deleted. |
| BuilderStatus.GetLatestBuildCache | master/buildbot/status/builder.py:525-532 | An expired entry is dropped and gives nothing. A live entry gives the remembered build looked up through `getBuild`, and only the build cache and the unavailable numbers may change. No lookup changes what a number resolves to. |
| BuilderStatus.LoadBuildFromThread | master/buildbot/status/builder.py:562-571 | The first load request for a number opens an entry with one access and no build. A later one adds one access and keeps the build. No other entry and nothing else in the builder changes. |
| BuilderStatus.GetLoadedBuildFromThread | master/buildbot/status/builder.py:553-560 | The waiter gets the loaded build and releases its access. |
| BuilderStatus.BuildCanceled | master/buildbot/status/builder.py:702-705 | A cancel callback releases one access of that build's cancel entry. |
| BuilderStatus.CancelBuildFromThread | master/buildbot/status/builder.py:707-715 | As written: the first cancel request for a number opens an entry with one access, and a later one adds one access. No other entry and nothing else in the builder changes. |
| FinishedBuilds.WantedSoundComplete | master/buildbot/status/builder.py:662-693 | The reference scan yields only builds the filters keep, each resolved from some number in the scanned range, and every kept build in that range. |
| FinishedBuilds.WantedTransparent | master/buildbot/status/builder.py:662-693 | The reference scan depends only on what each number resolves to. |
| FinishedBuilds.Scan | master/buildbot/status/builder.py:662-697 | The scan yields all kept builds from newest to oldest, or only the first in single mode. It never changes what a number resolves to. |
| FinishedBuilds.ResolveIgnoresMemo | master/buildbot/status/builder.py:525-532 | Rewriting the latest-build memo never changes what a number resolves to. |
| FinishedBuilds.ScanAndRemember | master/buildbot/status/builder.py:658-700 | In single mode the first kept build, or "no build", is saved in the memo. Otherwise the memo is untouched. Build numbering does not move. |
| FinishedBuilds.GenerateFinishedBuilds | master/buildbot/status/builder.py:642-700 | Generating finished builds never changes what any build number resolves to. |
| FinishedBuilds.FinishedBuildsDispatch | master/buildbot/status/builder.py:642-700 | In every mode: a query the memo may answer yields the memo's build looked up through `getBuild`, or nothing. Any other query yields the reference scan, only its first build in single mode, and single mode saves that outcome in the memo. |
| FinishedBuilds.FinishedBuildsSoundComplete | master/buildbot/status/builder.py:658-693 | Outside single mode every output build passes the filters and is what `getBuild(-Nb)` gives for some `1 <= Nb <= min(next, max_search)`, and every build in that range that passes them is output. |
| FinishedBuilds.EmptySingleResultIsRemembered | master/buildbot/status/builder.py:651-700 | After an empty single-mode scan for a single-codebase key, the next call answers from the memo, still with nothing. |
| Timeline.NewestFirstAt | master/buildbot/status/builder.py:747-748 | Walking events from index -1 downwards reverses them: the `i`-th newest is the `i`-th from the end. |
| Timeline.CursorEvent | master/buildbot/status/builder.py:747-748 | `getEvent(-(k+1))` is the `k`-th newest event, or nothing past the oldest. |
| Timeline.Advance | master/buildbot/status/builder.py:774-776 | Yielding the cursor's event moves the cursor to the next older event. |
| Timeline.EmitStep | master/buildbot/status/builder.py:771-777 | The events newer than a started step come out first, then the step, as the merge specifies. |
| Timeline.EmitStepAt | master/buildbot/status/builder.py:770-777 | A step that started goes out after the newer events, and one that did not start adds nothing. |
| Timeline.EmitBuild | master/buildbot/status/builder.py:769-778 | A build's started steps, newest first, interleaved with newer events, then the build itself, as the merge specifies. |
| Timeline.EmitRemaining | master/buildbot/status/builder.py:779-784 | The remaining events come out newest first, stopping after the first one older than `minTime`. |
| Timeline.VisitBuild | master/buildbot/status/builder.py:751-778 | One pass of the build loop either ends the stream at a missing or too-old build or emits what the merge puts before the next build. It never changes what a number resolves to. |
| Timeline.BuildLoop | master/buildbot/status/builder.py:750-778 | The build loop emits the merge up to the point where only the remaining events are left. |
| Timeline.EventGenerator | master/buildbot/status/builder.py:733-784 | The timeline is the merge of the events (newest first) with the selected builds' steps and builds. It never changes what a number resolves to. |
| Timeline.MergeKeepsStream | master/buildbot/status/builder.py:733-784 | Merging keeps every step and build, in order. |
| Timeline.MergeEventsArePrefix | master/buildbot/status/builder.py:733-784 | The events emitted are a newest-first prefix of all events. |
| Timeline.TimelineShape | master/buildbot/status/builder.py:733-784 | The timeline holds all selected steps and builds in order, and a newest-first prefix of the events. |
| Timeline.MergeExample | master/buildbot/status/builder.py:769-778 | With events at 9, 5 and 1 and steps started at 7 and 3: E9, S7, E5, S3, the build, E1. |
| PendingBuilds.CacheNow | master/buildbot/status/builder.py:1056-1062 | Refreshing empties both caches and fetches the unfiltered list under the empty key. |
| PendingBuilds.GetPendingBuilds | master/buildbot/status/builder.py:1065-1072 | A cached key is answered from the cache. A new key is fetched with the resolved codebases and stored. |
| PendingBuilds.GetTotal | master/buildbot/status/builder.py:1087-1089 | The total is the number of pending builds. |
| PendingBuilds.GetPendingBuildsDicts | master/buildbot/status/builder.py:1075-1084 | Cached dicts are returned as they are. Otherwise each pending build is rendered, in order, and stored. |
| PendingBuilds.Notify | master/buildbot/status/builder.py:1091-1106 | A state change keeps the caches. Any other notification empties them and re-fetches the unfiltered list under the empty key. |
| PendingBuilds.RepeatLookupIsCached | master/buildbot/status/builder.py:1065-1072 | A second lookup with the same codebases does not fetch again. |
| PendingBuilds.NotificationRefreshes | master/buildbot/status/builder.py:1091-1101 | After a build or request notification, a filtered lookup fetches afresh. |
| RequestMerger.AllAgree | master/buildbot/process/buildrequestmerger.py:150-153 | The loop succeeds if and only if every listed property is equal on both sides, a missing one counting as `None`. |
| RequestMerger.PropertiesMatch | master/buildbot/process/buildrequestmerger.py:137-155 | A request with a selected slave never matches. Otherwise it matches if and only if the base and configured merge properties agree. |
| RequestMerger.GetBuildsetsProperties | master/buildbot/process/buildrequestmerger.py:157-176 | The lookup fails if and only if the database lacks an id the cache does not hold, and it queries exactly those uncached ids. |
| RequestMerger.GetBuildsetsPropertiesCovers | master/buildbot/process/buildrequestmerger.py:160-174 | A successful lookup answers every requested id and caches it, and leaves every entry the cache already held untouched. |
| RequestMerger.GetBuildsetsPropertiesConsistent | master/buildbot/process/buildrequestmerger.py:160-176 | With a cache that agrees with the database, every answer is the database's and the cache still agrees with the database afterwards. |
| RequestMerger.FirstMatch | master/buildbot/process/buildrequestmerger.py:126-135 | The first target whose properties match is chosen. None matching gives nothing. |
| RequestMerger.BuildsetIds | master/buildbot/process/buildrequestmerger.py:122-123 | The buildset ids are the targets' ids, in order. |
| RequestMerger.GetMergeBrid | master/buildbot/process/buildrequestmerger.py:97-135 | A selected slave never merges. Otherwise the answer is the first matching target's request and the cache stays consistent. |
| RequestMerger.SameMatch | master/buildbot/process/buildrequestmerger.py:126-135 | The match depends only on the properties of the targets' buildsets. |
| RequestMerger.MergeMap | master/buildbot/process/buildrequestmerger.py:56-81 | A top-level build merges nothing. |
| RequestMerger.MergeMapExact | master/buildbot/process/buildrequestmerger.py:56-81 | A triggered build's merge map holds exactly the builders whose chosen request id is truthy, each with that id. |
| Artifact.FlagValue | master/buildbot/steps/artifact.py:34-40 | A boolean is taken as it is. A string is true if and only if it lowers to "true". `None` raises `AttributeError`. |
| Artifact.ForceRebuild | master/buildbot/steps/artifact.py:33-42 | A rebuild is forced if and only if either flag is true. Missing flags mean false. |
| Artifact.ForceRebuildExamples | master/buildbot/steps/artifact.py:33-42 | "TRUE" and "True" force, "yes" does not, `None` raises. |
| Artifact.RetryCommand | master/buildbot/steps/artifact.py:354-363 | The retry wrapper puts the command between the shell's fixed prefix and suffix. |
| Artifact.RetryCommandRoundTrip | master/buildbot/steps/artifact.py:354-363 | Removing the wrapper gives back the original command. |
| Artifact.RsyncCommand | master/buildbot/steps/artifact.py:367-369 | The rsync command quotes origin and destination, and adds the ssh port option if and only if the port is truthy. |
| Artifact.ShellFor | master/buildbot/steps/artifact.py:370-375 | Linux slaves use the shell loop. Windows slaves use PowerShell exactly when asked, else the `for /L` loop. |
| Artifact.RsyncWithRetry | master/buildbot/steps/artifact.py:365-375 | The result is the rsync command wrapped for the slave's shell. |
| Artifact.RsyncPortOption | master/buildbot/steps/artifact.py:365-375 | Inside the wrapper, the command ends with the port option when a port is given, else with the quoted destination. |
| Artifact.GetRemoteLocation | master/buildbot/steps/artifact.py:384-385 | The location is `server:dir/path/` followed by the artifact with spaces escaped, which unescapes to the artifact. |
| Artifact.RemoteLocationSpacesEscaped | master/buildbot/steps/artifact.py:384-385 | Every space after the head of the location is escaped. |
| Artifact.StepRemoteLocation | master/buildbot/steps/artifact.py:584-588 | A missing artifact name is treated as "". |
| Artifact.LocalDir | master/buildbot/steps/artifact.py:568-572 | The local directory is the request id, under the destination when one is set. |
| Artifact.InsertUnique | master/buildbot/steps/artifact.py:616 | Inserting into a strictly ascending list keeps it strictly ascending and adds exactly the new id. |
| Artifact.BuildRequestIdsWithArtifacts | master/buildbot/steps/artifact.py:607-616 | The result ascends without repeats and holds exactly the requests' artifact ids, falling back to the request's own id. |
| MyBuilds.PrepareBuildsBySsid | master/buildbot/status/web/mybuilds.py:53-60 | There is one entry per source-stamp set id, with its stamps and parameters cleared. |
| MyBuilds.BuildsBySsidEntry | master/buildbot/status/web/mybuilds.py:53-60 | Each entry is the last row with that set id: a later row replaces an earlier one. |
| MyBuilds.BuildsBySsidExample | master/buildbot/test/unit/test_mybuilds.py:10-24 | Two rows with ids 1 and 2 give a two-entry map. |
| MyBuilds.AllCodebases | master/buildbot/status/web/mybuilds.py:46-47 | Flattening yields exactly the codebases of all projects. |
| MyBuilds.DisplayMap | master/buildbot/status/web/mybuilds.py:48-50 | Fails with `KeyError` if and only if a codebase has no repository. Otherwise the map covers exactly the repositories. |
| MyBuilds.DisplayMapEntry | master/buildbot/status/web/mybuilds.py:48-50 | The last codebase naming a repository decides its display. |
| MyBuilds.PrepareDisplayRepositories | master/buildbot/status/web/mybuilds.py:42-51 | Fails if and only if some project's codebase has no repository. Otherwise the map covers exactly the repositories named by any project's codebases. |
| MyBuilds.DisplayRepositoriesExample | master/buildbot/test/unit/test_mybuilds.py:26-54 | A repository without a display repository displays as itself. |
| MyBuilds.QueryParam | master/buildbot/status/web/mybuilds.py:28 | The parameter is `<codebase>_branch=` followed by the branch, or by `None` when the stamp has no branch. |
| MyBuilds.Decorate | master/buildbot/status/web/mybuilds.py:31-32 | A stamp gains its revision URL and its display repository, which falls back to the repository. Nothing else changes. |
| MyBuilds.AttachStamps | master/buildbot/status/web/mybuilds.py:26-34 | The loop fails with `KeyError` if and only if a stamp's set has no build, and it neither adds nor drops builds. |
| MyBuilds.AttachStampsEntries | master/buildbot/status/web/mybuilds.py:26-34 | After the loop each build has gained exactly its own set's decorated stamps and query parameters, in row order, and keeps its other columns. |
| MyBuilds.DistinctSsids | master/buildbot/status/web/mybuilds.py:36 | The dictionary's values are one per distinct set id. |
| MyBuilds.SortDescending | master/buildbot/status/web/mybuilds.py:36 | Sorting is a permutation ordered by descending `builds_id`. |
| MyBuilds.ContentBuilds | master/buildbot/status/web/mybuilds.py:23-36 | The page fails if and only if a stamp's set has no build. Otherwise it lists as many builds as there are distinct sets, newest first. |
| MyBuilds.ContentBuildsParams | master/buildbot/status/web/mybuilds.py:23-36 | Each listed build is the last of the user's rows for its set (a later row replaces an earlier one), carrying exactly its own set's decorated stamps and query parameters. |
| MyBuilds.InsertKeepsSsids | master/buildbot/status/web/mybuilds.py:36 | Inserting a build into a descending list adds exactly its set id to the list's set ids. |
| MyBuilds.SortKeepsSsids | master/buildbot/status/web/mybuilds.py:36 | Sorting keeps the set ids, counted with multiplicity. |
| MyBuilds.ContentBuildsSsids | master/buildbot/status/web/mybuilds.py:23-36 | The page's builds carry exactly the distinct set ids of the user's rows, each once. |
| MyBuilds.ContentBuildsOnePerSet | master/buildbot/status/web/mybuilds.py:23-36 | The page lists exactly one build for each set id among the user's rows and none for any other id. |
| MyBuilds.AttachedEntry | master/buildbot/status/web/mybuilds.py:23-34 | An entry of the per-set dictionary after the stamps are attached has that set's id and is the last of the user's rows for that set, carrying exactly that set's stamps and query parameters. |
| ResultCss.CssOf | master/buildbot/util/build.py:16 | The class is the table's entry for codes -1 to 11, and "" for anything else. |
| ResultCss.NameOf | master/buildbot/util/build.py:17 | A negative code or `None` is "running", a code 0 to 11 its name, a larger code `IndexError`, a string `TypeError`. |
| ResultCss.Decorate | master/buildbot/util/build.py:15-17 | The copy fails if and only if the result is missing or unnameable. It adds exactly the two keys and keeps every other key's value. |
| ResultCss.AddCssClasses | master/buildbot/util/build.py:4-19 | The output has one decorated copy per input, in order. It fails exactly when some build cannot be decorated. |
| ResultCss.AddCssClassesFailure | master/buildbot/util/build.py:4-19 | On failure the error is that of the first build that cannot be decorated. |
| ResultCss.DecorateKeepsOriginal | master/buildbot/util/build.py:7-8 | Removing the two added keys from an output entry gives its input back, up to those keys. |
| ResultCss.AddCssClassesIdempotent | master/buildbot/util/build.py:4-19 | Decorating the output again changes nothing. |
| ResultCss.ResultTableExample | master/buildbot/test/unit/test_util_build.py:7-22 | The test's table: -1 running, 9 is class "waiting-for-dependency" named "resume", 10 is "not-started" named "merged", 12 raises, a missing result raises `KeyError`. |
| DbColumns.TruncateColumnAsWritten | master/buildbot/db/base.py:63-65 | On columns of length 3 or more a value longer than length - 2 becomes its first length - 2 characters plus "..", exactly filling the column. Otherwise it is kept. A column with no length, or of length 0 or 2, keeps every value. |
| DbColumns.TruncateLengthOneOverflows | master/buildbot/db/base.py:64-65 | As written, length 1 turns "abc" into "ab..", which is longer than the column. |
| DbColumns.TruncateLengthTwoPassesThrough | master/buildbot/db/base.py:64-65 | As written, length 2 lets "abc" through unchanged. |
| DbColumns.TruncateColumn | master/buildbot/db/base.py:63-65 | The corrected truncation always fits the column. It keeps values of at most length - 2 characters, and otherwise yields a prefix, or a prefix plus "..". |
| DbColumns.TruncatePoliciesAgree | master/buildbot/db/base.py:63-65 | The correction agrees with the code for every length other than 1 and 2. |
| DbColumns.TruncateIdempotent | master/buildbot/db/base.py:63-65 | Truncating twice is truncating once. |
| DbColumns.CheckLength | master/buildbot/db/base.py:42-61 | Other dialects never fail. MySQL fails its assertion on a column without length, and raises if and only if the value is non-empty and longer than the column. |
| DbColumns.TruncatedValuePassesCheck | master/buildbot/db/base.py:57-65 | What the corrected truncation returns always passes MySQL's check. |
| DbColumns.TruncatedAsWrittenFailsCheck | master/buildbot/db/base.py:57-65 | As written, truncation to a column of length 1 produces a value MySQL's check rejects. |

## Left out

- Disk I/O, pickling, `os.listdir` and `os.unlink` are modelled as operations on a map from file names to contents. Upgrading old pickles and checking log files on load are not modelled.
- The build cache is a map with no eviction. The LRU eviction policy lives in a file that is not part of this model, and a miss that finds nothing is not cached.
- Every file that cannot be read or unpickled is folded into `None`, which `getBuild` turns into "no build". In the code only `IOError`, `EOFError` and `ImportError` are caught that way; any other unpickling error propagates to the caller, and the model does not keep it.
- Threads, Deferreds and the reactor are left out. The single-flight entries are modelled as reference counts over explicit request/release traces. The asynchronous variants (`generateFinishedBuildsAsync`, `getLatestBuildCacheAsync`, `deferToThread`, `getFinishedBuildsByNumbers`) are left out.
- `generateBuildNumbers` and `fetchPendingBuildRequestStatuses` are database queries. The fetch is a function parameter of the pending-builds cache.
- The clock (`util.now`, `datetime.now`) is an explicit `now` parameter. Expiry of a memo entry compares seconds against `lastBuildCacheDays * 86400`.
- Watchers, `subscribe`, `publishState` and the JSON logging are not modelled.
- FinishedBuilds.GenerateFinishedBuilds: its own contract states only transparency. What it yields in every mode is stated by FinishedBuildsDispatch, and FinishedBuildsSoundComplete characterises the scan outside single mode.
- FinishedBuilds.Scan: `num_builds` other than 1 is not a limit in the code either. The generator's caller decides how much it consumes, and the model consumes the generator fully.
- Timeline.EventGenerator: the generator is consumed fully. The categories and committers filters are kept as predicates over the build's category and change authors.
- RequestMerger.GetBuildsetsProperties: on a database miss the code raises `KeyError` after partially filling its cache, from a loop over a set in no defined order. The model names the first lacking id in request order, its contract does not state which id that is, and the partial cache is not kept.
- MyBuilds.DisplayOf: a codebase whose `display_repository` is present but `None` is modelled like one without it, so it displays as its repository; the code's `.get` returns `None` there. The order of `getProjects().values()`, which decides which codebase wins for a shared repository, is not stated; the model takes the projects in the order given.
- RequestMerger.MergeMap: the `builderNames=None` default, whose iteration raises `TypeError`, is not modelled; the model always takes a list of builder names.
- Artifact.RsyncCommand: the port is a number, so its truthiness is that of an integer. A port passed as a string would add the `-p` option even for "0"; that case is not modelled.
- BuilderStatus.RemoveFirst: removes the first running build with the finished build's number, while `currentBuilds.remove(s)` removes by object. The two agree while running builds have distinct numbers, which `newBuild` guarantees.
- MyBuilds.ContentBuilds: Python 2 dictionaries have no defined value order, so the order of builds with equal `builds_id` is not stated.
- LatestBuildMemo.SaveLatestBuild: follows the corrected memo policy, where only a missing build (`None`) counts as empty (see Findings). The code as written is LatestBuildMemo.SaveLatestBuildAsWritten, and SavePoliciesAgreeOffZero shows the two differ only where build 0 is involved.
- BuilderStatus.BuildFinished: saves the latest build through the corrected LatestBuildMemo.SaveLatestBuild, so for build 0 it does not follow the code's truthiness test (see Findings).
- FinishedBuilds.ScanAndRemember: records the scan's outcome through the corrected LatestBuildMemo.SaveLatestBuild, so a remembered build 0 is not erased by an empty result as the code would erase it (see Findings).
- BuilderStatus.BuildStarted: keeps the code's behaviour of leaving an unavailable mark on the started number (see Findings). The corrected start is BuilderStatus.BuildStartedCorrected.
- BuilderStatus.CancelBuildFromThread: follows the code's incrementing join, whose entry outlives overlapping requests (see Findings). The corrected join is SingleFlight.JoinCancel.
- `.lower()` is modelled on ASCII letters only. Non-ASCII case mapping is not modelled.
- ResultCss: `status/results.py` is not part of this model. Its two tables are taken from the unit test's expected values for codes -1 to 11, and a code outside that range has no CSS class.
- The unit test for the "my builds" page calls `add_css_classes_to_results` on the page resource, checking an in-place update. The model follows `util/build.py`, which returns copies.
- Event `finish()`, `addPointEvent`, the `asDict` renderings and the build step classes' `start` methods depend on live objects and are not modelled.

## Findings

| source | as written | input that shows it | evidently intended | confidence | as-written member | corrected member |
|---|---|---|---|---|---|---|
| master/buildbot/status/builder.py:920-927 | The memo tests `latestBuildCache[k]["build"]` and `not cache["build"]` for truthiness, so build number 0 counts as "no build". | A memo holding build 0 for "A=x;" is overwritten by an empty result. Build 0 is not stored under "A=x;B=y;". | Only a missing build (`None`) counts as empty. | not executed | LatestBuildMemo.BuildZeroIsTreatedAsEmpty | LatestBuildMemo.UpdateLatestBuildCache |
| master/buildbot/db/base.py:64-65 | `col_length = length - 2` is -1 on a column of length 1 and 0 (falsy) on a column of length 2. | Length 1 turns "abc" into "ab.." (4 characters). Length 2 keeps "abc" (3 characters). | The result fits the column for every length. | not executed | DbColumns.TruncateLengthOneOverflows | DbColumns.TruncateColumn |
| master/buildbot/status/builder.py:702-715 | `cancelBuildFromThread` adds one access for every overlapping request, but the deferred's single `buildCanceled` callback removes only one. | Two cancel requests for build 5 before the first completes leave `cancelBuilds[5]` with access 1 after the callback, so a later cancel of 5 only joins the finished deferred. | Every request joining a cancellation is served by its one callback, which clears the entry. | not executed | SingleFlight.CancelWiringLeavesEntry | SingleFlight.CorrectedCancelClears |
| master/buildbot/status/builder.py:256-265 | `loadBuildFromFile` marks any number below `nextBuildNumber` without a file as unavailable, and only `__init__` clears the marks, so a number that `newBuild` has handed out but whose build has not yet been saved is marked for good. `__getstate__` keeps the marks, so they even survive a restart (RestartKeepsUnavailable). | A builder with next build 7 and no file `7`: `newBuild` gives 7, `getBuild(-1)` marks 7, then `buildStarted` and `buildFinished` write file `7`. Once the cache evicts 7, `getBuild(7)` returns `None`. | A number gets a record once its build starts, so the start clears the mark. | not executed | BuilderStatus.StartedBuildStaysUnavailable | BuilderStatus.CorrectedStartedBuildReloads |

=== FILE: artifact.dfy ===
/** The pure helpers of the artifact steps: the force-rebuild flag, the
    retry wrappers around shell commands, the rsync command, remote and
    local artifact locations, and the request ids whose artifacts a
    download step fetches. */
module Artifact {
  import opened Wrappers
  import opened Strings

  // ---------------------------------------------------------------------------
  // forceRebuild

  /** A build property value, as far as `forceRebuild` can tell. */
  datatype PropValue = PBool(b: bool) | PStr(s: string) | PNone | POther

  /** `build.getProperty(name, False)`. */
  function GetProperty(props: map<string, PropValue>, name: string): PropValue {
    if name in props then props[name] else PBool(false)
  }

  /** A flag value: a bool as itself, a string by case-insensitive
      comparison with "true"; any other value has no `lower()`. */
  function FlagValue(v: PropValue): (r: Result<bool>)
    ensures v.PBool? ==> r == Success(v.b)
    ensures v.PStr? ==> r.Success? && (r.value <==> |v.s| == 4 && Lower(v.s) == "true")
    ensures v.PNone? || v.POther? ==> r == Failure(AttributeError)
  {
    match v
    case PBool(b) => Success(b)
    case PStr(s) => Success(Lower(s) == "true")
    case _ => Failure(AttributeError)
  }

  /** `forceRebuild(build)`: either flag set; an unset flag is false. */
  function ForceRebuild(props: map<string, PropValue>): (r: Result<bool>)
    ensures r.Success? <==> FlagValue(GetProperty(props, "force_rebuild")).Success?
                            && FlagValue(GetProperty(props, "force_chain_rebuild")).Success?
    ensures r.Success? ==> (r.value <==> FlagValue(GetProperty(props, "force_rebuild")).value
                                         || FlagValue(GetProperty(props, "force_chain_rebuild")).value)
    ensures "force_rebuild" !in props && "force_chain_rebuild" !in props ==> r == Success(false)
  {
    var forceRebuild :- FlagValue(GetProperty(props, "force_rebuild"));
    var forceChainRebuild :- FlagValue(GetProperty(props, "force_chain_rebuild"));
    Success(forceChainRebuild || forceRebuild)
  }

  /** String flags are read without regard to case. */
  lemma ForceRebuildExamples()
    ensures ForceRebuild(map["force_rebuild" := PStr("TRUE")]) == Success(true)
    ensures ForceRebuild(map["force_chain_rebuild" := PStr("True")]) == Success(true)
    ensures ForceRebuild(map["force_rebuild" := PStr("yes"), "force_chain_rebuild" := PBool(false)]) == Success(false)
    ensures ForceRebuild(map["force_rebuild" := PNone]) == Failure(AttributeError)
  {
    assert Lower("TRUE") == "true";
    assert Lower("True") == "true";
  }

  // ---------------------------------------------------------------------------
  // Retry wrappers

  const LinuxPrefix: string := "for i in 1 2 3 4 5; do "
  const LinuxSuffix: string := "; if [ $? -eq 0 ]; then exit 0; else sleep 5; fi; done; exit -1"
  const WindowsPrefix: string := "for /L %%i in (1,1,5) do (sleep 5 & "
  const WindowsSuffix: string := " && exit 0)"
  const PowerShellPrefix: string := "powershell.exe -C for ($i=1; $i -le  5; $i++) { "
  const PowerShellSuffix: string := "; if ($?) { exit 0 } else { sleep 5} } exit -1"

  datatype Shell = Linux | Windows | PowerShell

  function Prefix(sh: Shell): string {
    match sh
    case Linux => LinuxPrefix
    case Windows => WindowsPrefix
    case PowerShell => PowerShellPrefix
  }

  function Suffix(sh: Shell): string {
    match sh
    case Linux => LinuxSuffix
    case Windows => WindowsSuffix
    case PowerShell => PowerShellSuffix
  }

  /** `retryCommandLinuxOS`, `retryCommandWindowsOS` and
      `retryCommandWindowsOSPwShell`: five attempts of `command`. */
  function RetryCommand(sh: Shell, command: string): (r: string)
    ensures |r| == |Prefix(sh)| + |command| + |Suffix(sh)|
    ensures r[..|Prefix(sh)|] == Prefix(sh)
    ensures r[|r| - |Suffix(sh)|..] == Suffix(sh)
  {
    Prefix(sh) + command + Suffix(sh)
  }

  /** The command a retry wrapper runs. */
  function WrappedCommand(sh: Shell, r: string): string
    requires |r| >= |Prefix(sh)| + |Suffix(sh)|
  {
    r[|Prefix(sh)|..|r| - |Suffix(sh)|]
  }

  /** Each wrapper embeds the command verbatim: it can be read back. */
  lemma RetryCommandRoundTrip(sh: Shell, command: string)
    ensures WrappedCommand(sh, RetryCommand(sh, command)) == command
  {
    var r := RetryCommand(sh, command);
    assert r == Prefix(sh) + command + Suffix(sh);
    assert r[|Prefix(sh)|..|r| - |Suffix(sh)|] == command;
  }

  // ---------------------------------------------------------------------------
  // rsync

  /** Python truthiness of the `port` argument: absent and 0 are false. */
  predicate PortGiven(port: Option<nat>) {
    port.Some? && port.value != 0
  }

  function PortOption(port: nat): string {
    " --rsh='ssh -p " + NatToDecimal(port) + "'"
  }

  /** The rsync command of `rsyncWithRetry`, before wrapping. */
  function RsyncCommand(origin: string, destination: string, port: Option<nat>): (r: string)
    ensures var base := "rsync -var --progress --partial '" + origin + "' '" + destination + "'";
            && (PortGiven(port) ==> r == base + PortOption(port.value))
            && (!PortGiven(port) ==> r == base)
  {
    var base := "rsync -var --progress --partial '" + origin + "' '" + destination + "'";
    if PortGiven(port) then base + PortOption(port.value) else base
  }

  /** The wrapper `rsyncWithRetry` chooses: Linux unless the slave runs
      Windows, and there PowerShell when the step asks for it. */
  function ShellFor(isWindows: bool, usePowerShell: bool): (sh: Shell)
    ensures !isWindows ==> sh == Linux
    ensures isWindows ==> (sh == PowerShell <==> usePowerShell)
    ensures isWindows ==> sh != Linux
  {
    if !isWindows then Linux else if usePowerShell then PowerShell else Windows
  }

  /** `rsyncWithRetry(step, origin, destination, port)`; the slave's
      operating system is the `isWindows` parameter. */
  function RsyncWithRetry(origin: string, destination: string, port: Option<nat>, isWindows: bool, usePowerShell: bool): (r: string)
    ensures r == RetryCommand(ShellFor(isWindows, usePowerShell), RsyncCommand(origin, destination, port))
  {
    RetryCommand(ShellFor(isWindows, usePowerShell), RsyncCommand(origin, destination, port))
  }

  /** The rsync command inside the retry loop carries the ssh port option
      exactly when a port is given. */
  lemma RsyncPortOption(origin: string, destination: string, port: Option<nat>, isWindows: bool, usePowerShell: bool)
    ensures var sh := ShellFor(isWindows, usePowerShell);
            var inner := WrappedCommand(sh, RsyncWithRetry(origin, destination, port, isWindows, usePowerShell));
            && (PortGiven(port) ==> |inner| >= |PortOption(port.value)| && inner[|inner| - |PortOption(port.value)|..] == PortOption(port.value))
            && (!PortGiven(port) ==> |inner| >= |destination| + 2 && inner[|inner| - |destination| - 2..] == "'" + destination + "'")
  {
    var sh := ShellFor(isWindows, usePowerShell);
    RetryCommandRoundTrip(sh, RsyncCommand(origin, destination, port));
    var base := "rsync -var --progress --partial '" + origin + "' '" + destination;
    if PortGiven(port) {
      var inner := base + "'" + PortOption(port.value);
      assert inner[|inner| - |PortOption(port.value)|..] == PortOption(port.value);
    } else {
      var inner := base + "'";
      assert inner == "rsync -var --progress --partial '" + origin + "' " + ("'" + destination + "'");
    }
  }

  // ---------------------------------------------------------------------------
  // Artifact locations

  /** `getRemoteLocation(server, dir, path, artifact)`: an rsync remote
      path with the spaces of the artifact name escaped. */
  function GetRemoteLocation(server: string, serverDir: string, path: string, artifact: string): (r: string)
    ensures var head := server + ":" + serverDir + "/" + path + "/";
            |r| >= |head| && r[..|head|] == head && UnescapeSpaces(r[|head|..]) == artifact
  {
    var head := server + ":" + serverDir + "/" + path + "/";
    UnescapeEscape(artifact);
    assert (head + EscapeSpaces(artifact))[|head|..] == EscapeSpaces(artifact);
    head + EscapeSpaces(artifact)
  }

  /** Every space in the escaped artifact name follows a backslash. */
  lemma RemoteLocationSpacesEscaped(server: string, serverDir: string, path: string, artifact: string, i: int)
    requires var head := server + ":" + serverDir + "/" + path + "/";
             |head| <= i < |GetRemoteLocation(server, serverDir, path, artifact)|
             && GetRemoteLocation(server, serverDir, path, artifact)[i] == ' '
    ensures var head := server + ":" + serverDir + "/" + path + "/";
            i > |head| && GetRemoteLocation(server, serverDir, path, artifact)[i - 1] == '\\'
  {
    var head := server + ":" + serverDir + "/" + path + "/";
    var r := GetRemoteLocation(server, serverDir, path, artifact);
    assert r == head + EscapeSpaces(artifact);
    EscapedSpacesArePreceded(artifact, i - |head|);
  }

  /** `_getRemoteLocation(artifactPath)`: the step's artifact, or "" when
      it has none (an empty name is the same as none). */
  function StepRemoteLocation(server: string, serverDir: string, path: string, artifact: Option<string>): (r: string)
    ensures r == GetRemoteLocation(server, serverDir, path, artifact.GetOr(""))
  {
    if artifact.Some? && artifact.value != "" then GetRemoteLocation(server, serverDir, path, artifact.value)
    else GetRemoteLocation(server, serverDir, path, "")
  }

  /** `_getLocalDir(brid)`: the request id, under the destination when one
      is set. */
  function LocalDir(brid: int, destination: Option<string>): (r: string)
    ensures destination.None? || destination.value == "" ==> r == IntToDecimal(brid)
    ensures destination.Some? && destination.value != "" ==>
              |r| > |destination.value| && r[..|destination.value| + 1] == destination.value + "/"
              && r[|destination.value| + 1..] == IntToDecimal(brid)
  {
    var localdir := IntToDecimal(brid);
    if destination.Some? && destination.value != "" then
      var r := destination.value + "/" + localdir;
      assert r[..|destination.value| + 1] == destination.value + "/";
      assert r[|destination.value| + 1..] == localdir;
      r
    else localdir
  }

  // ---------------------------------------------------------------------------
  // _getBuildRequestIdsWithArtifacts

  datatype BuildRequest = BuildRequest(brid: int, artifactbrid: Option<int>)

  /** The request whose artifacts stand for `br`. */
  function ArtifactId(br: BuildRequest): int {
    if br.artifactbrid.None? then br.brid else br.artifactbrid.value
  }

  predicate StrictlyAscending(xs: seq<int>) {
    forall i, j :: 0 <= i < j < |xs| ==> xs[i] < xs[j]
  }

  /** Inserting into a strictly ascending list, keeping it so. */
  function InsertUnique(x: int, xs: seq<int>): (r: seq<int>)
    requires StrictlyAscending(xs)
    ensures StrictlyAscending(r)
    ensures forall y :: y in r <==> y in xs || y == x
  {
    if |xs| == 0 then [x]
    else if x < xs[0] then [x] + xs
    else if x == xs[0] then xs
    else
      var rest := InsertUnique(x, xs[1..]);
      assert forall y :: y in xs <==> y == xs[0] || y in xs[1..] by {
        assert xs == [xs[0]] + xs[1..];
      }
      assert forall j :: 0 <= j < |rest| ==> xs[0] < rest[j] by {
        forall j | 0 <= j < |rest| ensures xs[0] < rest[j] {
          assert rest[j] in rest;
        }
      }
      [xs[0]] + rest
  }

  /** `_getBuildRequestIdsWithArtifacts(buildrequests)`: each request's
      artifact request id (its own id when it has none), without
      duplicates, in ascending order. */
  method BuildRequestIdsWithArtifacts(requests: seq<BuildRequest>) returns (ids: seq<int>)
    ensures StrictlyAscending(ids)
    ensures forall x :: x in ids <==> exists br :: br in requests && ArtifactId(br) == x
  {
    ids := [];
    var i := 0;
    while i < |requests|
      invariant 0 <= i <= |requests|
      invariant StrictlyAscending(ids)
      invariant forall x :: x in ids <==> exists k :: 0 <= k < i && ArtifactId(requests[k]) == x
    {
      ids := InsertUnique(ArtifactId(requests[i]), ids);
      i := i + 1;
    }
    forall x ensures x in ids <==> exists br :: br in requests && ArtifactId(br) == x {
      if exists br :: br in requests && ArtifactId(br) == x {
        var br :| br in requests && ArtifactId(br) == x;
        var k :| 0 <= k < |requests| && requests[k] == br;
      }
    }
  }
}

=== FILE: build_files.dfy ===
/** The builder directory: which file names are build records and log files
    (`makeBuildFilename`, the regular expressions of `determineNextBuildNumber`
    and `prune`), cold-start recovery of the build counter, and the retention
    decisions of `prune`. */
module BuildFiles {
  import opened Wrappers
  import opened Strings

  /** `re.search("^(\d+).*$", f)`: the number spelled by the leading digits
      of a name whose remainder is a single line. */
  function LeadingNumber(f: string): Option<nat> {
    var k := DigitRun(f);
    if k > 0 && LineTail(f[k..]) then Some(DecimalValue(f[..k])) else None
  }

  /** `re.match(r"^([0-9]+)$", f)`: a build record file. */
  function BuildFileNumber(f: string): Option<nat> {
    var k := DigitRun(f);
    if k > 0 && (k == |f| || (k == |f| - 1 && f[k] == '\n')) then Some(DecimalValue(f[..k])) else None
  }

  /** `re.match(r"^([0-9]+)-.*$", f)`: a log file of a build. */
  function LogFileNumber(f: string): Option<nat> {
    var k := DigitRun(f);
    if k > 0 && k < |f| && f[k] == '-' && LineTail(f[k + 1..]) then Some(DecimalValue(f[..k])) else None
  }

  /** `makeBuildFilename(number)`, relative to the builder directory. */
  function BuildFileName(n: nat): string {
    NatToDecimal(n)
  }

  /** The file a build is saved to is read back as that build's number, by
      both the recovery scan and the pruner. */
  lemma BuildFileNameRoundTrip(n: nat)
    ensures BuildFileNumber(BuildFileName(n)) == Some(n)
    ensures LeadingNumber(BuildFileName(n)) == Some(n)
    ensures LogFileNumber(BuildFileName(n)).None?
  {
    var f := BuildFileName(n);
    DigitRunOfDigits(f);
    assert f[..|f|] == f;
  }

  /** A log file `<n>-<suffix>` (single-line suffix) is read back as build
      `n`'s log, and also counts for the recovery scan. */
  lemma LogFileNameRoundTrip(n: nat, suffix: string)
    requires LineTail(suffix)
    ensures LogFileNumber(BuildFileName(n) + "-" + suffix) == Some(n)
    ensures LeadingNumber(BuildFileName(n) + "-" + suffix) == Some(n)
    ensures BuildFileNumber(BuildFileName(n) + "-" + suffix).None?
  {
    var d := BuildFileName(n);
    var f := d + "-" + suffix;
    DigitRunOfDigits(d);
    DigitRunPrefix(d, "-" + suffix);
    assert f[..|d|] == d;
    assert f[|d| + 1..] == suffix;
    assert f[|d|..] == "-" + suffix;
  }

  lemma {:induction false} DigitRunPrefix(d: string, t: string)
    requires AllDigits(d)
    requires |t| > 0 && !IsDigit(t[0])
    ensures DigitRun(d + t) == |d|
  {
    if |d| > 0 {
      assert (d + t)[1..] == d[1..] + t;
      DigitRunPrefix(d[1..], t);
    } else {
      assert d + t == t;
    }
  }

  /** `determineNextBuildNumber`: one more than the largest number any
      directory entry starts with, or 0 when no entry starts with a digit. */
  method DetermineNextBuildNumber(files: set<string>) returns (next: nat)
    ensures forall f :: f in files && LeadingNumber(f).Some? ==> LeadingNumber(f).value < next
    ensures next > 0 ==> exists f :: f in files && LeadingNumber(f) == Some(next - 1)
  {
    var rest := files;
    var best: Option<nat> := None;
    while rest != {}
      invariant rest <= files
      invariant forall f :: f in files - rest && LeadingNumber(f).Some? ==> best.Some? && LeadingNumber(f).value <= best.value
      invariant best.Some? ==> exists f :: f in files - rest && LeadingNumber(f) == best
      decreases rest
    {
      var f :| f in rest;
      var num := LeadingNumber(f);
      if num.Some? && (best.None? || num.value > best.value) {
        best := num;
      }
      rest := rest - {f};
    }
    next := if best.Some? then best.value + 1 else 0;
  }

  // ---------------------------------------------------------------------------
  // Retention

  /** `earliest_build`: the counter minus the build horizon, 0 if unset. */
  function EarliestBuild(next: int, buildHorizon: Option<int>): int {
    if buildHorizon.Some? then next - buildHorizon.value else 0
  }

  /** `earliest_log`: the counter minus the log horizon (0 if unset), never
      below `earliest_build`. */
  function EarliestLog(next: int, buildHorizon: Option<int>, logHorizon: Option<int>): (r: int)
    ensures r >= EarliestBuild(next, buildHorizon)
    ensures logHorizon.Some? ==> r >= next - logHorizon.value
    ensures r == EarliestBuild(next, buildHorizon) || r == (if logHorizon.Some? then next - logHorizon.value else 0)
  {
    var eb := EarliestBuild(next, buildHorizon);
    var el := if logHorizon.Some? then next - logHorizon.value else 0;
    if el < eb then eb else el
  }

  /** The test `prune` applies to one directory entry. */
  predicate PruneEligible(f: string, next: int, buildHorizon: Option<int>, logHorizon: Option<int>, cached: set<int>) {
    var eb := EarliestBuild(next, buildHorizon);
    var el := EarliestLog(next, buildHorizon, logHorizon);
    var bn := BuildFileNumber(f);
    var ln := LogFileNumber(f);
    if bn.Some? then bn.value !in cached && bn.value < eb
    else if ln.Some? then ln.value !in cached && (ln.value < el || ln.value < eb)
    else false
  }

  /** The entries `prune` unlinks: none when `earliest_build` is 0, otherwise
      every eligible one. */
  function PruneFiles(files: set<string>, next: int, buildHorizon: Option<int>, logHorizon: Option<int>, cached: set<int>): (deleted: set<string>)
    ensures deleted <= files
    ensures EarliestBuild(next, buildHorizon) == 0 ==> deleted == {}
    ensures forall f :: f in deleted ==> BuildFileNumber(f).Some? || LogFileNumber(f).Some?
  {
    if EarliestBuild(next, buildHorizon) == 0 then {}
    else set f | f in files && PruneEligible(f, next, buildHorizon, logHorizon, cached)
  }

  /** A build record file is removed exactly when its number is below
      `earliest_build` and not cached (and `earliest_build` is not 0). */
  lemma PruneBuildFile(files: set<string>, n: nat, next: int, bh: Option<int>, lh: Option<int>, cached: set<int>)
    requires BuildFileName(n) in files
    ensures BuildFileName(n) in PruneFiles(files, next, bh, lh, cached)
        <==> EarliestBuild(next, bh) != 0 && n !in cached && n < EarliestBuild(next, bh)
  {
    BuildFileNameRoundTrip(n);
  }

  /** A log file is removed exactly when its build number is below
      `earliest_log` and not cached (and `earliest_build` is not 0). */
  lemma PruneLogFile(files: set<string>, n: nat, suffix: string, next: int, bh: Option<int>, lh: Option<int>, cached: set<int>)
    requires LineTail(suffix)
    requires BuildFileName(n) + "-" + suffix in files
    ensures BuildFileName(n) + "-" + suffix in PruneFiles(files, next, bh, lh, cached)
        <==> EarliestBuild(next, bh) != 0 && n !in cached && n < EarliestLog(next, bh, lh)
  {
    LogFileNameRoundTrip(n, suffix);
  }

  /** No file of a cached build number is ever removed. */
  lemma PruneSparesCached(files: set<string>, next: int, bh: Option<int>, lh: Option<int>, cached: set<int>, f: string)
    requires f in PruneFiles(files, next, bh, lh, cached)
    ensures BuildFileNumber(f).Some? ==> BuildFileNumber(f).value !in cached
    ensures BuildFileNumber(f).None? ==> LogFileNumber(f).value !in cached
  {
  }

  /** The worked example: with the counter at 20, a build horizon of 5 and a
      log horizon of 3, build files 0-14 and log files 0-16 go (unless
      cached), build files 15-19 and log files 17-19 stay. */
  lemma PruneExample(files: set<string>, n: nat, cached: set<int>)
    requires BuildFileName(n) in files && BuildFileName(n) + "-log" in files
    requires n < 20
    ensures BuildFileName(n) in PruneFiles(files, 20, Some(5), Some(3), cached) <==> n <= 14 && n !in cached
    ensures BuildFileName(n) + "-log" in PruneFiles(files, 20, Some(5), Some(3), cached) <==> n <= 16 && n !in cached
  {
    assert LineTail("log");
    assert BuildFileName(n) + "-" + "log" == BuildFileName(n) + "-log";
    PruneBuildFile(files, n, 20, Some(5), Some(3), cached);
    PruneLogFile(files, n, "log", 20, Some(5), Some(3), cached);
  }

  /** `self.events[-eventHorizon:]`, with Python's slice clamping. */
  function PruneEvents<T>(events: seq<T>, eventHorizon: int): (r: seq<T>)
    ensures eventHorizon > 0 ==> r == events[|events| - (if eventHorizon < |events| then eventHorizon else |events|)..]
    ensures eventHorizon == 0 ==> r == events
  {
    var start := -eventHorizon;
    var from := if start < 0 then (if |events| + start < 0 then 0 else |events| + start)
                else (if start > |events| then |events| else start);
    events[from..]
  }
}

=== FILE: builder_status.dfy ===
/** `BuilderStatus`: the per-builder state machine. Its state is the build
    counter, the event list, the running builds, the build cache (resident
    entries of the LRU cache), the numbers known to have no record, the
    latest-build memo and the two single-flight maps. The builder directory
    is a `Store` passed to, and returned from, the operations that use it. */
module BuilderStatus {
  import opened Wrappers
  import opened Strings
  import opened Records
  import opened CacheKey
  import opened BuildFiles
  import opened LatestBuildMemo
  import opened SingleFlight

  /** The master configuration the builder status reads. */
  datatype Config = Config(
    eventHorizon: int,
    buildHorizon: Option<int>,
    logHorizon: Option<int>,
    lastBuildCacheDays: int)

  datatype BuilderState = BuilderState(
    name: string,
    category: Option<string>,
    nextBuildNumber: int,
    events: seq<Event>,
    currentBuilds: seq<Build>,
    cache: map<int, Build>,
    unavailable: set<int>,
    latestBuildCache: Memo,
    loadingBuilds: Flights,
    cancelBuilds: Flights)

  /** A builder status as `__init__` leaves it, with the counter recovered
      by `determineNextBuildNumber`. */
  function Fresh(name: string, category: Option<string>, next: int): BuilderState {
    BuilderState(name, category, next, [], [], map[], {}, map[], map[], map[])
  }

  // ---------------------------------------------------------------------------
  // Build numbers

  /** `newBuild`: hands out the current counter and advances it by one. */
  function NewBuild(s: BuilderState): (r: (int, BuilderState))
    ensures r.0 == s.nextBuildNumber
    ensures r.1.nextBuildNumber == r.0 + 1
    ensures r.1 == s.(nextBuildNumber := r.1.nextBuildNumber)
  {
    (s.nextBuildNumber, s.(nextBuildNumber := s.nextBuildNumber + 1))
  }

  /** `k` successive `newBuild` calls: the numbers are consecutive from the
      counter, so strictly increasing and never repeated. */
  function NewBuilds(s: BuilderState, k: nat): (r: (seq<int>, BuilderState))
    ensures |r.0| == k
    ensures forall i :: 0 <= i < k ==> r.0[i] == s.nextBuildNumber + i
    ensures forall i, j :: 0 <= i < j < k ==> r.0[i] < r.0[j]
    ensures r.1 == s.(nextBuildNumber := s.nextBuildNumber + k)
  {
    if k == 0 then ([], s)
    else
      var (ns, s1) := NewBuilds(s, k - 1);
      var (n, s2) := NewBuild(s1);
      (ns + [n], s2)
  }

  // ---------------------------------------------------------------------------
  // Looking builds up

  /** The first running build with number `n`, as `cacheMiss` scans
      `currentBuilds`. */
  function FindCurrent(builds: seq<Build>, n: int): (r: Option<Build>)
    ensures r.Some? ==> r.value in builds && r.value.number == n
    ensures r.None? ==> forall b :: b in builds ==> b.number != n
  {
    if |builds| == 0 then None
    else if builds[0].number == n then Some(builds[0])
    else FindCurrent(builds[1..], n)
  }

  /** What the build cache answers for number `n` (`buildCache.get`):
      the resident entry, else a running build, else nothing for a number
      known to be unavailable, else the record file's content. */
  function Resolve(s: BuilderState, store: Store, n: int): Option<Build> {
    if n in s.cache then Some(s.cache[n])
    else if FindCurrent(s.currentBuilds, n).Some? then FindCurrent(s.currentBuilds, n)
    else if n in s.unavailable then None
    else if IntToDecimal(n) !in store then None
    else store[IntToDecimal(n)]
  }

  /** `getBuild(number)`: negative numbers count back from the counter; a
      number outside `[0, nextBuildNumber)` gives `None`. A hit on a running
      build or a readable file is cached, and a missing file marks the
      number unavailable. The cache is transparent: no number resolves
      differently afterwards. */
  function GetBuild(s: BuilderState, store: Store, number: int): (r: (Option<Build>, BuilderState))
    ensures var n := if number < 0 then s.nextBuildNumber + number else number;
            r.0 == (if 0 <= n < s.nextBuildNumber then Resolve(s, store, n) else None)
    ensures forall m {:trigger Resolve(r.1, store, m)} :: Resolve(r.1, store, m) == Resolve(s, store, m)
    ensures r.1 == s.(cache := r.1.cache, unavailable := r.1.unavailable)
    ensures forall k :: k in s.cache ==> k in r.1.cache && r.1.cache[k] == s.cache[k]
  {
    var n := if number < 0 then s.nextBuildNumber + number else number;
    if n < 0 || n >= s.nextBuildNumber then (None, s)
    else if n in s.cache then (Some(s.cache[n]), s)
    else
      var current := FindCurrent(s.currentBuilds, n);
      if current.Some? then (current, s.(cache := s.cache[n := current.value]))
      else if n in s.unavailable then (None, s)
      else
        var filename := IntToDecimal(n);
        if filename !in store then
          (None, s.(unavailable := if n < s.nextBuildNumber then s.unavailable + {n} else s.unavailable))
        else
          var loaded := store[filename];
          if loaded.Some? then (loaded, s.(cache := s.cache[n := loaded.value]))
          else (None, s)
  }

  /** Python list indexing: `events[i]`, negative from the end. */
  function GetEvent(s: BuilderState, i: int): (r: Option<Event>)
    ensures r.Some? <==> -|s.events| <= i < |s.events|
    ensures 0 <= i < |s.events| ==> r == Some(s.events[i])
    ensures -|s.events| <= i < 0 ==> r == Some(s.events[|s.events| + i])
  {
    if 0 <= i < |s.events| then Some(s.events[i])
    else if -|s.events| <= i < 0 then Some(s.events[|s.events| + i])
    else None
  }

  /** `_getBuildBranches`: the branches of a build's source stamps. */
  function BuildBranches(b: Build): (r: set<Option<string>>)
    ensures forall br :: br in r <==> exists ss :: ss in b.sourceStamps && ss.branch == br
  {
    set ss | ss in b.sourceStamps :: ss.branch
  }

  /** `foundCodebasesInBuild`: counts the stamps whose codebase is selected
      on the selected branch. */
  function CountMatching(stamps: seq<SourceStamp>, codebases: Overrides): (k: nat)
    ensures k <= |stamps|
  {
    if |stamps| == 0 then 0
    else CountMatching(stamps[..|stamps| - 1], codebases)
         + (var ss := stamps[|stamps| - 1];
            if ss.codebase in codebases && ss.branch == Some(codebases[ss.codebase]) then 1 else 0)
  }

  /** The test of `foundCodebasesInBuild`: a non-empty selection and as many
      matching stamps as stamps (an empty selection gives `None`, which is
      false). */
  predicate FoundCodebasesInBuild(b: Build, codebases: Overrides) {
    |codebases| > 0 && CountMatching(b.sourceStamps, codebases) == |b.sourceStamps|
  }

  predicate StampMatches(ss: SourceStamp, codebases: Overrides) {
    ss.codebase in codebases && ss.branch == Some(codebases[ss.codebase])
  }

  lemma {:induction false} CountMatchingAll(stamps: seq<SourceStamp>, codebases: Overrides)
    ensures CountMatching(stamps, codebases) == |stamps| <==> forall ss :: ss in stamps ==> StampMatches(ss, codebases)
  {
    if |stamps| > 0 {
      var init := stamps[..|stamps| - 1];
      var last := stamps[|stamps| - 1];
      CountMatchingAll(init, codebases);
      assert stamps == init + [last];
      assert CountMatching(stamps, codebases)
          == CountMatching(init, codebases) + (if StampMatches(last, codebases) then 1 else 0);
      if forall ss :: ss in stamps ==> StampMatches(ss, codebases) {
        assert forall ss :: ss in init ==> StampMatches(ss, codebases);
        assert StampMatches(last, codebases);
      }
    }
  }

  /** A build matches a codebase selection when ALL of its stamps are on a
      selected codebase and branch, not merely some. */
  lemma FoundCodebasesMeansAll(b: Build, codebases: Overrides)
    ensures FoundCodebasesInBuild(b, codebases)
        <==> |codebases| > 0 && forall ss :: ss in b.sourceStamps ==> StampMatches(ss, codebases)
  {
    CountMatchingAll(b.sourceStamps, codebases);
  }

  // ---------------------------------------------------------------------------
  // Build lifecycle

  /** `buildStarted`: the build joins the running builds and goes through
      `buildCache.get(number, val=build)`, which only fills a miss: an entry
      already resident for that number stays. */
  function BuildStarted(s: BuilderState, b: Build): (r: BuilderState)
    requires b !in s.currentBuilds
    ensures r.currentBuilds == s.currentBuilds + [b]
    ensures b.number in r.cache
    ensures b.number !in s.cache ==> r.cache == s.cache[b.number := b]
    ensures b.number in s.cache ==> r.cache == s.cache
    ensures r == s.(currentBuilds := r.currentBuilds, cache := r.cache)
  {
    s.(currentBuilds := s.currentBuilds + [b],
       cache := if b.number in s.cache then s.cache else s.cache[b.number := b])
  }

  /** While a build runs, looking up its number returns that very record,
      whatever is on disk, unless a record was already resident under its
      number, which the cache keeps answering. */
  lemma RunningBuildServedFromMemory(s: BuilderState, b: Build, store: Store)
    requires b !in s.currentBuilds
    requires 0 <= b.number < s.nextBuildNumber
    ensures GetBuild(BuildStarted(s, b), store, b.number).0
            == Some(if b.number in s.cache then s.cache[b.number] else b)
  {
  }

  /** `buildStarted` as evidently intended: as `BuildStarted`, and the number,
      which now has a record, is no longer marked unavailable. */
  function BuildStartedCorrected(s: BuilderState, b: Build): (r: BuilderState)
    requires b !in s.currentBuilds
    ensures r.unavailable == s.unavailable - {b.number}
    ensures r == BuildStarted(s, b).(unavailable := r.unavailable)
  {
    BuildStarted(s, b).(unavailable := s.unavailable - {b.number})
  }

  /** As written: looking up the newest number between `newBuild` and
      `buildStarted` finds no record and marks it unavailable, and
      `buildStarted` leaves the mark. Once the resident entry is gone, the
      number resolves to nothing even with its record file on disk. */
  lemma StartedBuildStaysUnavailable(s: BuilderState, store: Store, b: Build)
    requires b !in s.currentBuilds
    requires 0 <= b.number == s.nextBuildNumber
    requires b.number !in s.cache && FindCurrent(s.currentBuilds, b.number).None?
    requires IntToDecimal(b.number) !in store
    ensures var s1 := GetBuild(NewBuild(s).1, store, -1).1;
            var s2 := BuildStarted(s1, b);
            && b.number in s2.unavailable
            && Resolve(s2.(cache := s2.cache - {b.number}, currentBuilds := []),
                       store[IntToDecimal(b.number) := Some(b)], b.number) == None
  {
  }

  /** With the corrected start, the same sequence leaves the number
      resolvable from its record file once the resident entry is gone. */
  lemma CorrectedStartedBuildReloads(s: BuilderState, store: Store, b: Build)
    requires b !in s.currentBuilds
    requires 0 <= b.number == s.nextBuildNumber
    requires b.number !in s.cache && FindCurrent(s.currentBuilds, b.number).None?
    requires IntToDecimal(b.number) !in store
    ensures var s1 := GetBuild(NewBuild(s).1, store, -1).1;
            var s2 := BuildStartedCorrected(s1, b);
            && b.number !in s2.unavailable
            && Resolve(s2.(cache := s2.cache - {b.number}, currentBuilds := []),
                       store[IntToDecimal(b.number) := Some(b)], b.number) == Some(b)
  {
  }

  function RemoveFirst(builds: seq<Build>, n: int): (r: seq<Build>)
    ensures FindCurrent(builds, n).Some? ==> |r| == |builds| - 1
    ensures FindCurrent(builds, n).None? ==> r == builds
    ensures multiset(r) <= multiset(builds)
  {
    if |builds| == 0 then []
    else
      assert builds == [builds[0]] + builds[1..];
      if builds[0].number == n then builds[1..]
      else [builds[0]] + RemoveFirst(builds[1..], n)
  }

  /** `_buildFinished`: the record is saved under its number, leaves the
      running builds, the memo learns it, and the builder is pruned. (The
      cached entry is the same object, so it reflects the finished record.)
      The prune runs in a thread in builder.py; here it runs at once, over
      the directory with the record just written. */
  function BuildFinished(s: BuilderState, store: Store, b: Build, project: Option<Project>, now: int, config: Config): (r: (BuilderState, Store))
    requires FindCurrent(s.currentBuilds, b.number).Some?
    ensures r.0.currentBuilds == RemoveFirst(s.currentBuilds, b.number)
    ensures |r.0.currentBuilds| == |s.currentBuilds| - 1
    ensures r.0.latestBuildCache == SaveLatestBuild(s.latestBuildCache, Some(b), "", project, now)
    ensures r.0.events == PruneEvents(s.events, config.eventHorizon)
    ensures r.0.cache.Keys == s.cache.Keys
    ensures b.number in s.cache ==> r.0.cache[b.number] == b
    ensures forall k :: k in s.cache && k != b.number ==> r.0.cache[k] == s.cache[k]
    ensures r.0 == s.(currentBuilds := r.0.currentBuilds, cache := r.0.cache,
                      latestBuildCache := r.0.latestBuildCache, events := r.0.events)
    ensures var saved := store[IntToDecimal(b.number) := Some(b)];
            && r.1.Keys <= saved.Keys
            && (forall f :: f in r.1 ==> r.1[f] == saved[f])
            && (forall f :: f in saved ==>
                  (f !in r.1 <==> EarliestBuild(s.nextBuildNumber, config.buildHorizon) != 0
                                  && PruneEligible(f, s.nextBuildNumber, config.buildHorizon, config.logHorizon, s.cache.Keys)))
  {
    var store' := store[IntToDecimal(b.number) := Some(b)];
    var s' := s.(currentBuilds := RemoveFirst(s.currentBuilds, b.number),
                 cache := if b.number in s.cache then s.cache[b.number := b] else s.cache,
                 latestBuildCache := SaveLatestBuild(s.latestBuildCache, Some(b), "", project, now));
    assert s'.cache.Keys == s.cache.Keys;
    var r := Prune(s', store', config, false);
    assert r.0 == s'.(events := r.0.events);
    r
  }

  /** A finished build is there for a newly constructed builder status: one
      built over the saved and pruned directory loads exactly that record,
      the build being in the cache and so spared by the prune. */
  lemma FinishedBuildReloads(s: BuilderState, store: Store, b: Build, project: Option<Project>, now: int, config: Config)
    requires FindCurrent(s.currentBuilds, b.number).Some?
    requires 0 <= b.number && b.number in s.cache
    ensures var (s', store') := BuildFinished(s, store, b, project, now, config);
            GetBuild(Fresh(s.name, s.category, b.number + 1), store', b.number).0 == Some(b)
  {
    var saved := store[IntToDecimal(b.number) := Some(b)];
    var store' := BuildFinished(s, store, b, project, now, config).1;
    BuildFileNameRoundTrip(b.number);
    assert !PruneEligible(IntToDecimal(b.number), s.nextBuildNumber, config.buildHorizon, config.logHorizon, s.cache.Keys);
    assert IntToDecimal(b.number) in store';
  }

  /** A restart through the pickle: `__getstate__` drops the build cache, the
      running builds, the counter, the memo and the load entries;
      `__setstate__` and `setStatus` start the cache, the running builds,
      both flight maps and the memo empty; the counter is recomputed from the
      directory as `next`. The events and the unavailable numbers travel
      through the pickle. */
  function Restart(s: BuilderState, next: int): (r: BuilderState)
    ensures r.cache == map[] && r.currentBuilds == [] && r.latestBuildCache == map[]
    ensures r.loadingBuilds == map[] && r.cancelBuilds == map[] && r.nextBuildNumber == next
    ensures r == s.(nextBuildNumber := next, currentBuilds := [], cache := map[],
                    latestBuildCache := map[], loadingBuilds := map[], cancelBuilds := map[])
  {
    s.(nextBuildNumber := next, currentBuilds := [], cache := map[],
       latestBuildCache := map[], loadingBuilds := map[], cancelBuilds := map[])
  }

  /** A finished build survives a restart through the pickle, provided its
      number was never marked unavailable: the restarted status loads exactly
      that record from the directory (`next`, from `determineNextBuildNumber`,
      lies above every record's number). */
  lemma FinishedBuildSurvivesRestart(s: BuilderState, store: Store, b: Build, project: Option<Project>, now: int, config: Config, next: int)
    requires FindCurrent(s.currentBuilds, b.number).Some?
    requires 0 <= b.number < next && b.number in s.cache
    requires b.number !in s.unavailable
    ensures var (s', store') := BuildFinished(s, store, b, project, now, config);
            GetBuild(Restart(s', next), store', b.number).0 == Some(b)
  {
    var store' := BuildFinished(s, store, b, project, now, config).1;
    BuildFileNameRoundTrip(b.number);
    assert !PruneEligible(IntToDecimal(b.number), s.nextBuildNumber, config.buildHorizon, config.logHorizon, s.cache.Keys);
    assert IntToDecimal(b.number) in store';
  }

  /** A number marked unavailable stays so across a restart: whatever the
      directory holds by then, the restarted status resolves it to nothing. */
  lemma RestartKeepsUnavailable(s: BuilderState, store: Store, next: int, n: int)
    requires 0 <= n && n in s.unavailable
    ensures n in Restart(s, next).unavailable
    ensures GetBuild(Restart(s, next), store, n).0 == None
  {
  }

  // ---------------------------------------------------------------------------
  // Events and retention

  /** `addEvent` / `addPointEvent`: append, then prune the events. */
  function AddEvent(s: BuilderState, e: Event, config: Config): (r: BuilderState)
    ensures config.eventHorizon > 0 ==> |r.events| > 0 && r.events[|r.events| - 1] == e
    ensures config.eventHorizon > 0 ==> |r.events| <= config.eventHorizon
    ensures config.eventHorizon > 0 ==>
              r.events == (s.events + [e])[|s.events| + 1 - Min(config.eventHorizon, |s.events| + 1)..]
    ensures config.eventHorizon == 0 ==> r.events == s.events + [e]
    ensures r == s.(events := r.events)
  {
    s.(events := PruneEvents(s.events + [e], config.eventHorizon))
  }

  /** `prune(events_only)`: keep the last `eventHorizon` events and, unless
      only events are pruned, unlink the record and log files outside the
      horizons. */
  function Prune(s: BuilderState, store: Store, config: Config, eventsOnly: bool): (r: (BuilderState, Store))
    ensures r.0 == s.(events := r.0.events)
    ensures config.eventHorizon > 0 ==> r.0.events == s.events[|s.events| - Min(config.eventHorizon, |s.events|)..]
    ensures config.eventHorizon == 0 ==> r.0.events == s.events
    ensures eventsOnly ==> r.1 == store
    ensures r.1.Keys <= store.Keys
    ensures forall f :: f in r.1 ==> r.1[f] == store[f]
    ensures !eventsOnly ==> forall f :: f in store ==>
              (f !in r.1 <==> EarliestBuild(s.nextBuildNumber, config.buildHorizon) != 0
                              && PruneEligible(f, s.nextBuildNumber, config.buildHorizon, config.logHorizon, s.cache.Keys))
    ensures forall n :: n in s.cache && BuildFileName(n) in store ==> BuildFileName(n) in r.1
  {
    var s' := s.(events := PruneEvents(s.events, config.eventHorizon));
    if eventsOnly then (s', store)
    else
      var deleted := PruneFiles(store.Keys, s.nextBuildNumber, config.buildHorizon, config.logHorizon, s.cache.Keys);
      forall n: nat | n in s.cache && BuildFileName(n) in store
        ensures BuildFileName(n) !in deleted
      {
        BuildFileNameRoundTrip(n);
      }
      (s', store - deleted)
  }

  function Min(a: int, b: int): int {
    if a < b then a else b
  }

  // ---------------------------------------------------------------------------
  // The latest-build memo

  /** The memo's time unit is the second; `lastBuildCacheDays` is in days. */
  const SecondsPerDay: int := 86400

  /** `getLatestBuildCache(key)` at time `now`: an entry older than the
      configured number of days is dropped and gives nothing; a fresh entry
      naming a build gives that build. */
  function GetLatestBuildCache(s: BuilderState, store: Store, key: string, now: int, config: Config): (r: (Option<Build>, BuilderState))
    requires key in s.latestBuildCache
    ensures now - s.latestBuildCache[key].date > config.lastBuildCacheDays * SecondsPerDay ==>
              r.0.None? && r.1 == s.(latestBuildCache := s.latestBuildCache - {key})
    ensures now - s.latestBuildCache[key].date <= config.lastBuildCacheDays * SecondsPerDay ==>
              var entry := s.latestBuildCache[key];
              r.0 == (if entry.build.Some? then GetBuild(s, store, entry.build.value).0 else None)
    ensures now - s.latestBuildCache[key].date <= config.lastBuildCacheDays * SecondsPerDay ==>
              r.1 == s.(cache := r.1.cache, unavailable := r.1.unavailable)
    ensures forall m {:trigger Resolve(r.1, store, m)} :: Resolve(r.1, store, m) == Resolve(s, store, m)
  {
    var entry := s.latestBuildCache[key];
    if now - entry.date > config.lastBuildCacheDays * SecondsPerDay then
      (None, s.(latestBuildCache := s.latestBuildCache - {key}))
    else if entry.build.Some? then GetBuild(s, store, entry.build.value)
    else (None, s)
  }

  // ---------------------------------------------------------------------------
  // Single-flight loads and cancellations

  /** `loadBuildFromThread(n)`: the first caller opens a flight for build `n`
      with one waiter and no result yet; every later caller joins it. */
  function LoadBuildFromThread(s: BuilderState, n: int): (r: BuilderState)
    ensures r == s.(loadingBuilds := r.loadingBuilds)
    ensures n in r.loadingBuilds
    ensures n !in s.loadingBuilds ==> r.loadingBuilds[n] == Flight(1, None)
    ensures n in s.loadingBuilds ==> r.loadingBuilds[n].access == s.loadingBuilds[n].access + 1
                                     && r.loadingBuilds[n].build == s.loadingBuilds[n].build
    ensures r.loadingBuilds.Keys == s.loadingBuilds.Keys + {n}
    ensures forall k :: k in s.loadingBuilds && k != n ==> r.loadingBuilds[k] == s.loadingBuilds[k]
  {
    s.(loadingBuilds := Acquire(s.loadingBuilds, n))
  }

  /** `getLoadedBuildFromThread(n)`. */
  function GetLoadedBuildFromThread(s: BuilderState, n: int): (r: (Option<Build>, BuilderState))
    requires n in s.loadingBuilds
    ensures r.0 == s.loadingBuilds[n].build
    ensures r.1 == s.(loadingBuilds := Release(s.loadingBuilds, n))
  {
    var (b, m) := GetLoadedBuild(s.loadingBuilds, n);
    (b, s.(loadingBuilds := m))
  }

  /** `cancelBuildFromThread(build)`: the first caller opens a cancellation
      flight for build `n` with one waiter; every later caller joins it. */
  function CancelBuildFromThread(s: BuilderState, n: int): (r: BuilderState)
    ensures r == s.(cancelBuilds := r.cancelBuilds)
    ensures n in r.cancelBuilds
    ensures n !in s.cancelBuilds ==> r.cancelBuilds[n] == Flight(1, None)
    ensures n in s.cancelBuilds ==> r.cancelBuilds[n].access == s.cancelBuilds[n].access + 1
                                    && r.cancelBuilds[n].build == s.cancelBuilds[n].build
    ensures r.cancelBuilds.Keys == s.cancelBuilds.Keys + {n}
    ensures forall k :: k in s.cancelBuilds && k != n ==> r.cancelBuilds[k] == s.cancelBuilds[k]
  {
    s.(cancelBuilds := Acquire(s.cancelBuilds, n))
  }

  /** `buildCanceled(_, n)`. */
  function BuildCanceled(s: BuilderState, n: int): (r: BuilderState)
    requires n in s.cancelBuilds
    ensures r == s.(cancelBuilds := Release(s.cancelBuilds, n))
  {
    s.(cancelBuilds := Release(s.cancelBuilds, n))
  }
}

=== FILE: cache_key.dfy ===
/** Cache keys for codebase selections: `getCodebaseConfiguredBranch`,
    `getCodebaseBranch`, `getCacheKey` and `BuilderStatus.getCodebasesCacheKey`.
    A key is the concatenation, in codebase-name order, of `"<codebase>=<branch>;"`
    over the codebases the project configures. Deriving a key also writes the
    branch it resolved for each codebase back into the caller's override map. */
module CacheKey {
  import opened Wrappers
  import opened Strings

  /** A configured `branch`/`defaultbranch` value: a string, a list of
      strings, or anything else (such as `None`). */
  datatype BranchValue = BStr(s: string) | BList(items: seq<string>) | BOther

  /** One entry `{name: {...}}` of a project's codebase list. */
  datatype CodebaseConfig = CodebaseConfig(
    name: string,
    defaultBranch: Option<BranchValue>,
    branch: Option<BranchValue>,
    repository: Option<string>,
    displayRepository: Option<string>)

  datatype Project = Project(name: string, codebases: seq<CodebaseConfig>)

  /** The override map a caller passes: codebase name to branch. */
  type Overrides = map<string, string>

  /** The configured branch: `defaultbranch`, else `branch`, else `""`. */
  function ConfiguredBranch(c: CodebaseConfig): BranchValue {
    if c.defaultBranch.Some? then c.defaultBranch.value
    else if c.branch.Some? then c.branch.value
    else BStr("")
  }

  /** The string a configured value stands for: itself if a string, its
      first element if a non-empty list, `""` otherwise. */
  function BranchString(v: BranchValue): string {
    match v
    case BStr(s) => s
    case BList(items) => if |items| > 0 then items[0] else ""
    case BOther => ""
  }

  /** The branch a codebase gets under the overrides `ov`. */
  function ResolvedBranch(c: CodebaseConfig, ov: Overrides): string {
    if c.name in ov then ov[c.name] else BranchString(ConfiguredBranch(c))
  }

  /** `getCodebaseBranch(branch, codebases, key)`: the override if present,
      otherwise the normalised configured branch, which is then recorded
      in the override map. */
  function CodebaseBranch(configured: BranchValue, ov: Overrides, key: string): (r: (string, Overrides))
    ensures key in r.1 && r.1[key] == r.0
    ensures r.1.Keys == ov.Keys + {key}
    ensures forall k :: k in ov ==> r.1[k] == ov[k]
    ensures key !in ov ==> r.0 == BranchString(configured)
  {
    if key in ov then (ov[key], ov)
    else
      var b := BranchString(configured);
      (b, ov[key := b])
  }

  function KeyEntry(name: string, branch: string): string {
    name + "=" + branch + ";"
  }

  // ---------------------------------------------------------------------------
  // Ordering codebases by name (Python's stable `sorted`)

  ghost predicate SortedByName(cs: seq<CodebaseConfig>) {
    forall i, j :: 0 <= i < j < |cs| ==> LexLe(cs[i].name, cs[j].name)
  }

  /** Inserts `x` after every element whose name is not greater, which keeps
      equal names in their original order. */
  function InsertByName(x: CodebaseConfig, cs: seq<CodebaseConfig>): (r: seq<CodebaseConfig>)
    requires SortedByName(cs)
    ensures multiset(r) == multiset(cs) + multiset{x}
    ensures SortedByName(r)
  {
    if |cs| == 0 then [x]
    else if LexLe(cs[0].name, x.name) then
      SortedTail(cs);
      var rest := InsertByName(x, cs[1..]);
      assert cs == [cs[0]] + cs[1..];
      forall k | 0 <= k < |rest|
        ensures LexLe(cs[0].name, rest[k].name)
      {
        if rest[k] != x {
          var i := FromRest(rest[k], rest, cs[1..], x);
          assert cs[i + 1] == rest[k];
        }
      }
      SortedCons(cs[0], rest);
      [cs[0]] + rest
    else
      LexLeTotal(cs[0].name, x.name);
      forall j | 0 <= j < |cs|
        ensures LexLe(x.name, cs[j].name)
      {
        if j > 0 {
          LexLeTransitive(x.name, cs[0].name, cs[j].name);
        }
      }
      SortedCons(x, cs);
      [x] + cs
  }

  /** An element of `r`, which holds `a` and one `y`, other than `y` is
      at some index of `a`. */
  lemma FromRest<T>(x: T, r: seq<T>, a: seq<T>, y: T) returns (i: int)
    requires multiset(r) == multiset(a) + multiset{y} && x in r && x != y
    ensures 0 <= i < |a| && a[i] == x
  {
    assert x in multiset(r);
    assert x in multiset(a);
    i :| 0 <= i < |a| && a[i] == x;
  }

  lemma SortedCons(y: CodebaseConfig, rest: seq<CodebaseConfig>)
    requires SortedByName(rest)
    requires forall k :: 0 <= k < |rest| ==> LexLe(y.name, rest[k].name)
    ensures SortedByName([y] + rest)
  {
    var l := [y] + rest;
    forall i, j | 0 <= i < j < |l| ensures LexLe(l[i].name, l[j].name) {
      assert l[j] == rest[j - 1];
      if i > 0 {
        assert l[i] == rest[i - 1];
      }
    }
  }

  function SortByName(cs: seq<CodebaseConfig>): (r: seq<CodebaseConfig>)
    ensures multiset(r) == multiset(cs)
    ensures SortedByName(r)
  {
    if |cs| == 0 then []
    else
      assert cs == cs[..|cs| - 1] + [cs[|cs| - 1]];
      InsertByName(cs[|cs| - 1], SortByName(cs[..|cs| - 1]))
  }

  // ---------------------------------------------------------------------------
  // The key

  /** The loop of `getCacheKey` over codebases already in name order. */
  function FoldKey(cs: seq<CodebaseConfig>, ov: Overrides): (r: (string, Overrides))
    ensures forall c :: c in cs ==> c.name in r.1
    ensures forall k :: k in ov ==> k in r.1 && r.1[k] == ov[k]
    ensures r.1.Keys == ov.Keys + set c | c in cs :: c.name
  {
    if |cs| == 0 then ("", ov)
    else
      var (b, ov1) := CodebaseBranch(ConfiguredBranch(cs[0]), ov, cs[0].name);
      var (rest, ov2) := FoldKey(cs[1..], ov1);
      assert forall c :: c in cs ==> c == cs[0] || c in cs[1..];
      (KeyEntry(cs[0].name, b) + rest, ov2)
  }

  /** `getCacheKey(project, codebases)`: the key and the override map as the
      call leaves it. */
  lemma SameElements<T>(a: seq<T>, b: seq<T>)
    requires multiset(a) == multiset(b)
    ensures forall x :: x in a <==> x in b
  {
    forall x ensures x in a <==> x in b {
      assert x in a <==> x in multiset(a);
      assert x in b <==> x in multiset(b);
    }
  }

  function GetCacheKey(project: Option<Project>, ov: Overrides): (r: (string, Overrides))
    ensures project.None? || |project.value.codebases| == 0 ==> r == ("", ov)
    ensures project.Some? ==> r.1.Keys == ov.Keys + set c | c in project.value.codebases :: c.name
    ensures forall k :: k in ov ==> r.1[k] == ov[k]
  {
    if project.None? || |project.value.codebases| == 0 then ("", ov)
    else
      var sorted := SortByName(project.value.codebases);
      SameElements(sorted, project.value.codebases);
      FoldKey(sorted, ov)
  }

  /** `BuilderStatus.getCodebasesCacheKey(codebases)`: `""` for an empty
      selection (the map is then left alone), otherwise the project's key. */
  function CodebasesCacheKey(project: Option<Project>, ov: Overrides): (r: (string, Overrides))
    ensures |ov| == 0 ==> r == ("", ov)
    ensures forall k :: k in ov ==> k in r.1 && r.1[k] == ov[k]
  {
    if |ov| == 0 then ("", ov) else GetCacheKey(project, ov)
  }

  // ---------------------------------------------------------------------------
  // Properties

  /** The entries a map with every codebase already present would produce. */
  function EntriesWith(cs: seq<CodebaseConfig>, w: Overrides): string
    requires forall c :: c in cs ==> c.name in w
  {
    if |cs| == 0 then "" else KeyEntry(cs[0].name, w[cs[0].name]) + EntriesWith(cs[1..], w)
  }

  /** The entries under the caller's original overrides. */
  function EntriesResolved(cs: seq<CodebaseConfig>, ov: Overrides): string {
    if |cs| == 0 then "" else KeyEntry(cs[0].name, ResolvedBranch(cs[0], ov)) + EntriesResolved(cs[1..], ov)
  }

  /** Every codebase's entry carries the branch the call left in the map. */
  lemma {:induction false} FoldKeyUsesFinalMap(cs: seq<CodebaseConfig>, ov: Overrides)
    ensures FoldKey(cs, ov).0 == EntriesWith(cs, FoldKey(cs, ov).1)
  {
    if |cs| > 0 {
      var (b, ov1) := CodebaseBranch(ConfiguredBranch(cs[0]), ov, cs[0].name);
      FoldKeyUsesFinalMap(cs[1..], ov1);
    }
  }

  /** A map that already holds every codebase is neither read past nor
      written. */
  lemma {:induction false} FoldKeyStable(cs: seq<CodebaseConfig>, w: Overrides)
    requires forall c :: c in cs ==> c.name in w
    ensures FoldKey(cs, w) == (EntriesWith(cs, w), w)
  {
    if |cs| > 0 {
      FoldKeyStable(cs[1..], w);
    }
  }

  /** Deriving the key a second time over the map the first call left gives
      the same key and leaves the map unchanged. */
  lemma GetCacheKeyIdempotent(project: Option<Project>, ov: Overrides)
    ensures GetCacheKey(project, GetCacheKey(project, ov).1) == GetCacheKey(project, ov)
  {
    if project.Some? && |project.value.codebases| > 0 {
      var sorted := SortByName(project.value.codebases);
      FoldKeyUsesFinalMap(sorted, ov);
      FoldKeyStable(sorted, FoldKey(sorted, ov).1);
    }
  }

  ghost predicate DistinctNames(cs: seq<CodebaseConfig>) {
    forall i, j :: 0 <= i < j < |cs| ==> cs[i].name != cs[j].name
  }

  /** With distinct codebase names, the branch left in the map for each
      codebase is the one resolved from the caller's original overrides. */
  lemma {:induction false} FoldKeyResolves(cs: seq<CodebaseConfig>, ov: Overrides)
    requires DistinctNames(cs)
    ensures forall c :: c in cs ==> FoldKey(cs, ov).1[c.name] == ResolvedBranch(c, ov)
  {
    if |cs| > 0 {
      var (b, ov1) := CodebaseBranch(ConfiguredBranch(cs[0]), ov, cs[0].name);
      FoldKeyResolves(cs[1..], ov1);
      forall c | c in cs
        ensures FoldKey(cs, ov).1[c.name] == ResolvedBranch(c, ov)
      {
        if c != cs[0] {
          var j :| 0 <= j < |cs| && cs[j] == c;
          assert j > 0;
          assert c.name != cs[0].name;
          assert c in cs[1..];
        }
      }
    }
  }

  lemma {:induction false} EntriesAgree(cs: seq<CodebaseConfig>, w: Overrides, ov: Overrides)
    requires forall c :: c in cs ==> c.name in w && w[c.name] == ResolvedBranch(c, ov)
    ensures EntriesWith(cs, w) == EntriesResolved(cs, ov)
  {
    if |cs| > 0 {
      EntriesAgree(cs[1..], w, ov);
    }
  }

  /** With distinct codebase names, the key is the concatenation in name
      order of `"<codebase>=<branch>;"`, the branch being the override if
      given, else `defaultbranch`, else `branch` (its first element if a
      list), else `""`. */
  lemma GetCacheKeyContents(p: Project, ov: Overrides)
    requires DistinctNames(SortByName(p.codebases))
    ensures GetCacheKey(Some(p), ov).0 == EntriesResolved(SortByName(p.codebases), ov)
  {
    if |p.codebases| > 0 {
      var sorted := SortByName(p.codebases);
      FoldKeyUsesFinalMap(sorted, ov);
      FoldKeyResolves(sorted, ov);
      EntriesAgree(sorted, FoldKey(sorted, ov).1, ov);
    }
  }

  /** No two codebases share a name and none is listed twice; this depends
      only on the multiset of codebases. */
  ghost predicate UniqueNames(cs: seq<CodebaseConfig>) {
    && (forall x, y :: x in multiset(cs) && y in multiset(cs) && x.name == y.name ==> x == y)
    && (forall x :: multiset(cs)[x] <= 1)
  }

  lemma SortedHeadLeast(a: seq<CodebaseConfig>, x: CodebaseConfig)
    requires SortedByName(a) && x in multiset(a)
    ensures LexLe(a[0].name, x.name)
  {
    var i :| 0 <= i < |a| && a[i] == x;
    if i == 0 {
      LexLeTotal(x.name, x.name);
    }
  }

  lemma UniqueTail(a: seq<CodebaseConfig>)
    requires |a| > 0 && UniqueNames(a)
    ensures UniqueNames(a[1..])
  {
    assert a == [a[0]] + a[1..];
    assert multiset(a) == multiset{a[0]} + multiset(a[1..]);
    forall x
      ensures multiset(a[1..])[x] <= 1
    {
      assert multiset(a[1..])[x] <= multiset(a)[x];
    }
  }

  lemma SortedTail(a: seq<CodebaseConfig>)
    requires |a| > 0 && SortedByName(a)
    ensures SortedByName(a[1..])
  {
    forall i, j | 0 <= i < j < |a| - 1 ensures LexLe(a[1..][i].name, a[1..][j].name) {
      assert a[1..][i] == a[i + 1] && a[1..][j] == a[j + 1];
    }
  }

  /** Sorted lists of the same uniquely-named codebases start alike. */
  lemma SameHead(a: seq<CodebaseConfig>, b: seq<CodebaseConfig>)
    requires |a| > 0 && |b| > 0
    requires SortedByName(a) && SortedByName(b)
    requires multiset(a) == multiset(b)
    requires UniqueNames(a)
    ensures a[0] == b[0]
  {
    assert a[0] in multiset(b) && b[0] in multiset(a) by {
      assert a[0] in a && b[0] in b;
    }
    SortedHeadLeast(b, a[0]);
    SortedHeadLeast(a, b[0]);
    LexLeAntisymmetric(a[0].name, b[0].name);
    assert a[0] in multiset(a) by {
      assert a[0] in a;
    }
  }

  lemma MultisetTail<T>(a: seq<T>, b: seq<T>)
    requires |a| > 0 && |b| > 0 && a[0] == b[0]
    requires multiset(a) == multiset(b)
    ensures multiset(a[1..]) == multiset(b[1..])
  {
    assert a == [a[0]] + a[1..];
    assert b == [b[0]] + b[1..];
    assert multiset(a) == multiset{a[0]} + multiset(a[1..]);
    assert multiset(b) == multiset{b[0]} + multiset(b[1..]);
    forall x ensures multiset(a[1..])[x] == multiset(b[1..])[x] {
      assert multiset(a)[x] == multiset(b)[x];
    }
  }

  /** Two name-sorted lists of the same uniquely-named codebases are equal. */
  lemma {:induction false} SortedUnique(a: seq<CodebaseConfig>, b: seq<CodebaseConfig>)
    requires SortedByName(a) && SortedByName(b)
    requires multiset(a) == multiset(b)
    requires UniqueNames(a)
    ensures a == b
    decreases |a|
  {
    assert |a| == |multiset(a)| == |multiset(b)| == |b|;
    if |a| > 0 {
      SameHead(a, b);
      assert a == [a[0]] + a[1..] && b == [b[0]] + b[1..];
      MultisetTail(a, b);
      UniqueTail(a);
      SortedTail(a);
      SortedTail(b);
      SortedUnique(a[1..], b[1..]);
    }
  }

  /** The key does not depend on the order in which the project lists its
      codebases, as long as their names are distinct. */
  lemma CacheKeyOrderIndependent(p: Project, q: Project, ov: Overrides)
    requires multiset(p.codebases) == multiset(q.codebases)
    requires UniqueNames(p.codebases)
    ensures GetCacheKey(Some(p), ov) == GetCacheKey(Some(q), ov)
  {
    var sp := SortByName(p.codebases);
    var sq := SortByName(q.codebases);
    SortedUnique(sp, sq);
    assert |p.codebases| == |multiset(p.codebases)| == |multiset(q.codebases)| == |q.codebases|;
  }

  /** The worked examples: a codebase configured on `trunk` gives
      `"A=trunk;"` without an override and `"A=feature;"` with one. */
  lemma CacheKeyExampleTrunk()
    ensures GetCacheKey(Some(Project("p", [CodebaseConfig("A", None, Some(BStr("trunk")), None, None)])), map[]).0 == "A=trunk;"
    ensures GetCacheKey(Some(Project("p", [CodebaseConfig("A", None, Some(BStr("trunk")), None, None)])), map["A" := "feature"]).0 == "A=feature;"
  {
    var c := CodebaseConfig("A", None, Some(BStr("trunk")), None, None);
    assert SortByName([c]) == [c];
    assert [c][1..] == [];
    var r1 := CodebaseBranch(ConfiguredBranch(c), map[], "A");
    assert r1.0 == "trunk";
    assert FoldKey([c], map[]).0 == KeyEntry("A", "trunk") + FoldKey([], r1.1).0;
    var r2 := CodebaseBranch(ConfiguredBranch(c), map["A" := "feature"], "A");
    assert r2.0 == "feature";
    assert FoldKey([c], map["A" := "feature"]).0 == KeyEntry("A", "feature") + FoldKey([], r2.1).0;
    assert KeyEntry("A", "trunk") + "" == "A=trunk;";
    assert KeyEntry("A", "feature") + "" == "A=feature;";
  }

  /** Codebases are keyed in name order, `defaultbranch` wins over `branch`,
      and a branch list contributes its first element. */
  lemma CacheKeyExampleOrder()
    ensures GetCacheKey(Some(Project("p", [CodebaseConfig("B", None, Some(BList(["x", "y"])), None, None),
                                          CodebaseConfig("A", Some(BStr("dev")), Some(BStr("trunk")), None, None)])), map[]).0 == "A=dev;B=x;"
  {
    var cb := CodebaseConfig("B", None, Some(BList(["x", "y"])), None, None);
    var ca := CodebaseConfig("A", Some(BStr("dev")), Some(BStr("trunk")), None, None);
    assert [cb, ca][..1] == [cb];
    assert SortByName([cb]) == [cb];
    assert !LexLe("B", "A");
    assert SortByName([cb, ca]) == [ca, cb];
    var r1 := CodebaseBranch(ConfiguredBranch(ca), map[], "A");
    assert r1 == ("dev", map["A" := "dev"]);
    var r2 := CodebaseBranch(ConfiguredBranch(cb), r1.1, "B");
    assert r2.0 == "x";
    assert [ca, cb][1..] == [cb] && [cb][1..] == [];
    assert FoldKey([], r2.1).0 == "";
    var tail := FoldKey([cb], r1.1);
    assert tail.0 == KeyEntry("B", r2.0) + FoldKey([cb][1..], r2.1).0;
    var whole := FoldKey([ca, cb], map[]);
    assert whole.0 == KeyEntry("A", "dev") + tail.0;
    assert KeyEntry("A", "dev") == "A=dev;";
    assert KeyEntry("B", "x") + "" == "B=x;";
    assert "A=dev;" + "B=x;" == "A=dev;B=x;";
  }
}

=== FILE: db_columns.dfy ===
/** The two column-length helpers of a database connector component:
    `truncateColumn`, which shortens a value to a column's length with a
    trailing "..", and `check_length`, which refuses an over-long value
    on MySQL. A column's declared length is `None` when it has none. */
module DbColumns {
  import opened Wrappers

  const Ellipsis := ".."

  /** Python's `value[:n]` for an integer `n`: a negative end counts from
      the end of the string. */
  function SliceTo(value: string, n: int): (r: string)
    ensures n >= 0 ==> r == value[..if n <= |value| then n else |value|]
    ensures n < 0 ==> r == value[..if |value| + n >= 0 then |value| + n else 0]
  {
    if n >= 0 then value[..if n <= |value| then n else |value|]
    else value[..if |value| + n >= 0 then |value| + n else 0]
  }

  /** `truncateColumn` as written: `col_length` is the length minus two
      when the length is truthy, and a falsy `col_length` (a column without
      length, of length 0, or of length 2) leaves the value alone. */
  function TruncateColumnAsWritten(length: Option<nat>, value: string): (r: string)
    ensures length.Some? && length.value >= 3 && |value| > length.value - 2 ==>
              r == value[..length.value - 2] + Ellipsis && |r| == length.value
    ensures length.Some? && length.value >= 3 && |value| <= length.value - 2 ==> r == value
    ensures length == None || length == Some(0) || length == Some(2) ==> r == value
  {
    var colLength: Option<int> := if length.Some? && length.value != 0 then Some(length.value - 2) else None;
    if colLength.Some? && colLength.value != 0 && |value| > colLength.value
    then SliceTo(value, colLength.value) + Ellipsis
    else value
  }

  /** On a column of length 1 the "cut" is `value[:-1]`, so the result is
      one character short of the value plus "..": longer than the column. */
  lemma TruncateLengthOneOverflows()
    ensures TruncateColumnAsWritten(Some(1), "abc") == "ab.."
    ensures TruncateColumnAsWritten(Some(1), "") == ".."
    ensures |TruncateColumnAsWritten(Some(1), "abc")| > 1
  {
    assert "abc"[..2] == "ab";
  }

  /** On a column of length 2 `col_length` is 0, which is falsy: any value
      passes through, however long. */
  lemma TruncateLengthTwoPassesThrough()
    ensures TruncateColumnAsWritten(Some(2), "abc") == "abc"
    ensures |TruncateColumnAsWritten(Some(2), "abc")| > 2
  {
  }

  /** `truncateColumn` as evidently intended: the result always fits its
      column. On columns of length 3 and more it is the code as written;
      on columns of length 1 and 2, too short for "..", a long value is
      simply cut. */
  function TruncateColumn(length: Option<nat>, value: string): (r: string)
    ensures length.Some? && length.value > 0 ==> |r| <= length.value
    ensures length.Some? && length.value > 0 && |value| <= length.value - 2 ==> r == value
    ensures r == value
            || (|r| < |value| && r == value[..|r|])
            || (2 <= |r| && |r| - 2 < |value| && r == value[..|r| - 2] + Ellipsis)
  {
    match length
    case None => value
    case Some(n) =>
      if n == 0 then value
      else if n <= 2 then
        if |value| > n then value[..n] else value
      else if |value| > n - 2 then value[..n - 2] + Ellipsis
      else value
  }

  /** The correction changes nothing on a column of length 3 or more, and
      nothing on a column without a length. */
  lemma TruncatePoliciesAgree(length: Option<nat>, value: string)
    requires length.None? || (length.value != 1 && length.value != 2)
    ensures TruncateColumn(length, value) == TruncateColumnAsWritten(length, value)
  {
  }

  /** Truncation is idempotent: a truncated value is left alone. */
  lemma TruncateIdempotent(length: Option<nat>, value: string)
    ensures TruncateColumn(length, TruncateColumn(length, value)) == TruncateColumn(length, value)
  {
    var r := TruncateColumn(length, value);
    if length.Some? && length.value > 2 && |value| > length.value - 2 {
      var n := length.value;
      assert |r| == n;
      assert r[..n - 2] + Ellipsis == value[..n - 2] + Ellipsis by {
        assert r[..n - 2] == value[..n - 2];
      }
    }
  }

  /** `check_length(col, value)` on a connection of the given dialect. Any
      dialect but MySQL never complains; on MySQL a column without a
      length fails the assertion, and a non-empty value longer than the
      column raises `RuntimeError`. A `None` value is falsy and passes. */
  function CheckLength(dialect: string, length: Option<nat>, value: Option<string>): (r: Result<()>)
    ensures dialect != "mysql" ==> r.Success?
    ensures dialect == "mysql" && (length.None? || length.value == 0) ==> r == Failure(AssertionError)
    ensures dialect == "mysql" && length.Some? && length.value > 0 ==>
              (r.Failure? <==> value.Some? && |value.value| > 0 && |value.value| > length.value)
    ensures r.Failure? ==> r.error == AssertionError || r.error == RuntimeError
  {
    if dialect != "mysql" then Success(())
    else if length.None? || length.value == 0 then Failure(AssertionError)
    else if value.Some? && |value.value| > 0 && |value.value| > length.value then Failure(RuntimeError)
    else Success(())
  }

  /** What the corrected truncation produces always passes MySQL's check;
      the code as written does not on a column of length 1. */
  lemma TruncatedValuePassesCheck(length: nat, value: string)
    requires length > 0
    ensures CheckLength("mysql", Some(length), Some(TruncateColumn(Some(length), value))).Success?
  {
  }

  lemma TruncatedAsWrittenFailsCheck()
    ensures CheckLength("mysql", Some(1), Some(TruncateColumnAsWritten(Some(1), "abc"))) == Failure(RuntimeError)
  {
    TruncateLengthOneOverflows();
  }
}

=== FILE: finished_builds.dfy ===
/** `BuilderStatus.generateFinishedBuilds`: the backward scan over build
    numbers, newest first, with its filters and the latest-build memo
    short-cut. The generator is modelled as fully consumed. */
module FinishedBuilds {
  import opened Wrappers
  import opened Records
  import opened CacheKey
  import opened LatestBuildMemo
  import opened BuilderStatus

  /** The keyword arguments of `generateFinishedBuilds`; `filter` stands for
      `filter_fn` (an absent one is the always-true filter). */
  datatype Query = Query(
    branches: set<Option<string>>,
    codebases: Overrides,
    numBuilds: Option<int>,
    maxBuildnum: Option<int>,
    finishedBefore: Option<int>,
    results: Option<set<int>>,
    maxSearch: int,
    filter: Build -> bool,
    useCache: bool)

  /** The filters of the scan, in the order `generateFinishedBuilds` applies
      them. `codebases` is the selection after the cache-key computation
      has written the resolved branches into it. A codebase selection
      replaces the branch filter. */
  predicate Passes(b: Build, q: Query, codebases: Overrides) {
    && (q.maxBuildnum.None? || b.number <= q.maxBuildnum.value)
    && b.finished
    && (q.finishedBefore.None? || b.endTime < q.finishedBefore.value)
    && (if |codebases| > 0 then FoundCodebasesInBuild(b, codebases)
        else |q.branches| == 0 || q.branches * BuildBranches(b) != {})
    && (q.results.None? || b.result in q.results.value)
    && q.filter(b)
  }

  /** The filters as the predicate the scan applies. */
  function Keep(q: Query, codebases: Overrides): Build -> bool {
    b => Passes(b, q, codebases)
  }

  /** A cached single-result query: the scan stops at its first build and
      records the outcome in the memo. */
  predicate SingleMode(q: Query) {
    q.numBuilds == Some(1) && q.useCache
  }

  /** The last number the scan may reach: `nextBuildNumber` and
      `max_search` both bound it. */
  function ScanBound(s: BuilderState, q: Query): int {
    if s.nextBuildNumber < q.maxSearch then s.nextBuildNumber else q.maxSearch
  }

  /** What `getBuild(-nb)` resolves to. */
  function At(s: BuilderState, store: Store, nb: int): Option<Build> {
    Resolve(s, store, s.nextBuildNumber - nb)
  }

  /** Reference: the builds `At` positions `from` up to `bound` that
      resolve and pass the filters, newest first. It reads the builder
      only through `Resolve`. */
  function Wanted(s: BuilderState, store: Store, keep: Build -> bool, from: int, bound: int): seq<Build>
    decreases bound - from + 1
  {
    if from > bound then []
    else
      var o := At(s, store, from);
      var rest := Wanted(s, store, keep, from + 1, bound);
      if o.Some? && keep(o.value) then [o.value] + rest else rest
  }

  /** `b` is what some position `from..bound` resolves to. */
  predicate InRange(s: BuilderState, store: Store, b: Build, from: int, bound: int) {
    exists nb :: from <= nb <= bound && At(s, store, nb) == Some(b)
  }

  /** The reference yields only passing builds resolved from the range, and
      every passing build in the range. */
  lemma {:induction false} WantedSoundComplete(s: BuilderState, store: Store, keep: Build -> bool, from: int, bound: int)
    decreases bound - from + 1
    ensures forall b :: b in Wanted(s, store, keep, from, bound) ==> keep(b) && InRange(s, store, b, from, bound)
    ensures forall nb :: from <= nb <= bound && At(s, store, nb).Some? && keep(At(s, store, nb).value)
                         ==> At(s, store, nb).value in Wanted(s, store, keep, from, bound)
  {
    if from <= bound {
      WantedSoundComplete(s, store, keep, from + 1, bound);
      forall b | b in Wanted(s, store, keep, from, bound)
        ensures InRange(s, store, b, from, bound)
      {
        if b !in Wanted(s, store, keep, from + 1, bound) {
          assert At(s, store, from) == Some(b);
        } else {
          var nb :| from + 1 <= nb <= bound && At(s, store, nb) == Some(b);
          assert from <= nb <= bound;
        }
      }
    }
  }

  /** `Wanted` depends on the builder only through what numbers resolve to. */
  lemma {:induction false} WantedTransparent(s: BuilderState, t: BuilderState, store: Store, keep: Build -> bool, from: int, bound: int)
    requires forall nb {:trigger At(t, store, nb)} :: At(t, store, nb) == At(s, store, nb)
    decreases bound - from + 1
    ensures Wanted(t, store, keep, from, bound) == Wanted(s, store, keep, from, bound)
  {
    if from <= bound {
      WantedTransparent(s, t, store, keep, from + 1, bound);
      assert At(t, store, from) == At(s, store, from);
    }
  }

  function FirstOf(bs: seq<Build>): seq<Build> {
    if |bs| == 0 then [] else [bs[0]]
  }

  /** The scan loop itself, threading the builder through `getBuild(-Nb)`.
      It yields exactly the reference builds, or only the first of them in
      single mode, and changes nothing but the build cache and the
      unavailable numbers. */
  function Scan(s: BuilderState, store: Store, keep: Build -> bool, single: bool, from: int, bound: int): (r: (seq<Build>, BuilderState))
    requires 1 <= from
    requires bound <= s.nextBuildNumber
    decreases bound - from + 1
    ensures r.1 == s.(cache := r.1.cache, unavailable := r.1.unavailable)
    ensures forall m {:trigger Resolve(r.1, store, m)} :: Resolve(r.1, store, m) == Resolve(s, store, m)
    ensures !single ==> r.0 == Wanted(s, store, keep, from, bound)
    ensures single ==> r.0 == FirstOf(Wanted(s, store, keep, from, bound))
  {
    if from > bound then ([], s)
    else
      var (o, s1) := GetBuild(s, store, -from);
      ScanStep(s, store, keep, from, bound);
      if o.None? || !keep(o.value) then
        Scan(s1, store, keep, single, from + 1, bound)
      else if single then ([o.value], s1)
      else
        var (rest, s2) := Scan(s1, store, keep, single, from + 1, bound);
        ([o.value] + rest, s2)
  }

  /** One step of the scan: `getBuild(-Nb)` yields the build at `Nb` and
      leaves every position, and so the rest of the reference, as it was. */
  lemma ScanStep(s: BuilderState, store: Store, keep: Build -> bool, from: int, bound: int)
    requires 1 <= from <= bound <= s.nextBuildNumber
    ensures GetBuild(s, store, -from).0 == At(s, store, from)
    ensures GetBuild(s, store, -from).1.nextBuildNumber == s.nextBuildNumber
    ensures Wanted(GetBuild(s, store, -from).1, store, keep, from + 1, bound) == Wanted(s, store, keep, from + 1, bound)
  {
    var r := GetBuild(s, store, -from);
    assert r.0 == Resolve(s, store, s.nextBuildNumber - from);
    LookupTransparent(s, store, -from, keep, from + 1, bound);
  }

  lemma LookupTransparent(s: BuilderState, store: Store, number: int, keep: Build -> bool, from: int, bound: int)
    ensures GetBuild(s, store, number).1.nextBuildNumber == s.nextBuildNumber
    ensures Wanted(GetBuild(s, store, number).1, store, keep, from, bound) == Wanted(s, store, keep, from, bound)
  {
    var t := GetBuild(s, store, number).1;
    assert t.nextBuildNumber == s.nextBuildNumber;
    AtTransparent(s, t, store);
    WantedTransparent(s, t, store, keep, from, bound);
  }

  lemma AtTransparent(s: BuilderState, t: BuilderState, store: Store)
    requires t.nextBuildNumber == s.nextBuildNumber
    requires forall m {:trigger Resolve(t, store, m)} :: Resolve(t, store, m) == Resolve(s, store, m)
    ensures forall nb {:trigger At(t, store, nb)} :: At(t, store, nb) == At(s, store, nb)
  {
    forall nb ensures At(t, store, nb) == At(s, store, nb) {
      assert Resolve(t, store, s.nextBuildNumber - nb) == Resolve(s, store, s.nextBuildNumber - nb);
    }
  }

  /** The memo plays no part in resolving build numbers. */
  lemma ResolveIgnoresMemo(s: BuilderState, store: Store, memo: Memo)
    ensures forall m :: Resolve(s.(latestBuildCache := memo), store, m) == Resolve(s, store, m)
  {
  }

  /** The scan of `generateFinishedBuilds` for the resolved selection
      `codebases` and its key: the reference builds (only the first in
      single mode), and in single mode the outcome saved in the memo, the
      build found or "none" under the query's key. */
  function ScanAndRemember(s: BuilderState, store: Store, q: Query, codebases: Overrides, key: string, project: Option<Project>, now: int): (r: (seq<Build>, BuilderState))
    ensures var wanted := Wanted(s, store, Keep(q, codebases), 1, ScanBound(s, q));
            && r.0 == (if SingleMode(q) then FirstOf(wanted) else wanted)
            && r.1.latestBuildCache == (if SingleMode(q) then SaveLatestBuild(s.latestBuildCache, if |wanted| > 0 then Some(wanted[0]) else None, key, project, now)
                                        else s.latestBuildCache)
    ensures forall m {:trigger Resolve(r.1, store, m)} :: Resolve(r.1, store, m) == Resolve(s, store, m)
    ensures r.1.nextBuildNumber == s.nextBuildNumber
  {
    var (builds, s1) := Scan(s, store, Keep(q, codebases), SingleMode(q), 1, ScanBound(s, q));
    if SingleMode(q) then
      var saved := if |builds| > 0 then Some(builds[0]) else None;
      var memo := SaveLatestBuild(s1.latestBuildCache, saved, key, project, now);
      ResolveIgnoresMemo(s1, store, memo);
      (builds, s1.(latestBuildCache := memo))
    else (builds, s1)
  }

  /** `generateFinishedBuilds`, run to completion at time `now`: a cached
      single-result query whose key the memo holds is answered from the
      memo, anything else by the scan. */
  function GenerateFinishedBuilds(s: BuilderState, store: Store, q: Query, project: Option<Project>, config: Config, now: int): (r: (seq<Build>, BuilderState))
    ensures forall m {:trigger Resolve(r.1, store, m)} :: Resolve(r.1, store, m) == Resolve(s, store, m)
  {
    var (key, cbs) := CodebasesCacheKey(project, q.codebases);
    if ShouldUseLatestBuildCache(q.useCache, q.numBuilds, key, s.latestBuildCache) then
      var (b, s1) := GetLatestBuildCache(s, store, key, now, config);
      (if b.Some? then [b.value] else [], s1)
    else ScanAndRemember(s, store, q, cbs, key, project, now)
  }

  /** Every build the scan yields passes every filter and is what some
      `getBuild(-Nb)` with `1 <= Nb <=` the scan bound resolves to, and
      every build within the scan range that passes them is yielded. */
  lemma FinishedBuildsSoundComplete(s: BuilderState, store: Store, q: Query, project: Option<Project>, config: Config, now: int)
    requires !SingleMode(q)
    ensures var (key, cbs) := CodebasesCacheKey(project, q.codebases);
            var out := GenerateFinishedBuilds(s, store, q, project, config, now).0;
            && (forall b :: b in out ==> Passes(b, q, cbs) && InRange(s, store, b, 1, ScanBound(s, q)))
            && (forall nb :: 1 <= nb <= ScanBound(s, q) && At(s, store, nb).Some? && Passes(At(s, store, nb).value, q, cbs)
                  ==> At(s, store, nb).value in out)
  {
    var (key, cbs) := CodebasesCacheKey(project, q.codebases);
    assert !ShouldUseLatestBuildCache(q.useCache, q.numBuilds, key, s.latestBuildCache);
    WantedSoundComplete(s, store, Keep(q, cbs), 1, ScanBound(s, q));
  }

  /** What `generateFinishedBuilds` yields in every mode: a query the memo
      may answer yields the memo's build, looked up through `getBuild`, or
      nothing; any other query yields the scan's builds, only the first in
      single mode, and single mode records the outcome in the memo. */
  lemma FinishedBuildsDispatch(s: BuilderState, store: Store, q: Query, project: Option<Project>, config: Config, now: int)
    ensures var (key, cbs) := CodebasesCacheKey(project, q.codebases);
            var (out, s1) := GenerateFinishedBuilds(s, store, q, project, config, now);
            && (ShouldUseLatestBuildCache(q.useCache, q.numBuilds, key, s.latestBuildCache) ==>
                  key in s.latestBuildCache
                  && var b := GetLatestBuildCache(s, store, key, now, config).0;
                     out == (if b.Some? then [b.value] else []))
            && (!ShouldUseLatestBuildCache(q.useCache, q.numBuilds, key, s.latestBuildCache) ==>
                  var wanted := Wanted(s, store, Keep(q, cbs), 1, ScanBound(s, q));
                  && out == (if SingleMode(q) then FirstOf(wanted) else wanted)
                  && s1.latestBuildCache == (if SingleMode(q) then SaveLatestBuild(s.latestBuildCache, if |wanted| > 0 then Some(wanted[0]) else None, key, project, now)
                                             else s.latestBuildCache))
  {
  }

  /** A cached single-result query that finds nothing remembers that under
      its key (for a key naming one codebase), so the same query asked
      again at the same moment is answered from the memo, with the same
      empty result. */
  lemma EmptySingleResultIsRemembered(s: BuilderState, store: Store, q: Query, project: Option<Project>, config: Config, now: int)
    requires SingleMode(q)
    requires config.lastBuildCacheDays >= 0
    requires var key := CodebasesCacheKey(project, q.codebases).0;
             key != "" && !MultiCodebaseKey(key) && key !in s.latestBuildCache
    requires GenerateFinishedBuilds(s, store, q, project, config, now).0 == []
    ensures var (out, s1) := GenerateFinishedBuilds(s, store, q, project, config, now);
            var key := CodebasesCacheKey(project, q.codebases).0;
            && ShouldUseLatestBuildCache(q.useCache, q.numBuilds, key, s1.latestBuildCache)
            && GenerateFinishedBuilds(s1, store, q, project, config, now).0 == []
  {
    var (key, cbs) := CodebasesCacheKey(project, q.codebases);
    var wanted := Wanted(s, store, Keep(q, cbs), 1, ScanBound(s, q));
    assert FirstOf(wanted) == [];
    var s1 := GenerateFinishedBuilds(s, store, q, project, config, now).1;
    assert s1.latestBuildCache == UpdateLatestBuildCache(s.latestBuildCache, MemoEntry(None, now), key);
    assert key in s1.latestBuildCache && s1.latestBuildCache[key] == MemoEntry(None, now);
  }
}

=== FILE: latest_build_memo.dfy ===
/** The latest-build memo (`latestBuildCache`) and its update policy:
    `updateLatestBuildCache`, the key computation of `saveLatestBuild` and
    `shouldUseLatestBuildCache`. A memo entry remembers the number of the most
    recent finished build for a codebase selection (or that there was none)
    and when that was recorded. */
module LatestBuildMemo {
  import opened Wrappers
  import opened Strings
  import opened Records
  import opened CacheKey

  datatype MemoEntry = MemoEntry(build: Option<int>, date: int)

  type Memo = map<string, MemoEntry>

  /** Python truthiness of a stored build number: `None` and `0` are false. */
  predicate Truthy(b: Option<int>) {
    b.Some? && b.value != 0
  }

  /** `[key for key in k.split(';') if key]` has more than one element: the
      key names more than one codebase. */
  predicate MultiCodebaseKey(k: string) {
    |NonEmpty(Split(k, ';'))| > 1
  }

  /** A key of two `name=branch;` entries names more than one codebase. */
  lemma TwoEntriesAreMulti(a: string, b: string)
    requires ';' !in a && ';' !in b && a != "" && b != ""
    ensures MultiCodebaseKey(a + ";" + b + ";")
  {
    SplitPrefix(b, ';', "");
    SplitPrefix(a, ';', b + ";");
    assert b + ";" == b + [';'] + "";
    assert a + ";" + b + ";" == a + [';'] + (b + ";");
    var ps := [a, b, ""];
    assert Split(a + ";" + b + ";", ';') == ps;
    assert ps[1..] == [b, ""];
    assert ps[1..][1..] == [""];
    assert NonEmpty([""]) == [];
    assert NonEmpty([b, ""]) == [b];
    assert NonEmpty(ps) == [a, b];
  }

  /** `updateLatestBuildCache` exactly as written, with Python truthiness:
      an entry holding build number 0 counts as empty, and so does a new
      entry for build 0. */
  function UpdateLatestBuildCacheAsWritten(memo: Memo, entry: MemoEntry, k: string): (r: Memo)
    ensures forall j :: j != k ==> (j in r <==> j in memo) && (j in r ==> r[j] == memo[j])
    ensures r == memo || r == memo[k := entry]
  {
    if |memo| > 0 && k in memo && Truthy(memo[k].build) && entry.build.None? then memo
    else if !Truthy(entry.build) && MultiCodebaseKey(k) then memo
    else memo[k := entry]
  }

  /** Build 0, the first build of every builder, is not protected: an empty
      result overwrites an entry holding it, and it is never remembered
      under a key naming two codebases. */
  lemma BuildZeroIsTreatedAsEmpty()
    ensures UpdateLatestBuildCacheAsWritten(map["A=x;" := MemoEntry(Some(0), 1)], MemoEntry(None, 2), "A=x;")["A=x;"].build == None
    ensures "A=x;B=y;" !in UpdateLatestBuildCacheAsWritten(map[], MemoEntry(Some(0), 1), "A=x;B=y;")
  {
    TwoEntriesAreMulti("A=x", "B=y");
    assert "A=x" + ";" + "B=y" + ";" == "A=x;B=y;";
  }

  /** `updateLatestBuildCache` with "empty" meaning `None`, as its helper
      names say: an empty result never overwrites an entry holding a build
      number, and is never stored under a key naming more than one
      codebase; in every other case the entry is replaced. */
  function UpdateLatestBuildCache(memo: Memo, entry: MemoEntry, k: string): (r: Memo)
    ensures entry.build.None? && k in memo && memo[k].build.Some? ==> r == memo
    ensures entry.build.None? && MultiCodebaseKey(k) ==> r == memo
    ensures entry.build.Some? ==> r == memo[k := entry]
    ensures entry.build.None? && !MultiCodebaseKey(k) && (k !in memo || memo[k].build.None?) ==> r == memo[k := entry]
  {
    if k in memo && memo[k].build.Some? && entry.build.None? then memo
    else if entry.build.None? && MultiCodebaseKey(k) then memo
    else memo[k := entry]
  }

  /** The two policies differ only on build number 0. */
  lemma UpdatePoliciesAgreeOffZero(memo: Memo, entry: MemoEntry, k: string)
    requires entry.build != Some(0)
    requires k in memo ==> memo[k].build != Some(0)
    ensures UpdateLatestBuildCacheAsWritten(memo, entry, k) == UpdateLatestBuildCache(memo, entry, k)
  {
  }

  /** The codebase map `saveLatestBuild` builds from a build's source stamps:
      every stamp with a non-empty codebase and branch, later stamps winning. */
  function StampCodebases(stamps: seq<SourceStamp>): (m: Overrides)
    ensures forall c :: c in m <==> exists s :: s in stamps && s.codebase == c && c != "" && s.branch.Some? && s.branch.value != ""
  {
    if |stamps| == 0 then map[]
    else
      var last := stamps[|stamps| - 1];
      var m := StampCodebases(stamps[..|stamps| - 1]);
      assert forall s :: s in stamps <==> s in stamps[..|stamps| - 1] || s == last by {
        assert stamps == stamps[..|stamps| - 1] + [last];
      }
      if last.codebase != "" && last.branch.Some? && last.branch.value != "" then m[last.codebase := last.branch.value]
      else m
  }

  /** `saveLatestBuild(build, key)` at time `now`: a build's entry goes under
      the key of its own codebases; an absent build records "none" under
      the caller's key; a build waiting to resume is never remembered. */
  function SaveLatestBuild(memo: Memo, build: Option<Build>, key: string, project: Option<Project>, now: int): (r: Memo)
    ensures build.Some? && build.value.result == RESUME ==> r == memo
    ensures build.Some? && build.value.result != RESUME ==>
      var k := CodebasesCacheKey(project, StampCodebases(build.value.sourceStamps)).0;
      r == memo[k := MemoEntry(Some(build.value.number), now)]
    ensures build.None? ==> r == UpdateLatestBuildCache(memo, MemoEntry(None, now), key)
  {
    if build.Some? && build.value.result == RESUME then memo
    else if build.Some? then
      var k := CodebasesCacheKey(project, StampCodebases(build.value.sourceStamps)).0;
      UpdateLatestBuildCache(memo, MemoEntry(Some(build.value.number), now), k)
    else UpdateLatestBuildCache(memo, MemoEntry(None, now), key)
  }

  /** `saveLatestBuild` exactly as written: the same keys as `SaveLatestBuild`,
      with the update policy as written, so build number 0 counts as empty. */
  function SaveLatestBuildAsWritten(memo: Memo, build: Option<Build>, key: string, project: Option<Project>, now: int): (r: Memo)
    ensures build.Some? && build.value.result == RESUME ==> r == memo
    ensures build.Some? && build.value.result != RESUME && build.value.number != 0 ==>
      var k := CodebasesCacheKey(project, StampCodebases(build.value.sourceStamps)).0;
      k in r && r[k] == MemoEntry(Some(build.value.number), now)
    ensures build.None? && key in memo && memo[key].build.Some? && memo[key].build.value != 0 ==> r == memo
  {
    if build.Some? && build.value.result == RESUME then memo
    else if build.Some? then
      var k := CodebasesCacheKey(project, StampCodebases(build.value.sourceStamps)).0;
      UpdateLatestBuildCacheAsWritten(memo, MemoEntry(Some(build.value.number), now), k)
    else UpdateLatestBuildCacheAsWritten(memo, MemoEntry(None, now), key)
  }

  /** Away from build number 0, the save as written and the corrected save
      leave the same memo. */
  lemma SavePoliciesAgreeOffZero(memo: Memo, build: Option<Build>, key: string, project: Option<Project>, now: int)
    requires build.Some? ==> build.value.number != 0
    requires forall k :: k in memo ==> memo[k].build != Some(0)
    ensures SaveLatestBuildAsWritten(memo, build, key, project, now) == SaveLatestBuild(memo, build, key, project, now)
  {
    if build.Some? && build.value.result != RESUME {
      var k := CodebasesCacheKey(project, StampCodebases(build.value.sourceStamps)).0;
      UpdatePoliciesAgreeOffZero(memo, MemoEntry(Some(build.value.number), now), k);
    } else if build.None? {
      UpdatePoliciesAgreeOffZero(memo, MemoEntry(None, now), key);
    }
  }

  /** On build number 0 the two saves differ: an empty result erases the
      memo of build 0 as written, and the corrected save keeps it. */
  lemma SaveBuildZeroDiverges(project: Option<Project>)
    ensures SaveLatestBuildAsWritten(map["A=x;" := MemoEntry(Some(0), 1)], None, "A=x;", project, 2)["A=x;"].build == None
    ensures SaveLatestBuild(map["A=x;" := MemoEntry(Some(0), 1)], None, "A=x;", project, 2)["A=x;"].build == Some(0)
  {
  }

  /** The worked example: an entry holding build 5 survives an empty save
      for its key. */
  lemma MemoExampleKeepsBuild(project: Option<Project>)
    ensures SaveLatestBuild(map["A=trunk;" := MemoEntry(Some(5), 1)], None, "A=trunk;", project, 2)
            == map["A=trunk;" := MemoEntry(Some(5), 1)]
  {
    var memo := map["A=trunk;" := MemoEntry(Some(5), 1)];
    assert "A=trunk;" in memo && memo["A=trunk;"].build.Some?;
  }

  /** A key naming two codebases is never given an empty entry. */
  lemma MemoExampleMultiCodebase(project: Option<Project>)
    ensures "A=trunk;B=dev;" !in SaveLatestBuild(map[], None, "A=trunk;B=dev;", project, 2)
  {
    TwoEntriesAreMulti("A=trunk", "B=dev");
    assert "A=trunk" + ";" + "B=dev" + ";" == "A=trunk;B=dev;";
  }

  /** `shouldUseLatestBuildCache`: only a cached single-result query with a
      non-empty key that the memo holds. */
  predicate ShouldUseLatestBuildCache(useCache: bool, numBuilds: Option<int>, key: string, memo: Memo) {
    key != "" && useCache && numBuilds == Some(1) && key in memo
  }
}

=== FILE: mybuilds.dfy ===
/** The "my builds" page's data preparation: the user's builds indexed by
    source-stamp set, the repository-to-display-repository map over all
    projects, and the projection `content` renders: each build with its
    source stamps and their branch query parameters, newest build first. */
module MyBuilds {
  import opened Wrappers
  import opened Strings
  import opened CacheKey

  /** A build row of the database query; `fields` are its other columns. */
  datatype BuildRow = BuildRow(
    ssid: int,
    buildsId: int,
    fields: map<string, string>,
    sourcestamps: seq<StampRow>,
    queryParams: seq<string>)

  /** A source-stamp row, with the two columns `content` adds. */
  datatype StampRow = StampRow(
    ssid: int,
    codebase: string,
    branch: Option<string>,
    revision: string,
    repository: string,
    revisionUrl: Option<string>,
    displayRepository: Option<string>)

  // ---------------------------------------------------------------------------
  // prepare_builds_by_ssid

  /** A row as `prepare_builds_by_ssid` stores it: empty source stamps and
      query parameters, everything else kept. */
  function Cleared(row: BuildRow): BuildRow {
    row.(sourcestamps := [], queryParams := [])
  }

  /** Row `i` is the last row of set `k`. */
  predicate LastRowOf(rows: seq<BuildRow>, k: int, i: int) {
    0 <= i < |rows| && rows[i].ssid == k && forall j :: i < j < |rows| ==> rows[j].ssid != k
  }

  /** `prepare_builds_by_ssid(builds)`: the rows by source-stamp set id,
      a later row replacing an earlier one with the same id. */
  function PrepareBuildsBySsid(rows: seq<BuildRow>): (m: map<int, BuildRow>)
    ensures forall k :: k in m <==> exists row :: row in rows && row.ssid == k
    ensures forall k :: k in m ==> m[k].ssid == k && m[k].queryParams == [] && m[k].sourcestamps == []
  {
    if |rows| == 0 then map[]
    else
      var init := rows[..|rows| - 1];
      var last := rows[|rows| - 1];
      assert forall row :: row in rows <==> row in init || row == last by {
        assert rows == init + [last];
      }
      PrepareBuildsBySsid(init)[last.ssid := Cleared(last)]
  }

  /** Each entry is the last row with its set id, cleared. */
  lemma {:induction false} BuildsBySsidEntry(rows: seq<BuildRow>, k: int)
    requires k in PrepareBuildsBySsid(rows)
    ensures exists i :: LastRowOf(rows, k, i) && PrepareBuildsBySsid(rows)[k] == Cleared(rows[i])
  {
    assert |rows| > 0;
    var init := rows[..|rows| - 1];
    var last := rows[|rows| - 1];
    var m := PrepareBuildsBySsid(init);
    assert PrepareBuildsBySsid(rows) == m[last.ssid := Cleared(last)];
    if k == last.ssid {
      assert LastRowOf(rows, k, |rows| - 1);
    } else {
      assert k in m;
      BuildsBySsidEntry(init, k);
      var i :| LastRowOf(init, k, i) && m[k] == Cleared(init[i]);
      LastRowExtend(rows, k, i);
    }
  }

  lemma LastRowExtend(rows: seq<BuildRow>, k: int, i: int)
    requires |rows| > 0 && LastRowOf(rows[..|rows| - 1], k, i) && rows[|rows| - 1].ssid != k
    ensures LastRowOf(rows, k, i) && rows[i] == rows[..|rows| - 1][i]
  {
    var init := rows[..|rows| - 1];
    forall j | i < j < |rows| ensures rows[j].ssid != k {
      if j < |rows| - 1 {
        assert rows[j] == init[j];
      }
    }
  }

  /** The worked example: two rows with distinct ids. */
  lemma BuildsBySsidExample()
    ensures var rows := [BuildRow(1, 11, map[], [], []), BuildRow(2, 22, map[], [], [])];
            PrepareBuildsBySsid(rows) == map[1 := rows[0], 2 := rows[1]]
  {
    var rows := [BuildRow(1, 11, map[], [], []), BuildRow(2, 22, map[], [], [])];
    assert rows[..1] == [rows[0]];
    assert rows[..1][..0] == [];
  }

  // ---------------------------------------------------------------------------
  // prepare_display_repositories

  /** Every codebase of every project, in order. */
  function AllCodebases(projects: seq<Project>): (cs: seq<CodebaseConfig>)
    ensures forall c :: c in cs <==> exists p :: p in projects && c in p.codebases
  {
    if |projects| == 0 then []
    else
      var init := projects[..|projects| - 1];
      assert forall p :: p in projects <==> p in init || p == projects[|projects| - 1] by {
        assert projects == init + [projects[|projects| - 1]];
      }
      AllCodebases(init) + projects[|projects| - 1].codebases
  }

  /** What a codebase displays for its repository. */
  function DisplayOf(c: CodebaseConfig): string
    requires c.repository.Some?
  {
    c.displayRepository.GetOr(c.repository.value)
  }

  /** Codebase `i` is the last one naming `repo`. */
  predicate LastCodebaseOf(cs: seq<CodebaseConfig>, repo: string, i: int) {
    0 <= i < |cs| && cs[i].repository == Some(repo) && forall j :: i < j < |cs| ==> cs[j].repository != Some(repo)
  }

  function DisplayMap(cs: seq<CodebaseConfig>): (r: Result<map<string, string>>)
    ensures r.Success? <==> forall c :: c in cs ==> c.repository.Some?
    ensures r.Success? ==> forall repo :: repo in r.value <==> exists c :: c in cs && c.repository == Some(repo)
  {
    if |cs| == 0 then Success(map[])
    else
      var init := cs[..|cs| - 1];
      var last := cs[|cs| - 1];
      assert forall c :: c in cs <==> c in init || c == last by {
        assert cs == init + [last];
      }
      var m := DisplayMap(init);
      if m.Failure? then m
      else if last.repository.None? then Failure(KeyError("repository"))
      else Success(m.value[last.repository.value := DisplayOf(last)])
  }

  /** The last codebase naming a repository decides its display. */
  lemma {:induction false} DisplayMapEntry(cs: seq<CodebaseConfig>, repo: string)
    requires DisplayMap(cs).Success? && repo in DisplayMap(cs).value
    ensures exists i :: LastCodebaseOf(cs, repo, i) && DisplayMap(cs).value[repo] == DisplayOf(cs[i])
  {
    assert |cs| > 0;
    var init := cs[..|cs| - 1];
    var last := cs[|cs| - 1];
    var m := DisplayMap(init).value;
    assert DisplayMap(cs).value == m[last.repository.value := DisplayOf(last)];
    if last.repository == Some(repo) {
      assert LastCodebaseOf(cs, repo, |cs| - 1);
    } else {
      assert repo in m;
      DisplayMapEntry(init, repo);
      var i :| LastCodebaseOf(init, repo, i) && m[repo] == DisplayOf(init[i]);
      LastCodebaseExtend(cs, repo, i);
    }
  }

  lemma LastCodebaseExtend(cs: seq<CodebaseConfig>, repo: string, i: int)
    requires |cs| > 0 && LastCodebaseOf(cs[..|cs| - 1], repo, i) && cs[|cs| - 1].repository != Some(repo)
    ensures LastCodebaseOf(cs, repo, i) && cs[i] == cs[..|cs| - 1][i]
  {
    var init := cs[..|cs| - 1];
    forall j | i < j < |cs| ensures cs[j].repository != Some(repo) {
      if j < |cs| - 1 {
        assert cs[j] == init[j];
      }
    }
  }

  /** `prepare_display_repositories(status)`: every repository of every
      project's codebases, mapped to its display repository or to itself;
      the last codebase naming a repository decides; a codebase without a
      repository raises `KeyError`. */
  function PrepareDisplayRepositories(projects: seq<Project>): (r: Result<map<string, string>>)
    ensures r.Success? <==> forall p, c :: p in projects && c in p.codebases ==> c.repository.Some?
    ensures r.Success? ==> forall repo :: repo in r.value <==>
              exists p, c :: p in projects && c in p.codebases && c.repository == Some(repo)
  {
    DisplayMap(AllCodebases(projects))
  }

  /** The worked example: two repositories with a display repository and
      one without. */
  lemma DisplayRepositoriesExample()
    ensures var a := CodebaseConfig("fmod1", None, None, Some("repo1"), Some("disp1"));
            var b := CodebaseConfig("fmod2", None, None, Some("repo2"), Some("disp2"));
            var c := CodebaseConfig("fmod3", None, None, Some("repo3"), None);
            PrepareDisplayRepositories([Project("with", [a, b]), Project("without", [c])])
            == Success(map["repo1" := "disp1", "repo2" := "disp2", "repo3" := "repo3"])
  {
    var a := CodebaseConfig("fmod1", None, None, Some("repo1"), Some("disp1"));
    var b := CodebaseConfig("fmod2", None, None, Some("repo2"), Some("disp2"));
    var c := CodebaseConfig("fmod3", None, None, Some("repo3"), None);
    var ps := [Project("with", [a, b]), Project("without", [c])];
    assert ps[..1] == [ps[0]];
    assert ps[..1][..0] == [];
    assert AllCodebases(ps[..1]) == [a, b];
    assert AllCodebases(ps) == [a, b, c];
    var cs := [a, b, c];
    assert cs[..2] == [a, b];
    assert cs[..2][..1] == [a];
    assert cs[..2][..1][..0] == [];
    assert DisplayMap([a]) == Success(map["repo1" := "disp1"]);
    assert DisplayMap([a, b]) == Success(map["repo1" := "disp1", "repo2" := "disp2"]);
  }

  // ---------------------------------------------------------------------------
  // content

  /** `"%s_branch=%s" % (codebase, branch)`; a missing branch prints as
      `None`. */
  function QueryParam(s: StampRow): (q: string)
    ensures |q| == |s.codebase| + 8 + |s.branch.GetOr("None")|
    ensures q[..|s.codebase| + 8] == s.codebase + "_branch="
    ensures q[|s.codebase| + 8..] == s.branch.GetOr("None")
  {
    var q := s.codebase + "_branch=" + s.branch.GetOr("None");
    assert q[..|s.codebase| + 8] == s.codebase + "_branch=";
    assert q[|s.codebase| + 8..] == s.branch.GetOr("None");
    q
  }

  /** The stamp row as `content` completes it; `revUrl` is the status's
      `get_rev_url`. */
  function Decorate(s: StampRow, display: map<string, string>, revUrl: (string, string) -> string): (d: StampRow)
    ensures d.displayRepository == Some(if s.repository in display then display[s.repository] else s.repository)
    ensures d.revisionUrl == Some(revUrl(s.revision, s.repository))
    ensures d.(revisionUrl := s.revisionUrl, displayRepository := s.displayRepository) == s
  {
    s.(revisionUrl := Some(revUrl(s.revision, s.repository)),
       displayRepository := Some(if s.repository in display then display[s.repository] else s.repository))
  }

  /** The loop over source-stamp rows: each is appended, with its query
      parameter, to its build. A row for a set with no build raises
      `KeyError`. */
  function AttachStamps(m: map<int, BuildRow>, stamps: seq<StampRow>, display: map<string, string>,
                        revUrl: (string, string) -> string): (r: Result<map<int, BuildRow>>)
    ensures r.Success? <==> forall s :: s in stamps ==> s.ssid in m
    ensures r.Success? ==> r.value.Keys == m.Keys
  {
    if |stamps| == 0 then Success(m)
    else
      var s := stamps[0];
      assert forall t :: t in stamps <==> t == s || t in stamps[1..] by {
        assert stamps == [s] + stamps[1..];
      }
      if s.ssid !in m then Failure(KeyError(IntToDecimal(s.ssid)))
      else AttachStamps(Attach(m, s, display, revUrl), stamps[1..], display, revUrl)
  }

  /** One iteration of the loop: stamp `s` appended to its build. */
  function Attach(m: map<int, BuildRow>, s: StampRow, display: map<string, string>,
                  revUrl: (string, string) -> string): map<int, BuildRow>
    requires s.ssid in m
  {
    var b := m[s.ssid];
    m[s.ssid := b.(queryParams := b.queryParams + [QueryParam(s)],
                   sourcestamps := b.sourcestamps + [Decorate(s, display, revUrl)])]
  }

  /** The query parameters of the stamps of set `k`, in order. */
  function ParamsFor(stamps: seq<StampRow>, k: int): seq<string> {
    if |stamps| == 0 then []
    else (if stamps[0].ssid == k then [QueryParam(stamps[0])] else []) + ParamsFor(stamps[1..], k)
  }

  /** The decorated stamps of set `k`, in order. */
  function StampsFor(stamps: seq<StampRow>, k: int, display: map<string, string>,
                     revUrl: (string, string) -> string): seq<StampRow> {
    if |stamps| == 0 then []
    else (if stamps[0].ssid == k then [Decorate(stamps[0], display, revUrl)] else [])
         + StampsFor(stamps[1..], k, display, revUrl)
  }

  /** After the loop each build carries exactly its own set's stamps and
      query parameters, in row order, after whatever it had; its other
      columns are unchanged. */
  lemma {:induction false} AttachStampsEntries(m: map<int, BuildRow>, stamps: seq<StampRow>, display: map<string, string>,
                                               revUrl: (string, string) -> string, k: int)
    requires AttachStamps(m, stamps, display, revUrl).Success? && k in m
    ensures var b := AttachStamps(m, stamps, display, revUrl).value[k];
            && b == m[k].(sourcestamps := b.sourcestamps, queryParams := b.queryParams)
            && b.queryParams == m[k].queryParams + ParamsFor(stamps, k)
            && b.sourcestamps == m[k].sourcestamps + StampsFor(stamps, k, display, revUrl)
    decreases |stamps|
  {
    if |stamps| > 0 {
      var s := stamps[0];
      assert s in stamps;
      var m1 := Attach(m, s, display, revUrl);
      assert AttachStamps(m, stamps, display, revUrl) == AttachStamps(m1, stamps[1..], display, revUrl);
      AttachStampsEntries(m1, stamps[1..], display, revUrl, k);
      if k == s.ssid {
        assert m1[k].queryParams == m[k].queryParams + [QueryParam(s)];
        assert m1[k].sourcestamps == m[k].sourcestamps + [Decorate(s, display, revUrl)];
      } else {
        assert m1[k] == m[k];
      }
    }
  }

  /** The distinct set ids of the rows, in order of first appearance. */
  function DistinctSsids(rows: seq<BuildRow>, seen: set<int>): (ids: seq<int>)
    ensures forall k :: k in ids <==> k !in seen && exists row :: row in rows && row.ssid == k
    ensures forall i, j :: 0 <= i < j < |ids| ==> ids[i] != ids[j]
  {
    if |rows| == 0 then []
    else
      assert forall row :: row in rows <==> row == rows[0] || row in rows[1..] by {
        assert rows == [rows[0]] + rows[1..];
      }
      if rows[0].ssid in seen then DistinctSsids(rows[1..], seen)
      else [rows[0].ssid] + DistinctSsids(rows[1..], seen + {rows[0].ssid})
  }

  /** Newest build first: descending `builds_id`. */
  predicate Descending(bs: seq<BuildRow>) {
    forall i, j :: 0 <= i < j < |bs| ==> bs[i].buildsId >= bs[j].buildsId
  }

  function InsertDescending(b: BuildRow, bs: seq<BuildRow>): (r: seq<BuildRow>)
    requires Descending(bs)
    ensures Descending(r)
    ensures |r| == |bs| + 1
    ensures multiset(r) == multiset(bs) + multiset{b}
  {
    if |bs| == 0 || bs[0].buildsId <= b.buildsId then
      DescendingCons(b, bs);
      [b] + bs
    else
      assert bs == [bs[0]] + bs[1..];
      DescendingTail(bs);
      var rest := InsertDescending(b, bs[1..]);
      forall j | 0 <= j < |rest| ensures rest[j].buildsId <= bs[0].buildsId {
        if rest[j] != b {
          var i := FromRest(rest[j], rest, bs[1..], b);
          assert bs[i + 1] == rest[j];
        }
      }
      DescendingCons(bs[0], rest);
      [bs[0]] + rest
  }

  lemma DescendingTail(bs: seq<BuildRow>)
    requires |bs| > 0 && Descending(bs)
    ensures Descending(bs[1..])
  {
    forall i, j | 0 <= i < j < |bs| - 1 ensures bs[1..][i].buildsId >= bs[1..][j].buildsId {
      assert bs[1..][i] == bs[i + 1] && bs[1..][j] == bs[j + 1];
    }
  }

  lemma DescendingCons(b: BuildRow, rest: seq<BuildRow>)
    requires Descending(rest)
    requires forall k :: 0 <= k < |rest| ==> rest[k].buildsId <= b.buildsId
    ensures Descending([b] + rest)
  {
    var l := [b] + rest;
    forall i, j | 0 <= i < j < |l| ensures l[i].buildsId >= l[j].buildsId {
      assert l[j] == rest[j - 1];
      if i > 0 {
        assert l[i] == rest[i - 1];
      }
    }
  }

  /** `sorted(..., key=itemgetter('builds_id'), reverse=True)`. */
  function SortDescending(bs: seq<BuildRow>): (r: seq<BuildRow>)
    ensures Descending(r)
    ensures |r| == |bs|
    ensures multiset(r) == multiset(bs)
  {
    if |bs| == 0 then []
    else
      assert bs == [bs[0]] + bs[1..];
      InsertDescending(bs[0], SortDescending(bs[1..]))
  }

  function ValuesOf(m: map<int, BuildRow>, ids: seq<int>): (vs: seq<BuildRow>)
    requires forall i :: 0 <= i < |ids| ==> ids[i] in m
    ensures |vs| == |ids|
    ensures forall i :: 0 <= i < |ids| ==> vs[i] == m[ids[i]]
  {
    if |ids| == 0 then [] else [m[ids[0]]] + ValuesOf(m, ids[1..])
  }

  /** The builds `content` renders: one per source-stamp set, each with
      its stamps attached, newest first. */
  function ContentBuilds(rows: seq<BuildRow>, stamps: seq<StampRow>, display: map<string, string>,
                         revUrl: (string, string) -> string): (r: Result<seq<BuildRow>>)
    ensures r.Success? <==> forall s :: s in stamps ==> exists row :: row in rows && row.ssid == s.ssid
    ensures r.Success? ==> Descending(r.value)
    ensures r.Success? ==> |r.value| == |DistinctSsids(rows, {})|
  {
    var bySsid := PrepareBuildsBySsid(rows);
    var attached :- AttachStamps(bySsid, stamps, display, revUrl);
    var ids := DistinctSsids(rows, {});
    assert forall i :: 0 <= i < |ids| ==> ids[i] in attached by {
      forall i | 0 <= i < |ids| ensures ids[i] in attached {
        assert ids[i] in ids;
      }
    }
    var values := ValuesOf(attached, ids);
    var sorted := SortDescending(values);
    assert |sorted| == |ids|;
    Success(sorted)
  }

  /** Each rendered build is one of the user's builds, carrying exactly the
      query parameters of its own set's source stamps, in row order. */
  lemma ContentBuildsParams(rows: seq<BuildRow>, stamps: seq<StampRow>, display: map<string, string>,
                            revUrl: (string, string) -> string)
    requires ContentBuilds(rows, stamps, display, revUrl).Success?
    ensures forall b :: b in ContentBuilds(rows, stamps, display, revUrl).value ==>
              && OneOf(rows, b)
              && b.queryParams == ParamsFor(stamps, b.ssid)
              && b.sourcestamps == StampsFor(stamps, b.ssid, display, revUrl)
              && LastRowDecorated(rows, stamps, display, revUrl, b)
  {
    var bySsid := PrepareBuildsBySsid(rows);
    var attached := AttachStamps(bySsid, stamps, display, revUrl).value;
    var ids := DistinctSsids(rows, {});
    assert forall i :: 0 <= i < |ids| ==> ids[i] in attached by {
      forall i | 0 <= i < |ids| ensures ids[i] in attached {
        assert ids[i] in ids;
      }
    }
    var values := ValuesOf(attached, ids);
    var sorted := SortDescending(values);
    assert sorted == ContentBuilds(rows, stamps, display, revUrl).value;
    forall b | b in sorted
      ensures OneOf(rows, b)
      ensures b.queryParams == ParamsFor(stamps, b.ssid)
      ensures b.sourcestamps == StampsFor(stamps, b.ssid, display, revUrl)
      ensures LastRowDecorated(rows, stamps, display, revUrl, b)
    {
      assert b in multiset(sorted);
      assert b in values;
      var i :| 0 <= i < |values| && values[i] == b;
      assert b == attached[ids[i]];
      AttachedEntry(rows, stamps, display, revUrl, ids[i]);
    }
  }

  /** `b` is the last of the rows for its set, as the dictionary keeps it,
      carrying exactly its set's stamps and query parameters. */
  ghost predicate LastRowDecorated(rows: seq<BuildRow>, stamps: seq<StampRow>, display: map<string, string>,
                             revUrl: (string, string) -> string, b: BuildRow) {
    exists j :: LastRowOf(rows, b.ssid, j)
                && b == rows[j].(queryParams := ParamsFor(stamps, b.ssid),
                                 sourcestamps := StampsFor(stamps, b.ssid, display, revUrl))
  }

  /** `b` is the build of one of the rows: same set and same build id. */
  predicate OneOf(rows: seq<BuildRow>, b: BuildRow) {
    exists row :: row in rows && row.ssid == b.ssid && b.buildsId == row.buildsId
  }

  /** One entry of the dictionary after the source stamps are attached. */
  lemma AttachedEntry(rows: seq<BuildRow>, stamps: seq<StampRow>, display: map<string, string>,
                      revUrl: (string, string) -> string, k: int)
    requires AttachStamps(PrepareBuildsBySsid(rows), stamps, display, revUrl).Success?
    requires k in PrepareBuildsBySsid(rows)
    ensures var b := AttachStamps(PrepareBuildsBySsid(rows), stamps, display, revUrl).value[k];
            && b.ssid == k
            && OneOf(rows, b)
            && b.queryParams == ParamsFor(stamps, b.ssid)
            && b.sourcestamps == StampsFor(stamps, b.ssid, display, revUrl)
            && exists j :: LastRowOf(rows, k, j)
                           && b == rows[j].(queryParams := ParamsFor(stamps, k),
                                            sourcestamps := StampsFor(stamps, k, display, revUrl))
  {
    var bySsid := PrepareBuildsBySsid(rows);
    AttachStampsEntries(bySsid, stamps, display, revUrl, k);
    BuildsBySsidEntry(rows, k);
    var j :| LastRowOf(rows, k, j) && bySsid[k] == Cleared(rows[j]);
    assert rows[j] in rows;
    var b := AttachStamps(bySsid, stamps, display, revUrl).value[k];
    assert b == rows[j].(queryParams := ParamsFor(stamps, k), sourcestamps := StampsFor(stamps, k, display, revUrl));
  }

  /** The set ids of the rows, in order. */
  function Ssids(bs: seq<BuildRow>): (ks: seq<int>)
    ensures |ks| == |bs|
  {
    if |bs| == 0 then [] else [bs[0].ssid] + Ssids(bs[1..])
  }

  /** The `i`-th set id is that of the `i`-th build. */
  lemma {:induction false} SsidsAt(bs: seq<BuildRow>, i: int)
    requires 0 <= i < |bs|
    ensures Ssids(bs)[i] == bs[i].ssid
    decreases i
  {
    if i > 0 {
      SsidsAt(bs[1..], i - 1);
    }
  }

  /** Inserting a row adds its set id, and only it, to the set ids. */
  lemma {:induction false} InsertKeepsSsids(b: BuildRow, bs: seq<BuildRow>)
    requires Descending(bs)
    ensures multiset(Ssids(InsertDescending(b, bs))) == multiset(Ssids(bs)) + multiset{b.ssid}
    decreases |bs|
  {
    if |bs| == 0 || bs[0].buildsId <= b.buildsId {
      SsidsCons(b, bs);
    } else {
      DescendingTail(bs);
      var rest := InsertDescending(b, bs[1..]);
      assert InsertDescending(b, bs) == [bs[0]] + rest;
      InsertKeepsSsids(b, bs[1..]);
      SsidsCons(bs[0], rest);
      assert Ssids(bs) == [bs[0].ssid] + Ssids(bs[1..]);
    }
  }

  lemma SsidsCons(b: BuildRow, bs: seq<BuildRow>)
    ensures Ssids([b] + bs) == [b.ssid] + Ssids(bs)
  {
    assert ([b] + bs)[1..] == bs;
  }

  /** Sorting permutes the set ids. */
  lemma {:induction false} SortKeepsSsids(bs: seq<BuildRow>)
    ensures multiset(Ssids(SortDescending(bs))) == multiset(Ssids(bs))
  {
    if |bs| > 0 {
      SortKeepsSsids(bs[1..]);
      InsertKeepsSsids(bs[0], SortDescending(bs[1..]));
      assert Ssids(bs) == [bs[0].ssid] + Ssids(bs[1..]);
    }
  }

  /** In a list without repetitions every value occurs once or not at all. */
  lemma {:induction false} DistinctCount(ids: seq<int>, k: int)
    requires forall i, j :: 0 <= i < j < |ids| ==> ids[i] != ids[j]
    ensures multiset(ids)[k] == (if k in ids then 1 else 0)
  {
    if |ids| > 0 {
      assert ids == [ids[0]] + ids[1..];
      assert forall i, j :: 0 <= i < j < |ids[1..]| ==> ids[1..][i] != ids[1..][j] by {
        forall i, j | 0 <= i < j < |ids[1..]| ensures ids[1..][i] != ids[1..][j] {
          assert ids[1..][i] == ids[i + 1] && ids[1..][j] == ids[j + 1];
        }
      }
      DistinctCount(ids[1..], k);
      if k == ids[0] {
        assert k !in ids[1..] by {
          forall i | 0 <= i < |ids[1..]| ensures ids[1..][i] != k {
            assert ids[1..][i] == ids[i + 1];
          }
        }
      }
    }
  }

  /** The page's builds carry, counted with multiplicity, exactly the distinct
      source-stamp sets of the user's rows. */
  lemma ContentBuildsSsids(rows: seq<BuildRow>, stamps: seq<StampRow>, display: map<string, string>,
                           revUrl: (string, string) -> string)
    requires ContentBuilds(rows, stamps, display, revUrl).Success?
    ensures multiset(Ssids(ContentBuilds(rows, stamps, display, revUrl).value)) == multiset(DistinctSsids(rows, {}))
  {
    var a := AttachStamps(PrepareBuildsBySsid(rows), stamps, display, revUrl);
    assert a.Success?;
    var attached := a.value;
    var ids := DistinctSsids(rows, {});
    ValuesSsids(rows, stamps, display, revUrl);
    assert forall i :: 0 <= i < |ids| ==> ids[i] in attached;
    var values := ValuesOf(attached, ids);
    assert SortDescending(values) == ContentBuilds(rows, stamps, display, revUrl).value;
    SortKeepsSsids(values);
  }

  /** The page lists exactly one build per source-stamp set of the user's
      rows, and none for any other set. */
  lemma ContentBuildsOnePerSet(rows: seq<BuildRow>, stamps: seq<StampRow>, display: map<string, string>,
                               revUrl: (string, string) -> string, k: int)
    requires ContentBuilds(rows, stamps, display, revUrl).Success?
    ensures multiset(Ssids(ContentBuilds(rows, stamps, display, revUrl).value))[k]
            == (if exists row :: row in rows && row.ssid == k then 1 else 0)
  {
    ContentBuildsSsids(rows, stamps, display, revUrl);
    DistinctCount(DistinctSsids(rows, {}), k);
  }

  /** Before the sort, the builds come in the order of their set ids. */
  lemma ValuesSsids(rows: seq<BuildRow>, stamps: seq<StampRow>, display: map<string, string>,
                    revUrl: (string, string) -> string)
    requires AttachStamps(PrepareBuildsBySsid(rows), stamps, display, revUrl).Success?
    ensures var attached := AttachStamps(PrepareBuildsBySsid(rows), stamps, display, revUrl).value;
            var ids := DistinctSsids(rows, {});
            (forall i :: 0 <= i < |ids| ==> ids[i] in attached)
            && Ssids(ValuesOf(attached, ids)) == ids
  {
    var attached := AttachStamps(PrepareBuildsBySsid(rows), stamps, display, revUrl).value;
    var ids := DistinctSsids(rows, {});
    forall i | 0 <= i < |ids| ensures ids[i] in attached {
      AttachedSsid(rows, stamps, display, revUrl, ids[i]);
    }
    var values := ValuesOf(attached, ids);
    forall i | 0 <= i < |ids| ensures Ssids(values)[i] == ids[i] {
      AttachedSsid(rows, stamps, display, revUrl, ids[i]);
      SsidsAt(values, i);
    }
  }

  /** The per-set dictionary holds, under each set id of the user's rows,
      a build of that set. */
  lemma AttachedSsid(rows: seq<BuildRow>, stamps: seq<StampRow>, display: map<string, string>,
                     revUrl: (string, string) -> string, k: int)
    requires AttachStamps(PrepareBuildsBySsid(rows), stamps, display, revUrl).Success?
    requires k in DistinctSsids(rows, {})
    ensures k in AttachStamps(PrepareBuildsBySsid(rows), stamps, display, revUrl).value
    ensures AttachStamps(PrepareBuildsBySsid(rows), stamps, display, revUrl).value[k].ssid == k
  {
    AttachedEntry(rows, stamps, display, revUrl, k);
  }
}

=== FILE: pending_builds.dfy ===
/** `PendingBuildsCache`: a builder's pending build requests, cached per
    codebase-selection key, and the same list rendered as dictionaries. Any
    notification that can change the queue drops both caches and re-reads
    the default selection. The database query and the rendering are
    parameters: `fetch` gives the queue for a selection as it is at the
    time of the call, `render` one request as a dictionary. */
module PendingBuilds {
  import opened Wrappers
  import opened CacheKey

  datatype PendingCache<R, D> = PendingCache(
    statuses: map<string, seq<R>>,
    dicts: map<string, seq<D>>)

  /** `cache_now`: both caches are dropped and the queue for the empty
      selection (key "") is read again. */
  function CacheNow<R, D>(fetch: Overrides -> seq<R>): (c: PendingCache<R, D>)
    ensures c.dicts == map[]
    ensures c.statuses.Keys == {""} && c.statuses[""] == fetch(map[])
  {
    PendingCache(map["" := fetch(map[])], map[])
  }

  /** `getPendingBuilds(codebases)`: the cached list for the selection's
      key, read (with the selection as the key computation completed it)
      and cached when the key is missing. */
  function GetPendingBuilds<R, D>(c: PendingCache<R, D>, project: Option<Project>, codebases: Overrides, fetch: Overrides -> seq<R>): (r: (seq<R>, PendingCache<R, D>))
    ensures var (key, resolved) := CodebasesCacheKey(project, codebases);
            && (key in c.statuses ==> r == (c.statuses[key], c))
            && (key !in c.statuses ==> r.0 == fetch(resolved) && r.1 == c.(statuses := c.statuses[key := r.0]))
  {
    var (key, resolved) := CodebasesCacheKey(project, codebases);
    if key in c.statuses then (c.statuses[key], c)
    else
      var pending := fetch(resolved);
      (pending, c.(statuses := c.statuses[key := pending]))
  }

  /** `getTotal(codebases)`: the number of pending requests. */
  function GetTotal<R, D>(c: PendingCache<R, D>, project: Option<Project>, codebases: Overrides, fetch: Overrides -> seq<R>): (r: (nat, PendingCache<R, D>))
    ensures r.0 == |GetPendingBuilds(c, project, codebases, fetch).0|
    ensures r.1 == GetPendingBuilds(c, project, codebases, fetch).1
  {
    var (pending, c') := GetPendingBuilds(c, project, codebases, fetch);
    (|pending|, c')
  }

  function RenderAll<R, D>(pending: seq<R>, render: (R, Overrides) -> D, codebases: Overrides): (r: seq<D>)
    ensures |r| == |pending|
    ensures forall i :: 0 <= i < |pending| ==> r[i] == render(pending[i], codebases)
  {
    if |pending| == 0 then [] else [render(pending[0], codebases)] + RenderAll(pending[1..], render, codebases)
  }

  /** `getPendingBuildsDicts(codebases)`: the cached rendering for the key,
      or the pending list (through `getPendingBuilds`) rendered one request
      per entry, in order, and cached. */
  function GetPendingBuildsDicts<R, D>(c: PendingCache<R, D>, project: Option<Project>, codebases: Overrides,
                                       fetch: Overrides -> seq<R>, render: (R, Overrides) -> D): (r: (seq<D>, PendingCache<R, D>))
    ensures var (key, resolved) := CodebasesCacheKey(project, codebases);
            && (key in c.dicts ==> r == (c.dicts[key], c))
            && (key !in c.dicts ==>
                  var (pending, c1) := GetPendingBuilds(c, project, resolved, fetch);
                  && |r.0| == |pending|
                  && (forall i :: 0 <= i < |pending| ==> r.0[i] == render(pending[i], resolved))
                  && r.1 == c1.(dicts := c1.dicts[key := r.0]))
  {
    var (key, resolved) := CodebasesCacheKey(project, codebases);
    if key in c.dicts then (c.dicts[key], c)
    else
      var (pending, c1) := GetPendingBuilds(c, project, resolved, fetch);
      var rendered := RenderAll(pending, render, resolved);
      (rendered, c1.(dicts := c1.dicts[key := rendered]))
  }

  /** The notifications. `buildStarted`, `buildFinished`, `requestSubmitted`
      and `requestCancelled` re-cache; `builderChangedState` does nothing. */
  datatype Notification = BuildStarted | BuildFinished | RequestSubmitted | RequestCancelled | BuilderChangedState

  function Notify<R, D>(c: PendingCache<R, D>, n: Notification, fetch: Overrides -> seq<R>): (r: PendingCache<R, D>)
    ensures n == BuilderChangedState ==> r == c
    ensures n != BuilderChangedState ==> r.dicts == map[] && r.statuses.Keys == {""}
    ensures n != BuilderChangedState ==> r.statuses[""] == fetch(map[])
  {
    if n == BuilderChangedState then c else CacheNow(fetch)
  }

  /** A second lookup with the selection as the first one left it is
      served from the cache, whatever the queue is by then. */
  lemma RepeatLookupIsCached<R, D>(c: PendingCache<R, D>, project: Option<Project>, codebases: Overrides,
                                   fetch: Overrides -> seq<R>, later: Overrides -> seq<R>)
    ensures var (first, c1) := GetPendingBuilds(c, project, codebases, fetch);
            var resolved := CodebasesCacheKey(project, codebases).1;
            GetPendingBuilds(c1, project, resolved, later) == (first, c1)
  {
    var (key, resolved) := CodebasesCacheKey(project, codebases);
    if |codebases| > 0 {
      GetCacheKeyIdempotent(project, codebases);
    }
  }

  /** After a notification that changes the queue, a lookup for any
      selection other than the empty one reads the queue afresh. */
  lemma NotificationRefreshes<R, D>(c: PendingCache<R, D>, n: Notification, project: Option<Project>, codebases: Overrides,
                                    fetch: Overrides -> seq<R>, later: Overrides -> seq<R>)
    requires n != BuilderChangedState
    requires CodebasesCacheKey(project, codebases).0 != ""
    ensures GetPendingBuilds(Notify(c, n, fetch), project, codebases, later).0 == later(CodebasesCacheKey(project, codebases).1)
  {
  }
}

=== FILE: records.dfy ===
/** The entities the builder status keeps: build records, their steps and
    source stamps, the builder's events, and the on-disk record store.
    Timestamps (Python floats from `util.now()`) are integers here. */
module Records {
  import opened Wrappers

  /** One (codebase, branch) pair of a build; `branch` may be Python `None`. */
  datatype SourceStamp = SourceStamp(codebase: string, branch: Option<string>)

  datatype Step = Step(name: string, started: bool, startTime: int)

  /** A build record: the parts of `BuildStatus` the builder status reads. */
  datatype Build = Build(
    number: int,
    finished: bool,
    result: int,
    sourceStamps: seq<SourceStamp>,
    startTime: int,
    endTime: int,
    steps: seq<Step>,
    changeAuthors: seq<string>)

  /** A builder event: its start time, its finish time (0 for a point event)
      and its text. */
  datatype Event = Event(started: int, finished: int, text: seq<string>)

  /** The builder's directory: file name to the build record its pickle
      holds, `None` when the file cannot be read back as a build (a log file,
      a corrupted or truncated pickle, an unimportable class). */
  type Store = map<string, Option<Build>>

  /** Result codes, in the order of the result-name table of the status
      package. */
  const SUCCESS: int := 0
  const WARNINGS: int := 1
  const FAILURE: int := 2
  const SKIPPED: int := 3
  const EXCEPTION: int := 4
  const RETRY: int := 5
  const CANCELED: int := 6
  const NOT_REBUILT: int := 7
  const DEPENDENCY_FAILURE: int := 8
  const RESUME: int := 9
  const MERGED: int := 10
  const INTERRUPTED: int := 11
}

=== FILE: request_merger.dfy ===
/** `BuildRequestMerger`: before a buildset's requests are written, each
    builder of a triggered buildset looks for a request in the same chain
    it can be merged into. The database is a parameter: `db` holds every
    buildset's properties, `targets` gives the merge candidates of a chain
    and builder in the database's order, and `topLevel` the chain's
    top-level request. */
module RequestMerger {
  import opened Wrappers
  import opened Strings

  /** The properties that must always agree for two requests to merge. */
  const BaseMergeProperties: seq<string> := ["force_rebuild", "force_chain_rebuild"]

  /** A request pinned to one slave is never merged. */
  const SelectedSlave: string := "selected_slave"

  type Props<V> = map<string, V>

  /** `props.get(name, None)`. */
  function Get<V>(props: Props<V>, name: string): Option<V> {
    if name in props then Some(props[name]) else None
  }

  function AllAgree<V(==)>(names: seq<string>, a: Props<V>, b: Props<V>): (r: bool)
    ensures r <==> forall name :: name in names ==> Get(a, name) == Get(b, name)
  {
    if |names| == 0 then true
    else Get(a, names[0]) == Get(b, names[0]) && AllAgree(names[1..], a, b)
  }

  /** `_propertiesMatch`: never against a request pinned to a slave;
      otherwise every base property and every configured merge property
      agrees, an absent one counting as `None`. */
  function PropertiesMatch<V(==)>(props: Props<V>, other: Props<V>, mergeProperties: seq<string>): (r: bool)
    ensures SelectedSlave in other ==> !r
    ensures SelectedSlave !in other ==>
      (r <==> forall name :: name in BaseMergeProperties + mergeProperties ==> Get(props, name) == Get(other, name))
  {
    if SelectedSlave in other then false
    else AllAgree(BaseMergeProperties + mergeProperties, props, other)
  }

  // ---------------------------------------------------------------------------
  // The properties cache

  type PropsCache<V> = map<int, Props<V>>

  /** The cache only ever holds what the database holds. */
  predicate Consistent<V(==)>(cache: PropsCache<V>, db: PropsCache<V>) {
    forall id :: id in cache ==> id in db && cache[id] == db[id]
  }

  datatype Fetched<V> = Fetched(properties: PropsCache<V>, cache: PropsCache<V>, queried: set<int>)

  /** The ids of `ids` the cache does not hold. */
  function Missing<V>(cache: PropsCache<V>, ids: seq<int>): set<int> {
    (set id | id in ids) - cache.Keys
  }

  /** The first id of `ids` in `missing` that `found` lacks, for the
      `KeyError`. */
  function FirstLacking<V>(ids: seq<int>, missing: set<int>, found: PropsCache<V>): Option<int> {
    if |ids| == 0 then None
    else if ids[0] in missing && ids[0] !in found then Some(ids[0])
    else FirstLacking(ids[1..], missing, found)
  }

  /** `_getBuildsetsProperties(ids)`: cached properties are taken from the
      cache; the rest are read in one query and cached. An id the database
      does not know makes the cache fill fail with `KeyError`. */
  function GetBuildsetsProperties<V(==)>(cache: PropsCache<V>, ids: seq<int>, db: PropsCache<V>): (r: Result<Fetched<V>>)
    ensures r.Success? <==> Missing(cache, ids) <= db.Keys
    ensures r.Success? ==> r.value.queried == Missing(cache, ids) && r.value.queried !! cache.Keys
  {
    var cached := map id | id in ids && id in cache :: cache[id];
    var missing := Missing(cache, ids);
    var fetched := if missing != {} then map id | id in missing && id in db :: db[id] else map[];
    var properties := cached + fetched;
    assert forall id :: id in missing ==> (id in properties <==> id in db);
    if !(missing <= properties.Keys) then
      var lacking := FirstLacking(ids, missing, properties);
      Failure(KeyError(if lacking.Some? then IntToDecimal(lacking.value) else ""))
    else
      var cache' := cache + map id | id in missing :: properties[id];
      Success(Fetched(properties, cache', missing))
  }

  /** A successful lookup answers every id and caches it, and leaves what
      the cache held untouched. */
  lemma GetBuildsetsPropertiesCovers<V>(cache: PropsCache<V>, ids: seq<int>, db: PropsCache<V>)
    requires GetBuildsetsProperties(cache, ids, db).Success?
    ensures var f := GetBuildsetsProperties(cache, ids, db).value;
            && (forall id :: id in ids ==> id in f.properties && id in f.cache)
            && (forall id :: id in cache ==> id in f.cache && f.cache[id] == cache[id])
  {
    var f := GetBuildsetsProperties(cache, ids, db).value;
    var missing := Missing(cache, ids);
    assert f.queried == missing;
    forall id | id in ids ensures id in f.properties && id in f.cache {
      assert id in cache || id in missing;
    }
    forall id | id in cache ensures id in f.cache && f.cache[id] == cache[id] {
      assert id !in missing;
    }
  }

  /** With a cache that agrees with the database, the answers are the
      database's and the cache still agrees with it afterwards. */
  lemma GetBuildsetsPropertiesConsistent<V>(cache: PropsCache<V>, ids: seq<int>, db: PropsCache<V>)
    requires GetBuildsetsProperties(cache, ids, db).Success? && Consistent(cache, db)
    ensures var f := GetBuildsetsProperties(cache, ids, db).value;
            && Consistent(f.cache, db)
            && forall id :: id in ids ==> f.properties[id] == db[id]
  {
    var f := GetBuildsetsProperties(cache, ids, db).value;
    GetBuildsetsPropertiesCovers(cache, ids, db);
    var missing := Missing(cache, ids);
    forall id | id in ids ensures f.properties[id] == db[id] {
      if id in cache {
        assert id !in missing;
      } else {
        assert id in missing;
      }
    }
    forall id | id in f.cache ensures id in db && f.cache[id] == db[id] {
      if id !in cache {
        assert id in missing;
      }
    }
  }

  // ---------------------------------------------------------------------------
  // Choosing the request to merge into

  /** A merge candidate: its buildset id and its build request id. */
  datatype Target = Target(buildsetId: int, brid: int)

  /** The position of the first candidate whose properties match. */
  function FirstMatch<V(==)>(props: Props<V>, mergeProperties: seq<string>, targets: seq<Target>, others: PropsCache<V>): (r: Option<nat>)
    requires forall t :: t in targets ==> t.buildsetId in others
    ensures r.None? <==> forall i :: 0 <= i < |targets| ==> !PropertiesMatch(props, others[targets[i].buildsetId], mergeProperties)
    ensures r.Some? ==> r.value < |targets| && PropertiesMatch(props, others[targets[r.value].buildsetId], mergeProperties)
    ensures r.Some? ==> forall j :: 0 <= j < r.value ==> !PropertiesMatch(props, others[targets[j].buildsetId], mergeProperties)
  {
    if |targets| == 0 then None
    else if PropertiesMatch(props, others[targets[0].buildsetId], mergeProperties) then Some(0)
    else
      var rest := FirstMatch(props, mergeProperties, targets[1..], others);
      if rest.Some? then Some(rest.value + 1) else None
  }

  function BuildsetIds(targets: seq<Target>): (ids: seq<int>)
    ensures |ids| == |targets|
    ensures forall i :: 0 <= i < |targets| ==> ids[i] == targets[i].buildsetId
  {
    if |targets| == 0 then [] else [targets[0].buildsetId] + BuildsetIds(targets[1..])
  }

  /** Reference: the request of the first candidate, in the database's
      order, whose stored properties match; none for a request pinned to
      a slave. */
  function MergeTarget<V(==)>(props: Props<V>, mergeProperties: seq<string>, targets: seq<Target>, db: PropsCache<V>): Option<int>
    requires forall t :: t in targets ==> t.buildsetId in db
  {
    if SelectedSlave in props then None
    else
      var i := FirstMatch(props, mergeProperties, targets, db);
      if i.Some? then Some(targets[i.value].brid) else None
  }

  /** `_getMergeBrid(startbrid, builderName, properties, mergeProperties)`
      over the candidates `targets`: pinned requests are never merged; the
      candidates' properties are fetched through the cache and the first
      match wins. With a cache that agrees with the database, the answer is
      the reference one. */
  function GetMergeBrid<V(==)>(cache: PropsCache<V>, props: Props<V>, mergeProperties: seq<string>, targets: seq<Target>, db: PropsCache<V>)
    : (r: Result<(Option<int>, PropsCache<V>)>)
    ensures SelectedSlave in props ==> r == Success((None, cache))
    ensures SelectedSlave !in props && Consistent(cache, db) ==>
              && (r.Success? <==> forall t :: t in targets ==> t.buildsetId in db)
              && (r.Success? ==> r.value.0 == MergeTarget(props, mergeProperties, targets, db) && Consistent(r.value.1, db))
  {
    if SelectedSlave in props then Success((None, cache))
    else
      var ids := BuildsetIds(targets);
      var fetched :- GetBuildsetsProperties(cache, ids, db);
      GetBuildsetsPropertiesCovers(cache, ids, db);
      assert forall t :: t in targets ==> t.buildsetId in ids by {
        forall t | t in targets ensures t.buildsetId in ids {
          var i :| 0 <= i < |targets| && targets[i] == t;
          assert ids[i] == t.buildsetId;
        }
      }
      var i := FirstMatch(props, mergeProperties, targets, fetched.properties);
      var res := Success((if i.Some? then Some(targets[i.value].brid) else None, fetched.cache));
      if Consistent(cache, db) then
        GetBuildsetsPropertiesConsistent(cache, ids, db);
        SameMatch(props, mergeProperties, targets, fetched.properties, db);
        res
      else res
  }

  /** Two property maps that agree on the candidates choose the same one. */
  lemma {:induction false} SameMatch<V>(props: Props<V>, mergeProperties: seq<string>, targets: seq<Target>, a: PropsCache<V>, b: PropsCache<V>)
    requires forall t :: t in targets ==> t.buildsetId in a && t.buildsetId in b && a[t.buildsetId] == b[t.buildsetId]
    ensures FirstMatch(props, mergeProperties, targets, a) == FirstMatch(props, mergeProperties, targets, b)
  {
    if |targets| > 0 {
      SameMatch(props, mergeProperties, targets[1..], a, b);
    }
  }

  // ---------------------------------------------------------------------------
  // The merge map of `addBuildset`

  /** Python truthiness of a request id: 0 is false. */
  predicate TruthyBrid(brid: Option<int>) {
    brid.Some? && brid.value != 0
  }

  /** The merge map `breqsToMerge` of `addBuildset`, for the builders in
      order: a top-level buildset (no triggering request) merges nothing;
      otherwise each builder's merge request, when it is truthy, is
      entered. `mergeProperties` is each builder's configuration; a builder
      it lacks raises `KeyError`. */
  function MergeMap<V(==)>(builderNames: seq<string>, triggeredBy: Option<int>, props: Props<V>,
                           topLevel: int -> int, mergeProperties: map<string, seq<string>>,
                           targets: (int, string) -> seq<Target>, cache: PropsCache<V>, db: PropsCache<V>)
    : (r: Result<(map<string, int>, PropsCache<V>)>)
    ensures triggeredBy.None? ==> r == Success((map[], cache))
  {
    if triggeredBy.None? || |builderNames| == 0 then Success((map[], cache))
    else
      var name := builderNames[0];
      if name !in mergeProperties then Failure(KeyError(name))
      else
        var startbrid := topLevel(triggeredBy.value);
        var (brid, cache1) :- GetMergeBrid(cache, props, mergeProperties[name], targets(startbrid, name), db);
        var (rest, cache2) :- MergeMap(builderNames[1..], triggeredBy, props, topLevel, mergeProperties, targets, cache1, db);
        var here := if TruthyBrid(brid) then map[name := brid.value] else map[];
        Success((here + rest, cache2))
  }

  /** Every builder, every candidate's buildset and the cache are known to
      the database. */
  predicate Known<V(==)>(builderNames: seq<string>, triggeredBy: int, topLevel: int -> int, mergeProperties: map<string, seq<string>>,
                         targets: (int, string) -> seq<Target>, db: PropsCache<V>) {
    forall name :: name in builderNames ==>
      && name in mergeProperties
      && forall t :: t in targets(topLevel(triggeredBy), name) ==> t.buildsetId in db
  }

  /** Reference merge request for one builder of a triggered buildset. */
  function BuilderMergeTarget<V(==)>(name: string, triggeredBy: int, props: Props<V>, topLevel: int -> int,
                                     mergeProperties: map<string, seq<string>>, targets: (int, string) -> seq<Target>, db: PropsCache<V>): Option<int>
    requires name in mergeProperties
    requires forall t :: t in targets(topLevel(triggeredBy), name) ==> t.buildsetId in db
  {
    MergeTarget(props, mergeProperties[name], targets(topLevel(triggeredBy), name), db)
  }

  /** With a cache that agrees with the database, the merge map holds
      exactly the builders whose reference merge request is truthy, each
      mapped to that request. */
  lemma {:induction false} MergeMapExact<V>(builderNames: seq<string>, triggeredBy: int, props: Props<V>,
                                                topLevel: int -> int, mergeProperties: map<string, seq<string>>,
                                                targets: (int, string) -> seq<Target>, cache: PropsCache<V>, db: PropsCache<V>)
    requires Consistent(cache, db)
    requires Known(builderNames, triggeredBy, topLevel, mergeProperties, targets, db)
    ensures var r := MergeMap(builderNames, Some(triggeredBy), props, topLevel, mergeProperties, targets, cache, db);
            && r.Success?
            && Consistent(r.value.1, db)
            && (forall name :: name in r.value.0 <==>
                  name in builderNames && TruthyBrid(BuilderMergeTarget(name, triggeredBy, props, topLevel, mergeProperties, targets, db)))
            && (forall name :: name in r.value.0 ==>
                  Some(r.value.0[name]) == BuilderMergeTarget(name, triggeredBy, props, topLevel, mergeProperties, targets, db))
  {
    if |builderNames| > 0 {
      var name := builderNames[0];
      var startbrid := topLevel(triggeredBy);
      var m := GetMergeBrid(cache, props, mergeProperties[name], targets(startbrid, name), db);
      assert m.Success?;
      var (brid, cache1) := m.value;
      assert brid == BuilderMergeTarget(name, triggeredBy, props, topLevel, mergeProperties, targets, db);
      assert Known(builderNames[1..], triggeredBy, topLevel, mergeProperties, targets, db);
      MergeMapExact(builderNames[1..], triggeredBy, props, topLevel, mergeProperties, targets, cache1, db);
      assert forall n :: n in builderNames <==> n == name || n in builderNames[1..] by {
        assert builderNames == [name] + builderNames[1..];
      }
    }
  }
}

=== FILE: result_css.dfy ===
/** `add_css_classes_to_results`: a copy of each build dictionary with the
    human name and the CSS class of its result code added. The two tables
    are those of `buildbot.status.results`, as the unit test for this
    helper spells them out for codes -1 to 11. */
module ResultCss {
  import opened Wrappers

  /** A dictionary value as far as this helper looks at it. */
  datatype Value = VNone | VInt(i: int) | VStr(s: string)

  type BuildDict = map<string, Value>

  const ResultsKey := "results"
  const CssKey := "result_css_class"
  const NameKey := "result_name"

  lemma KeysDistinct()
    ensures ResultsKey != CssKey && ResultsKey != NameKey && CssKey != NameKey
  {
    assert |ResultsKey| == 7 && |CssKey| == 16 && |NameKey| == 11;
  }

  /** `Results`: the names of result codes 0 to 11. */
  const Names: seq<string> := [
    "success", "warnings", "failure", "skipped", "exception", "retry",
    "canceled", "not-rebuilt", "dependency-failure", "resume", "merged", "interrupted"]

  /** `RESULT_TO_CSS`: the CSS class of result codes -1 to 11. */
  const CssClasses: map<int, string> := map[
    -1 := "running", 0 := "success", 1 := "warnings", 2 := "failure",
    3 := "skipped", 4 := "exception", 5 := "retry", 6 := "canceled",
    7 := "not-rebuilt", 8 := "dependency-failure", 9 := "waiting-for-dependency",
    10 := "not-started", 11 := "interrupted"]

  /** `RESULT_TO_CSS.get(results, "")`: only integer codes are keys. */
  function CssOf(v: Value): (c: string)
    ensures v.VInt? && -1 <= v.i < 12 ==> c == CssClasses[v.i]
    ensures !(v.VInt? && -1 <= v.i < 12) ==> c == ""
  {
    if v.VInt? && v.i in CssClasses then CssClasses[v.i] else ""
  }

  /** `Results[results] if results >= 0 else "running"`, under Python 2
      ordering: `None` sorts below every integer, a string above; a string
      index raises `TypeError`, a code past the table `IndexError`. */
  function NameOf(v: Value): (r: Result<string>)
    ensures r.Success? <==> v.VNone? || (v.VInt? && v.i < |Names|)
    ensures r == Failure(TypeError) <==> v.VStr?
    ensures r.Success? && v.VInt? && v.i >= 0 ==> r.value == Names[v.i]
    ensures r.Success? && !(v.VInt? && v.i >= 0) ==> r.value == "running"
  {
    match v
    case VNone => Success("running")
    case VStr(_) => Failure(TypeError)
    case VInt(i) =>
      if i < 0 then Success("running")
      else if i < |Names| then Success(Names[i])
      else Failure(IndexError)
  }

  /** One loop iteration: the copied dictionary with the two keys set. */
  function Decorate(b: BuildDict): (r: Result<BuildDict>)
    ensures r.Success? <==> ResultsKey in b && NameOf(b[ResultsKey]).Success?
    ensures r.Success? ==> r.value.Keys == b.Keys + {CssKey, NameKey}
    ensures r.Success? ==> r.value[CssKey] == VStr(CssOf(b[ResultsKey]))
    ensures r.Success? ==> r.value[NameKey] == VStr(NameOf(b[ResultsKey]).value)
    ensures r.Success? ==> forall k :: k in b && k != CssKey && k != NameKey ==> r.value[k] == b[k]
  {
    if ResultsKey !in b then Failure(KeyError(ResultsKey))
    else
      var css := CssOf(b[ResultsKey]);
      var name :- NameOf(b[ResultsKey]);
      Success(b[CssKey := VStr(css)][NameKey := VStr(name)])
  }

  /** Every build carries a result code the helper can name. */
  predicate Decoratable(builds: seq<BuildDict>) {
    forall i :: 0 <= i < |builds| ==> Decorate(builds[i]).Success?
  }

  /** `add_css_classes_to_results(builds)`: a new list, one decorated copy per
      build in the same order; the first build it cannot decorate raises. */
  function AddCssClasses(builds: seq<BuildDict>): (r: Result<seq<BuildDict>>)
    ensures r.Success? <==> Decoratable(builds)
    ensures r.Success? ==> |r.value| == |builds|
    ensures r.Success? ==> forall i :: 0 <= i < |builds| ==> r.value[i] == Decorate(builds[i]).value
  {
    if |builds| == 0 then Success([])
    else
      var first := Decorate(builds[0]);
      if first.Failure? then Failure(first.error)
      else
        var rest := AddCssClasses(builds[1..]);
        DecoratableCons(builds);
        if rest.Failure? then Failure(rest.error)
        else
          assert forall i :: 0 < i < |builds| ==> builds[1..][i - 1] == builds[i];
          Success([first.value] + rest.value)
  }

  lemma DecoratableCons(builds: seq<BuildDict>)
    requires |builds| > 0
    ensures Decoratable(builds) <==> Decorate(builds[0]).Success? && Decoratable(builds[1..])
  {
    assert forall i :: 0 < i < |builds| ==> builds[1..][i - 1] == builds[i];
  }

  /** The error raised is that of the first build that cannot be decorated. */
  lemma {:induction false} AddCssClassesFailure(builds: seq<BuildDict>)
    requires AddCssClasses(builds).Failure?
    ensures exists i :: 0 <= i < |builds| && Decorate(builds[i]) == Failure(AddCssClasses(builds).error)
                        && forall j :: 0 <= j < i ==> Decorate(builds[j]).Success?
  {
    var r := AddCssClasses(builds);
    if Decorate(builds[0]).Failure? {
      assert Decorate(builds[0]) == Failure(r.error);
    } else {
      AddCssClassesFailure(builds[1..]);
      var i :| 0 <= i < |builds[1..]| && Decorate(builds[1..][i]) == Failure(r.error)
               && forall j :: 0 <= j < i ==> Decorate(builds[1..][j]).Success?;
      assert builds[i + 1] == builds[1..][i];
      forall j | 0 <= j < i + 1 ensures Decorate(builds[j]).Success? {
        if j > 0 {
          assert builds[j] == builds[1..][j - 1];
        }
      }
    }
  }

  /** The original entries survive: dropping the two added keys from an
      output entry gives back its input, up to those two keys. */
  lemma DecorateKeepsOriginal(builds: seq<BuildDict>, i: int)
    requires AddCssClasses(builds).Success? && 0 <= i < |builds|
    ensures AddCssClasses(builds).value[i] - {CssKey, NameKey} == builds[i] - {CssKey, NameKey}
  {
    var b := builds[i];
    assert AddCssClasses(builds).value[i] == Decorate(b).value;
    var css := CssOf(b[ResultsKey]);
    var name := NameOf(b[ResultsKey]).value;
    assert Decorate(b).value == b[CssKey := VStr(css)][NameKey := VStr(name)];
    RemoveAfterUpdate(b, VStr(css), VStr(name));
  }

  lemma RemoveAfterUpdate(b: BuildDict, x: Value, y: Value)
    ensures b[CssKey := x][NameKey := y] - {CssKey, NameKey} == b - {CssKey, NameKey}
  {
    KeysDistinct();
    var l, r := b[CssKey := x][NameKey := y] - {CssKey, NameKey}, b - {CssKey, NameKey};
    assert l.Keys == r.Keys;
    assert forall k :: k in l ==> l[k] == r[k];
  }

  /** Decorating again changes nothing: the added keys are recomputed from
      the unchanged result code. */
  lemma AddCssClassesIdempotent(builds: seq<BuildDict>)
    requires AddCssClasses(builds).Success?
    ensures AddCssClasses(AddCssClasses(builds).value) == AddCssClasses(builds)
  {
    KeysDistinct();
    var out := AddCssClasses(builds).value;
    forall i | 0 <= i < |out| ensures Decorate(out[i]) == Success(out[i]) {
      var d := Decorate(builds[i]).value;
      assert out[i] == d;
      assert d[ResultsKey] == builds[i][ResultsKey];
      var again := Decorate(d).value;
      assert again.Keys == d.Keys;
      assert forall k :: k in again ==> again[k] == d[k];
      assert again == d;
    }
    assert Decoratable(out);
    var twice := AddCssClasses(out).value;
    assert twice == out;
  }

  /** The unit test's table: codes -1 to 11 with their CSS class and name. */
  lemma ResultTableExample()
    ensures Decorate(map[ResultsKey := VInt(-1)]).value
            == map[ResultsKey := VInt(-1), CssKey := VStr("running"), NameKey := VStr("running")]
    ensures forall i :: 0 <= i < 12 ==>
              Decorate(map[ResultsKey := VInt(i)]).value
              == map[ResultsKey := VInt(i), CssKey := VStr(CssClasses[i]), NameKey := VStr(Names[i])]
    ensures CssClasses[9] == "waiting-for-dependency" && Names[9] == "resume"
    ensures CssClasses[10] == "not-started" && Names[10] == "merged"
    ensures Decorate(map[ResultsKey := VInt(12)]) == Failure(IndexError)
    ensures Decorate(map[]) == Failure(KeyError("results"))
  {
  }
}

=== FILE: single_flight.dfy ===
/** Single-flight bookkeeping for background loads (`loadingBuilds`) and
    cancellations (`cancelBuilds`): one entry per build number with an access
    count. The first request for a number creates the entry with count 1,
    later requests increment it, each release decrements it and the entry
    goes when the count reaches 0. The background work itself (the thread
    and its deferred) is outside the model; only the map updates are here. */
module SingleFlight {
  import opened Wrappers
  import opened Records

  /** A pending operation: how many callers still wait on it, and (for a
      load) the build it produced once it has finished. */
  datatype Flight = Flight(access: int, build: Option<Build>)

  type Flights = map<int, Flight>

  /** `loadBuildFromThread` / `cancelBuildFromThread`: join the operation in
      flight for `n`, or start one. */
  function Acquire(m: Flights, n: int): (r: Flights)
    ensures n !in m ==> r == m[n := Flight(1, None)]
    ensures n in m ==> r == m[n := m[n].(access := m[n].access + 1)]
  {
    if n !in m then m[n := Flight(1, None)]
    else m[n := m[n].(access := m[n].access + 1)]
  }

  /** The release step of `getLoadedBuildFromThread` and `buildCanceled`:
      decrement, and drop the entry when nobody waits any more. */
  function Release(m: Flights, n: int): (r: Flights)
    requires n in m
    ensures m[n].access == 1 ==> r == m - {n}
    ensures m[n].access != 1 ==> r == m[n := m[n].(access := m[n].access - 1)]
  {
    var a := m[n].access - 1;
    if a == 0 then m - {n} else m[n := m[n].(access := a)]
  }

  /** `buildLoaded`: record the loaded build, unless the load found nothing
      or a build is already recorded. */
  function BuildLoaded(m: Flights, n: int, build: Option<Build>): (r: Flights)
    requires n in m
    ensures m[n].build.Some? ==> r == m
    ensures m[n].build.None? ==> r == m[n := m[n].(build := build)]
  {
    if build.Some? && m[n].build.None? then m[n := m[n].(build := build)] else m
  }

  /** `getLoadedBuildFromThread`: every waiter receives the recorded build
      and releases its share of the entry. */
  function GetLoadedBuild(m: Flights, n: int): (r: (Option<Build>, Flights))
    requires n in m
    ensures r.0 == m[n].build
    ensures r.1 == Release(m, n)
  {
    (m[n].build, Release(m, n))
  }

  // ---------------------------------------------------------------------------
  // Traces of requests and releases for one number

  datatype Op = AcquireOp | ReleaseOp

  function Balance(ops: seq<Op>): int {
    if |ops| == 0 then 0
    else Balance(ops[..|ops| - 1]) + (if ops[|ops| - 1] == AcquireOp then 1 else -1)
  }

  /** Runs a trace for number `n`; `None` when a release finds no entry
      (the `KeyError` builder.py would raise). */
  function Run(m: Flights, n: int, ops: seq<Op>): Option<Flights>
    decreases |ops|
  {
    if |ops| == 0 then Some(m)
    else if ops[0] == AcquireOp then Run(Acquire(m, n), n, ops[1..])
    else if n in m then Run(Release(m, n), n, ops[1..])
    else None
  }

  /** The entry for `n` holds exactly `count` waiters (and is absent when
      there are none). */
  ghost predicate Holds(m: Flights, n: int, count: int) {
    (n in m <==> count > 0) && (n in m ==> m[n].access == count)
  }

  lemma BalanceFront(ops: seq<Op>)
    requires |ops| > 0
    ensures Balance(ops) == (if ops[0] == AcquireOp then 1 else -1) + Balance(ops[1..])
    decreases |ops|
  {
    if |ops| > 1 {
      BalanceFront(ops[..|ops| - 1]);
      assert ops[..|ops| - 1][1..] == ops[1..][..|ops| - 2];
    }
  }

  /** Reference counting is exact: as long as releases never outnumber
      requests, no release fails, the entry holds the number of requests
      still unreleased, it disappears exactly when that number is 0, and no
      other number's entry changes. */
  lemma {:induction false} RefCountTrace(m: Flights, n: int, count: int, ops: seq<Op>)
    requires Holds(m, n, count)
    requires forall k :: 0 <= k <= |ops| ==> count + Balance(ops[..k]) >= 0
    ensures Run(m, n, ops).Some?
    ensures Holds(Run(m, n, ops).value, n, count + Balance(ops))
    ensures forall j :: j != n ==> (j in Run(m, n, ops).value <==> j in m)
    ensures forall j :: j != n && j in m ==> Run(m, n, ops).value[j] == m[j]
    decreases |ops|
  {
    if |ops| > 0 {
      BalanceFront(ops);
      assert ops[..1] == [ops[0]];
      assert Balance(ops[..1]) == (if ops[0] == AcquireOp then 1 else -1) by {
        assert ops[..1][..0] == [];
      }
      assert count + Balance(ops[..1]) >= 0;
      assert ops[..0] == [] && count + Balance(ops[..0]) >= 0;
      var m1 := if ops[0] == AcquireOp then Acquire(m, n) else Release(m, n);
      var c1 := count + (if ops[0] == AcquireOp then 1 else -1);
      assert Holds(m1, n, c1) by {
        if ops[0] == AcquireOp {
          if count == 0 { assert n !in m; } else { assert n in m; }
        } else {
          assert n in m && m[n].access == count;
        }
      }
      assert Run(m, n, ops) == Run(m1, n, ops[1..]);
      forall k | 0 <= k <= |ops[1..]|
        ensures c1 + Balance(ops[1..][..k]) >= 0
      {
        assert ops[..k + 1][1..] == ops[1..][..k];
        BalanceFront(ops[..k + 1]);
      }
      RefCountTrace(m1, n, c1, ops[1..]);
    }
  }

  /** Requests for a number not in flight create one entry with count 1;
      `k` more requests bring it to `k + 1`; as many releases remove it. */
  lemma FirstRequestCreatesEntry(m: Flights, n: int)
    requires n !in m
    ensures Acquire(m, n)[n] == Flight(1, None)
    ensures Run(m, n, [AcquireOp, AcquireOp, ReleaseOp, ReleaseOp]) == Some(m)
  {
    var m1 := Acquire(m, n);
    var m2 := Acquire(m1, n);
    assert m2 == m[n := Flight(2, None)];
    var m3 := Release(m2, n);
    assert m3 == m1;
    var m4 := Release(m3, n);
    assert m4 == m;
    var ops := [AcquireOp, AcquireOp, ReleaseOp, ReleaseOp];
    assert ops[1..] == [AcquireOp, ReleaseOp, ReleaseOp];
    assert ops[1..][1..] == [ReleaseOp, ReleaseOp];
    assert ops[1..][1..][1..] == [ReleaseOp];
    assert Run(m3, n, [ReleaseOp]) == Run(m4, n, []);
    assert Run(m2, n, [ReleaseOp, ReleaseOp]) == Run(m3, n, [ReleaseOp]);
    assert Run(m1, n, [AcquireOp, ReleaseOp, ReleaseOp]) == Run(m2, n, [ReleaseOp, ReleaseOp]);
  }

  /** The cancellation path as builder.py wires it: each request joins the
      entry, but the completion callback releases only once per entry, so
      two overlapping requests leave the entry behind with count 1 and a
      later cancellation of that number only waits on the finished one. */
  lemma CancelWiringLeavesEntry(m: Flights, n: int)
    requires n !in m
    ensures Run(m, n, [AcquireOp, AcquireOp, ReleaseOp]).Some?
    ensures n in Run(m, n, [AcquireOp, AcquireOp, ReleaseOp]).value
  {
    var ops := [AcquireOp, AcquireOp, ReleaseOp];
    assert ops[..0] == [] && ops[..1] == [AcquireOp] && ops[..2] == [AcquireOp, AcquireOp] && ops[..3] == ops;
    assert [AcquireOp, AcquireOp][..1] == [AcquireOp];
    RefCountTrace(m, n, 0, ops);
  }

  /** The cancellation join as evidently intended: a request for a number
      already being cancelled rides on that cancellation without taking a
      share, since its single completion callback releases only once. */
  function JoinCancel(m: Flights, n: int): (r: Flights)
    ensures n in r
    ensures n in m ==> r[n] == m[n]
    ensures n !in m ==> r[n] == Flight(1, None)
    ensures forall j :: j != n ==> (j in r <==> j in m)
    ensures forall j :: j != n && j in m ==> r[j] == m[j]
  {
    if n in m then m else m[n := Flight(1, None)]
  }

  /** `k` overlapping cancellation requests for `n`. */
  function JoinCancels(m: Flights, n: int, k: nat): Flights {
    if k == 0 then m else JoinCancel(JoinCancels(m, n, k - 1), n)
  }

  /** However many requests overlap, the corrected entry holds one share
      and leaves every other number's entry alone. */
  lemma {:induction false} JoinsHoldOne(m: Flights, n: int, k: nat)
    requires n !in m
    requires k >= 1
    ensures Holds(JoinCancels(m, n, k), n, 1)
    ensures forall j :: j != n ==> (j in JoinCancels(m, n, k) <==> j in m)
    ensures forall j :: j != n && j in m ==> JoinCancels(m, n, k)[j] == m[j]
  {
    if k > 1 {
      JoinsHoldOne(m, n, k - 1);
    }
  }

  /** With the corrected join, the one completion callback of any number
      of overlapping cancellation requests removes the entry, and nothing
      else changes. */
  lemma CorrectedCancelClears(m: Flights, n: int, k: nat)
    requires n !in m
    requires k >= 1
    ensures n in JoinCancels(m, n, k)
    ensures Release(JoinCancels(m, n, k), n) == m
  {
    JoinsHoldOne(m, n, k);
    var r := Release(JoinCancels(m, n, k), n);
    assert r.Keys == m.Keys;
  }

  /** Releasing once per request, as loads do, always clears the entry. */
  lemma BalancedReleaseClears(m: Flights, n: int, k: nat)
    requires n !in m
    ensures Run(m, n, Requests(k) + Releases(k)).Some?
    ensures n !in Run(m, n, Requests(k) + Releases(k)).value
  {
    var ops := Requests(k) + Releases(k);
    forall j | 0 <= j <= |ops|
      ensures Balance(ops[..j]) >= 0
    {
      PrefixBalance(k, j);
    }
    PrefixBalance(k, |ops|);
    assert ops[..|ops|] == ops;
    RefCountTrace(m, n, 0, ops);
  }

  function Requests(k: nat): (ops: seq<Op>)
    ensures |ops| == k && forall i :: 0 <= i < k ==> ops[i] == AcquireOp
  {
    if k == 0 then [] else Requests(k - 1) + [AcquireOp]
  }

  function Releases(k: nat): (ops: seq<Op>)
    ensures |ops| == k && forall i :: 0 <= i < k ==> ops[i] == ReleaseOp
  {
    if k == 0 then [] else Releases(k - 1) + [ReleaseOp]
  }

  lemma {:induction false} PrefixBalance(k: nat, j: int)
    requires 0 <= j <= 2 * k
    ensures Balance((Requests(k) + Releases(k))[..j]) == (if j <= k then j else 2 * k - j)
    decreases j
  {
    var ops := Requests(k) + Releases(k);
    if j > 0 {
      PrefixBalance(k, j - 1);
      assert ops[..j][..j - 1] == ops[..j - 1];
      assert ops[..j][j - 1] == ops[j - 1];
    }
  }
}

=== FILE: strings.dfy ===
/** String helpers shared by the model: decimal numerals (Python's `int()`
    and `str()` on ASCII digits), the line tail matched by a regular
    expression's `.*$`, lexicographic order (Python 2 `str` comparison),
    `str.split`, ASCII `str.lower` and the space escaping of artifact paths. */
module Strings {

  // ---------------------------------------------------------------------------
  // Decimal numerals

  predicate IsDigit(c: char) {
    '0' <= c <= '9'
  }

  predicate AllDigits(s: string) {
    forall i :: 0 <= i < |s| ==> IsDigit(s[i])
  }

  function DigitValue(c: char): (d: nat)
    requires IsDigit(c)
    ensures d < 10
  {
    (c as int) - ('0' as int)
  }

  function DigitChar(d: nat): (c: char)
    requires d < 10
    ensures IsDigit(c) && DigitValue(c) == d
  {
    (('0' as int) + d) as char
  }

  /** The value of a run of decimal digits, as Python's `int(s)` computes it
      (leading zeros allowed). */
  function DecimalValue(s: string): nat
    requires AllDigits(s)
  {
    if |s| == 0 then 0 else DecimalValue(s[..|s| - 1]) * 10 + DigitValue(s[|s| - 1])
  }

  /** Python's `"%d" % n` for a natural number. */
  function NatToDecimal(n: nat): (s: string)
    ensures |s| > 0 && AllDigits(s)
    ensures DecimalValue(s) == n
    ensures s[0] != '0' || n == 0
  {
    if n < 10 then [DigitChar(n)]
    else
      var prefix := NatToDecimal(n / 10);
      var s := prefix + [DigitChar(n % 10)];
      assert s[..|s| - 1] == prefix;
      s
  }

  /** Python's `str(i)` for an integer. */
  function IntToDecimal(i: int): (s: string)
    ensures |s| > 0
    ensures i >= 0 ==> s == NatToDecimal(i)
    ensures i < 0 ==> s == "-" + NatToDecimal(-i)
  {
    if i < 0 then "-" + NatToDecimal(-i) else NatToDecimal(i)
  }

  /** Two numbers never share a decimal rendering. */
  lemma NatToDecimalInjective(m: nat, n: nat)
    requires NatToDecimal(m) == NatToDecimal(n)
    ensures m == n
  {
  }

  /** Length of the leading run of digits of `s` (what a greedy `\d+` takes). */
  function DigitRun(s: string): (k: nat)
    ensures k <= |s|
    ensures AllDigits(s[..k])
    ensures k < |s| ==> !IsDigit(s[k])
  {
    if |s| == 0 || !IsDigit(s[0]) then 0
    else
      var k := 1 + DigitRun(s[1..]);
      assert s[..k] == [s[0]] + s[1..][..k - 1];
      k
  }

  /** An all-digit string is its own digit run. */
  lemma DigitRunOfDigits(s: string)
    requires AllDigits(s)
    ensures DigitRun(s) == |s|
  {
    if |s| > 0 {
      DigitRunOfDigits(s[1..]);
    }
  }

  /** What `.*$` matches (without MULTILINE): no newline, except that `$`
      also matches just before a newline that ends the string. */
  predicate LineTail(t: string) {
    forall i :: 0 <= i < |t| ==> t[i] != '\n' || i == |t| - 1
  }

  // ---------------------------------------------------------------------------
  // Lexicographic order (Python 2 comparison of byte strings)

  predicate LexLe(a: string, b: string)
    decreases |a|
  {
    |a| == 0 || (|b| > 0 && (a[0] < b[0] || (a[0] == b[0] && LexLe(a[1..], b[1..]))))
  }

  lemma {:induction false} LexLeTotal(a: string, b: string)
    ensures LexLe(a, b) || LexLe(b, a)
    decreases |a|
  {
    if |a| > 0 && |b| > 0 && a[0] == b[0] {
      LexLeTotal(a[1..], b[1..]);
    }
  }

  lemma {:induction false} LexLeTransitive(a: string, b: string, c: string)
    requires LexLe(a, b) && LexLe(b, c)
    ensures LexLe(a, c)
    decreases |a|
  {
    if |a| > 0 && a[0] == b[0] && b[0] == c[0] {
      LexLeTransitive(a[1..], b[1..], c[1..]);
    }
  }

  lemma {:induction false} LexLeAntisymmetric(a: string, b: string)
    requires LexLe(a, b) && LexLe(b, a)
    ensures a == b
    decreases |a|
  {
    if |a| > 0 {
      LexLeAntisymmetric(a[1..], b[1..]);
      assert a == [a[0]] + a[1..] && b == [b[0]] + b[1..];
    }
  }

  // ---------------------------------------------------------------------------
  // str.split and its inverse

  /** Python's `s.split(sep)` for a one-character separator: the maximal
      separator-free pieces, always at least one (`"".split(";") == [""]`). */
  function Split(s: string, sep: char): (pieces: seq<string>)
    ensures |pieces| > 0
    ensures forall p :: p in pieces ==> sep !in p
  {
    if |s| == 0 then [""]
    else
      var rest := Split(s[1..], sep);
      if s[0] == sep then [""] + rest
      else [[s[0]] + rest[0]] + rest[1..]
  }

  /** Python's `sep.join(pieces)`. */
  function Join(pieces: seq<string>, sep: char): string
    requires |pieces| > 0
  {
    if |pieces| == 1 then pieces[0] else pieces[0] + [sep] + Join(pieces[1..], sep)
  }

  /** `split` loses nothing: joining the pieces gives the string back. */
  lemma {:induction false} JoinSplit(s: string, sep: char)
    ensures Join(Split(s, sep), sep) == s
  {
    if |s| > 0 {
      var rest := Split(s[1..], sep);
      JoinSplit(s[1..], sep);
      if s[0] == sep {
        assert Split(s, sep)[1..] == rest;
        assert s == [sep] + s[1..];
      } else {
        var ps := Split(s, sep);
        assert ps[0] == [s[0]] + rest[0];
        assert ps[1..] == rest[1..];
        if |rest| == 1 {
          assert s == [s[0]] + s[1..];
        } else {
          assert Join(rest, sep) == rest[0] + [sep] + Join(rest[1..], sep);
          assert s == [s[0]] + s[1..];
        }
      }
    }
  }

  /** A separator-free prefix followed by the separator is split off as the
      first piece. */
  lemma {:induction false} SplitPrefix(a: string, sep: char, rest: string)
    requires sep !in a
    ensures Split(a + [sep] + rest, sep) == [a] + Split(rest, sep)
  {
    if |a| > 0 {
      assert (a + [sep] + rest)[1..] == a[1..] + [sep] + rest;
      SplitPrefix(a[1..], sep, rest);
      assert a == [a[0]] + a[1..];
    } else {
      assert a + [sep] + rest == [sep] + rest;
      assert ([sep] + rest)[1..] == rest;
    }
  }

  /** The non-empty pieces of `s.split(sep)`, as `[p for p in s.split(sep) if p]`. */
  function NonEmpty(pieces: seq<string>): (r: seq<string>)
    ensures forall p :: p in r <==> p in pieces && p != ""
  {
    if |pieces| == 0 then []
    else if pieces[0] == "" then NonEmpty(pieces[1..])
    else [pieces[0]] + NonEmpty(pieces[1..])
  }

  // ---------------------------------------------------------------------------
  // ASCII lower-casing

  function LowerChar(c: char): char {
    if 'A' <= c <= 'Z' then ((c as int) + 32) as char else c
  }

  /** Python 2 `str.lower()` in the C locale: only ASCII letters change. */
  function Lower(s: string): (r: string)
    ensures |r| == |s|
    ensures forall i :: 0 <= i < |s| ==> r[i] == LowerChar(s[i])
  {
    if |s| == 0 then [] else [LowerChar(s[0])] + Lower(s[1..])
  }

  // ---------------------------------------------------------------------------
  // Escaping spaces

  /** `s.replace(" ", r"\ ")`: every space becomes a backslash and a space. */
  function EscapeSpaces(s: string): (r: string)
    ensures |s| > 0 ==> |r| > 0 && r[0] != ' '
    ensures ' ' !in s ==> r == s
  {
    if |s| == 0 then ""
    else if s[0] == ' ' then "\\ " + EscapeSpaces(s[1..])
    else [s[0]] + EscapeSpaces(s[1..])
  }

  /** The shell's reading of an escaped path: a backslash before a space
      stands for that space. */
  function UnescapeSpaces(s: string): string
  {
    if |s| == 0 then ""
    else if |s| >= 2 && s[0] == '\\' && s[1] == ' ' then " " + UnescapeSpaces(s[2..])
    else [s[0]] + UnescapeSpaces(s[1..])
  }

  /** Escaping is undone by unescaping, so no information is lost. */
  lemma {:induction false} UnescapeEscape(s: string)
    ensures UnescapeSpaces(EscapeSpaces(s)) == s
  {
    if |s| > 0 {
      UnescapeEscape(s[1..]);
      var e := EscapeSpaces(s);
      if s[0] == ' ' {
        assert e[2..] == EscapeSpaces(s[1..]);
        assert UnescapeSpaces(e) == " " + UnescapeSpaces(e[2..]);
      } else {
        assert e[1..] == EscapeSpaces(s[1..]);
        assert e[0] == s[0];
        assert UnescapeSpaces(e) == [s[0]] + UnescapeSpaces(e[1..]);
      }
      assert s == [s[0]] + s[1..];
    }
  }

  /** The escaped path holds no unescaped space: every space is preceded by
      a backslash. */
  lemma {:induction false} EscapedSpacesArePreceded(s: string, i: int)
    requires 0 <= i < |EscapeSpaces(s)| && EscapeSpaces(s)[i] == ' '
    ensures i > 0 && EscapeSpaces(s)[i - 1] == '\\'
  {
    var e := EscapeSpaces(s);
    if s[0] == ' ' {
      if i >= 2 {
        EscapedSpacesArePreceded(s[1..], i - 2);
      }
    } else {
      EscapedSpacesArePreceded(s[1..], i - 1);
      assert e[1..] == EscapeSpaces(s[1..]);
    }
  }
}

=== FILE: timeline.dfy ===
/** `BuilderStatus.eventGenerator`: the builder's timeline, newest first.
    Builder events and the started steps of the builds are interleaved by
    start time with one backward cursor over the events; each build follows
    its own steps. The generator is modelled as fully consumed. */
module Timeline {
  import opened Wrappers
  import opened Records
  import opened BuilderStatus

  datatype Item = EventItem(event: Event) | StepItem(step: Step) | BuildItem(build: Build)

  /** The keyword arguments of `eventGenerator`. */
  datatype TimelineFilter = TimelineFilter(
    branches: set<Option<string>>,
    categories: set<Option<string>>,
    committers: set<string>,
    minTime: int)

  /** The per-build filters: some stamp on a wanted branch, the builder's
      category wanted, some change by a wanted committer; an empty filter
      lets everything through. */
  predicate Selected(b: Build, category: Option<string>, f: TimelineFilter) {
    && (|f.branches| == 0 || f.branches * BuildBranches(b) != {})
    && (|f.categories| == 0 || category in f.categories)
    && (|f.committers| == 0 || exists a :: a in b.changeAuthors && a in f.committers)
  }

  /** The builder's events newest first, as the cursor `getEvent(-1)`,
      `getEvent(-2)`, ... visits them. */
  function NewestFirst<T>(xs: seq<T>): (r: seq<T>)
    ensures |r| == |xs|
  {
    if |xs| == 0 then [] else [xs[|xs| - 1]] + NewestFirst(xs[..|xs| - 1])
  }

  /** The `i`-th element newest first is the `i`-th from the end. */
  lemma {:induction false} NewestFirstAt<T>(xs: seq<T>, i: int)
    requires 0 <= i < |xs|
    ensures NewestFirst(xs)[i] == xs[|xs| - 1 - i]
  {
    if i > 0 {
      NewestFirstAt(xs[..|xs| - 1], i - 1);
    }
  }

  /** The cursor at `getEvent(-(k+1))` is the `k`-th event newest first. */
  lemma CursorEvent(s: BuilderState, k: nat)
    ensures GetEvent(s, -(k + 1)) == if k < |s.events| then Some(NewestFirst(s.events)[k]) else None
  {
    if k < |s.events| {
      NewestFirstAt(s.events, k);
    }
  }

  /** A build's started steps, newest first. */
  function StartedSteps(steps: seq<Step>): seq<Item> {
    if |steps| == 0 then []
    else
      var last := steps[|steps| - 1];
      assert steps == steps[..|steps| - 1] + [last];
      (if last.started then [StepItem(last)] else []) + StartedSteps(steps[..|steps| - 1])
  }

  /** What the timeline shows of one build: its started steps, then it. */
  function BuildItems(b: Build): seq<Item> {
    StartedSteps(b.steps) + [BuildItem(b)]
  }

  /** The build stream, from `getBuild(-nb)` back: a missing build ends it
      (except the newest, which may still be running without a record), and
      so does a build started before `minTime`; unselected builds are
      skipped. */
  function Builds(s: BuilderState, store: Store, f: TimelineFilter, nb: int): seq<Item>
    decreases s.nextBuildNumber - nb + 1
  {
    if nb > s.nextBuildNumber then []
    else
      var o := Resolve(s, store, s.nextBuildNumber - nb);
      if o.None? then (if nb == 1 then Builds(s, store, f, nb + 1) else [])
      else if o.value.startTime < f.minTime then []
      else if !Selected(o.value, s.category, f) then Builds(s, store, f, nb + 1)
      else BuildItems(o.value) + Builds(s, store, f, nb + 1)
  }

  /** After the builds: the remaining events, the first unconditionally and
      then until one starts before `minTime`. */
  function Drain(es: seq<Event>, minTime: int): seq<Item> {
    if |es| == 0 then []
    else [EventItem(es[0])] + (if |es| > 1 && es[1].started < minTime then [] else Drain(es[1..], minTime))
  }

  /** Reference: the newest-first merge of the events with the build
      stream. An event goes out before a step that started earlier than
      it; builds never wait for events. */
  function Merge(es: seq<Event>, items: seq<Item>, minTime: int): seq<Item>
    decreases |es| + |items|
  {
    if |items| == 0 then Drain(es, minTime)
    else match items[0]
      case StepItem(st) =>
        if |es| > 0 && es[0].started > st.startTime then [EventItem(es[0])] + Merge(es[1..], items, minTime)
        else [StepItem(st)] + Merge(es, items[1..], minTime)
      case _ => [items[0]] + Merge(es, items[1..], minTime)
  }

  /** The events still ahead of the cursor at `getEvent(eventIndex)`. */
  function Pending(s: BuilderState, eventIndex: int): seq<Event>
    requires eventIndex <= -1 && -eventIndex - 1 <= |s.events|
  {
    NewestFirst(s.events)[-eventIndex - 1..]
  }

  /** The cursor `e` is `getEvent(eventIndex)`, at or after the newest event. */
  predicate Cursor(s: BuilderState, eventIndex: int, e: Option<Event>) {
    && eventIndex <= -1 && -eventIndex - 1 <= |s.events|
    && e == if -eventIndex - 1 < |s.events| then Some(Pending(s, eventIndex)[0]) else None
  }

  /** Advancing the cursor by one. */
  method Advance(s: BuilderState, eventIndex: int, e: Option<Event>) returns (eventIndex': int, e': Option<Event>)
    requires Cursor(s, eventIndex, e) && e.Some?
    ensures Cursor(s, eventIndex', e')
    ensures eventIndex' == eventIndex - 1
    ensures Pending(s, eventIndex) == [e.value] + Pending(s, eventIndex')
  {
    var k := -eventIndex - 1;
    eventIndex' := eventIndex - 1;
    e' := GetEvent(s, eventIndex');
    CursorEvent(s, k + 1);
    var es := NewestFirst(s.events);
    assert es[k..] == [es[k]] + es[k + 1..];
  }

  /** One started step: the pending events that started after it, then it. */
  method EmitStep(s: BuilderState, eventIndex: int, e: Option<Event>, st: Step, ghost tail: seq<Item>, minTime: int)
    returns (emitted: seq<Item>, eventIndex': int, e': Option<Event>)
    requires Cursor(s, eventIndex, e)
    ensures Cursor(s, eventIndex', e')
    ensures emitted + Merge(Pending(s, eventIndex'), tail, minTime) == Merge(Pending(s, eventIndex), [StepItem(st)] + tail, minTime)
  {
    ghost var items := [StepItem(st)] + tail;
    emitted := [];
    eventIndex', e' := eventIndex, e;
    while e'.Some? && e'.value.started > st.startTime
      invariant Cursor(s, eventIndex', e')
      invariant emitted + Merge(Pending(s, eventIndex'), items, minTime) == Merge(Pending(s, eventIndex), items, minTime)
      decreases |s.events| + eventIndex'
    {
      ghost var before := eventIndex';
      var x := EventItem(e'.value);
      eventIndex', e' := Advance(s, eventIndex', e');
      assert Merge(Pending(s, before), items, minTime) == [x] + Merge(Pending(s, eventIndex'), items, minTime);
      ConcatAssoc(emitted, [x], Merge(Pending(s, eventIndex'), items, minTime));
      emitted := emitted + [x];
    }
    assert items[1..] == tail;
    assert Merge(Pending(s, eventIndex'), items, minTime) == [StepItem(st)] + Merge(Pending(s, eventIndex'), tail, minTime);
    ConcatAssoc(emitted, [StepItem(st)], Merge(Pending(s, eventIndex'), tail, minTime));
    emitted := emitted + [StepItem(st)];
  }

  lemma ConsPrefix<T>(xs: seq<T>, k: int)
    requires 0 <= k < |xs|
    ensures [xs[0]] + xs[1..][..k] == xs[..k + 1]
  {
    var l, r := [xs[0]] + xs[1..][..k], xs[..k + 1];
    forall i | 0 <= i < |l| ensures l[i] == r[i] {
      if i > 0 {
        assert l[i] == xs[1..][..k][i - 1];
      }
    }
  }

  lemma ConcatAssoc<T>(a: seq<T>, b: seq<T>, c: seq<T>)
    ensures (a + b) + c == a + (b + c)
  {
  }

  /** A build at the head of the stream goes out at once. */
  lemma MergeBuildFirst(es: seq<Event>, b: Build, rest: seq<Item>, minTime: int)
    ensures Merge(es, [BuildItem(b)] + rest, minTime) == [BuildItem(b)] + Merge(es, rest, minTime)
  {
    assert ([BuildItem(b)] + rest)[1..] == rest;
  }

  /** `StartedSteps` peels off the newest step of a prefix. */
  lemma StartedStepsPeel(steps: seq<Step>, j: int)
    requires 0 <= j < |steps|
    ensures StartedSteps(steps[..j + 1])
            == (if steps[j].started then [StepItem(steps[j])] else []) + StartedSteps(steps[..j])
  {
    assert steps[..j + 1][..j] == steps[..j];
  }

  /** Step `j` of a build: if it started, the pending events that started
      after it and then it; otherwise nothing. */
  method EmitStepAt(s: BuilderState, eventIndex: int, e: Option<Event>, steps: seq<Step>, j: int,
                    ghost tail: seq<Item>, minTime: int)
    returns (emitted: seq<Item>, eventIndex': int, e': Option<Event>)
    requires 0 <= j < |steps|
    requires Cursor(s, eventIndex, e)
    ensures Cursor(s, eventIndex', e')
    ensures emitted + Merge(Pending(s, eventIndex'), StartedSteps(steps[..j]) + tail, minTime)
            == Merge(Pending(s, eventIndex), StartedSteps(steps[..j + 1]) + tail, minTime)
  {
    StartedStepsPeel(steps, j);
    if steps[j].started {
      assert StartedSteps(steps[..j + 1]) + tail == [StepItem(steps[j])] + (StartedSteps(steps[..j]) + tail);
      emitted, eventIndex', e' := EmitStep(s, eventIndex, e, steps[j], StartedSteps(steps[..j]) + tail, minTime);
    } else {
      emitted, eventIndex', e' := [], eventIndex, e;
      assert StartedSteps(steps[..j + 1]) + tail == StartedSteps(steps[..j]) + tail;
      assert emitted + Merge(Pending(s, eventIndex'), StartedSteps(steps[..j]) + tail, minTime)
             == Merge(Pending(s, eventIndex'), StartedSteps(steps[..j]) + tail, minTime);
    }
  }

  /** One selected build: its started steps newest first, each after the
      events that started later, then the build itself. */
  method EmitBuild(s: BuilderState, eventIndex: int, e: Option<Event>, b: Build, ghost rest: seq<Item>, minTime: int)
    returns (emitted: seq<Item>, eventIndex': int, e': Option<Event>)
    requires Cursor(s, eventIndex, e)
    ensures Cursor(s, eventIndex', e')
    ensures emitted + Merge(Pending(s, eventIndex'), rest, minTime) == Merge(Pending(s, eventIndex), BuildItems(b) + rest, minTime)
  {
    var steps := b.steps;
    ghost var tail := [BuildItem(b)] + rest;
    ghost var goal := Merge(Pending(s, eventIndex), BuildItems(b) + rest, minTime);
    assert BuildItems(b) + rest == StartedSteps(steps[..|steps|]) + tail by {
      assert steps[..|steps|] == steps;
    }
    var ns := 1;
    emitted := [];
    eventIndex', e' := eventIndex, e;
    while ns <= |steps|
      invariant 1 <= ns <= |steps| + 1
      invariant Cursor(s, eventIndex', e')
      invariant emitted + Merge(Pending(s, eventIndex'), StartedSteps(steps[..|steps| - ns + 1]) + tail, minTime) == goal
      decreases |steps| - ns
    {
      var more;
      more, eventIndex', e' := EmitStepAt(s, eventIndex', e', steps, |steps| - ns, tail, minTime);
      ConcatAssoc(emitted, more, Merge(Pending(s, eventIndex'), StartedSteps(steps[..|steps| - ns]) + tail, minTime));
      emitted := emitted + more;
      ns := ns + 1;
    }
    assert StartedSteps(steps[..0]) + tail == tail;
    MergeBuildFirst(Pending(s, eventIndex'), b, rest, minTime);
    emitted := emitted + [BuildItem(b)];
  }

  /** One step of `Drain`: the first pending event, then the rest unless
      the next one starts before `minTime`. */
  lemma DrainFirst(es: seq<Event>, minTime: int)
    requires |es| > 0
    ensures |es| > 1 && es[1].started < minTime ==> Drain(es, minTime) == [EventItem(es[0])]
    ensures !(|es| > 1 && es[1].started < minTime) ==> Drain(es, minTime) == [EventItem(es[0])] + Drain(es[1..], minTime)
  {
  }

  /** The final loop: the pending events until one starts before `minTime`. */
  method EmitRemaining(s: BuilderState, eventIndex: int, e: Option<Event>, minTime: int) returns (emitted: seq<Item>)
    requires Cursor(s, eventIndex, e)
    ensures emitted == Drain(Pending(s, eventIndex), minTime)
  {
    emitted := [];
    var i, cur := eventIndex, e;
    while cur.Some?
      invariant Cursor(s, i, cur)
      invariant emitted + Drain(Pending(s, i), minTime) == Drain(Pending(s, eventIndex), minTime)
      decreases |s.events| + i
    {
      ghost var es := Pending(s, i);
      var x := EventItem(cur.value);
      DrainFirst(es, minTime);
      i, cur := Advance(s, i, cur);
      assert es[1..] == Pending(s, i);
      if cur.Some? && cur.value.started < minTime {
        assert Drain(es, minTime) == [x];
        emitted := emitted + [x];
        break;
      }
      ConcatAssoc(emitted, [x], Drain(Pending(s, i), minTime));
      emitted := emitted + [x];
    }
  }

  /** The steps and builds of a timeline, in order. */
  function NonEvents(xs: seq<Item>): seq<Item> {
    if |xs| == 0 then []
    else (if xs[0].EventItem? then [] else [xs[0]]) + NonEvents(xs[1..])
  }

  /** The events of a timeline, in order. */
  function Events(xs: seq<Item>): seq<Event> {
    if |xs| == 0 then []
    else (if xs[0].EventItem? then [xs[0].event] else []) + Events(xs[1..])
  }

  lemma {:induction false} NonEventsEventsHead(x: Item, xs: seq<Item>)
    ensures NonEvents([x] + xs) == (if x.EventItem? then [] else [x]) + NonEvents(xs)
    ensures Events([x] + xs) == (if x.EventItem? then [x.event] else []) + Events(xs)
  {
    assert ([x] + xs)[1..] == xs;
  }

  lemma {:induction false} DrainOnlyEvents(es: seq<Event>, minTime: int)
    ensures NonEvents(Drain(es, minTime)) == []
    ensures |Events(Drain(es, minTime))| <= |es|
    ensures Events(Drain(es, minTime)) == es[..|Events(Drain(es, minTime))|]
    ensures |es| > 0 ==> |Events(Drain(es, minTime))| > 0
  {
    if |es| > 0 {
      var tail := if |es| > 1 && es[1].started < minTime then [] else Drain(es[1..], minTime);
      assert Drain(es, minTime) == [EventItem(es[0])] + tail;
      NonEventsEventsHead(EventItem(es[0]), tail);
      if !(|es| > 1 && es[1].started < minTime) {
        DrainOnlyEvents(es[1..], minTime);
      }
      var k := |Events(tail)|;
      assert Events(tail) == es[1..][..k];
      assert Events(Drain(es, minTime)) == [es[0]] + es[1..][..k];
      ConsPrefix(es, k);
    }
  }

  /** The merge never drops, repeats or reorders a step or a build: its
      non-event items are exactly the build stream. */
  lemma {:induction false} MergeKeepsStream(es: seq<Event>, items: seq<Item>, minTime: int)
    requires NoEvents(items)
    decreases |es| + |items|
    ensures NonEvents(Merge(es, items, minTime)) == items
  {
    if |items| == 0 {
      DrainOnlyEvents(es, minTime);
    } else {
      match items[0]
      case StepItem(st) =>
        if |es| > 0 && es[0].started > st.startTime {
          MergeKeepsStream(es[1..], items, minTime);
          NonEventsEventsHead(EventItem(es[0]), Merge(es[1..], items, minTime));
        } else {
          MergeKeepsStream(es, items[1..], minTime);
          NonEventsEventsHead(items[0], Merge(es, items[1..], minTime));
        }
      case BuildItem(_) =>
        MergeKeepsStream(es, items[1..], minTime);
        NonEventsEventsHead(items[0], Merge(es, items[1..], minTime));
    }
  }

  /** The events come out newest first with none skipped: they are a
      prefix of the newest-first event list. */
  lemma {:induction false} MergeEventsArePrefix(es: seq<Event>, items: seq<Item>, minTime: int)
    requires NoEvents(items)
    decreases |es| + |items|
    ensures |Events(Merge(es, items, minTime))| <= |es|
    ensures Events(Merge(es, items, minTime)) == es[..|Events(Merge(es, items, minTime))|]
  {
    if |items| == 0 {
      DrainOnlyEvents(es, minTime);
    } else {
      assert NoEvents(items[1..]);
      match items[0]
      case StepItem(st) =>
        if |es| > 0 && es[0].started > st.startTime {
          var rest := Merge(es[1..], items, minTime);
          MergeEventsArePrefix(es[1..], items, minTime);
          NonEventsEventsHead(EventItem(es[0]), rest);
          var k := |Events(rest)|;
          assert Events(Merge(es, items, minTime)) == [es[0]] + es[1..][..k];
          ConsPrefix(es, k);
        } else {
          MergeEventsArePrefix(es, items[1..], minTime);
          NonEventsEventsHead(items[0], Merge(es, items[1..], minTime));
        }
      case BuildItem(_) =>
        MergeEventsArePrefix(es, items[1..], minTime);
        NonEventsEventsHead(items[0], Merge(es, items[1..], minTime));
    }
  }

  predicate NoEvents(items: seq<Item>) {
    forall i :: 0 <= i < |items| ==> !items[i].EventItem?
  }

  lemma {:induction false} StartedStepsNoEvents(steps: seq<Step>)
    ensures NoEvents(StartedSteps(steps))
  {
    if |steps| > 0 {
      StartedStepsNoEvents(steps[..|steps| - 1]);
    }
  }

  lemma {:induction false} BuildsNoEvents(s: BuilderState, store: Store, f: TimelineFilter, nb: int)
    decreases s.nextBuildNumber - nb + 1
    ensures NoEvents(Builds(s, store, f, nb))
  {
    if nb <= s.nextBuildNumber {
      BuildsNoEvents(s, store, f, nb + 1);
      var o := Resolve(s, store, s.nextBuildNumber - nb);
      if o.Some? {
        StartedStepsNoEvents(o.value.steps);
      }
    }
  }

  /** The timeline of a builder shows every selected build of the stream,
      each after its steps, in order, and a newest-first run of its
      events with none skipped. */
  lemma TimelineShape(s: BuilderState, store: Store, f: TimelineFilter)
    ensures var out := Merge(NewestFirst(s.events), Builds(s, store, f, 1), f.minTime);
            && NonEvents(out) == Builds(s, store, f, 1)
            && |Events(out)| <= |s.events|
            && Events(out) == NewestFirst(s.events)[..|Events(out)|]
  {
    BuildsNoEvents(s, store, f, 1);
    MergeKeepsStream(NewestFirst(s.events), Builds(s, store, f, 1), f.minTime);
    MergeEventsArePrefix(NewestFirst(s.events), Builds(s, store, f, 1), f.minTime);
  }

  /** One position of the build stream, case by case. */
  lemma BuildsAt(s: BuilderState, store: Store, f: TimelineFilter, nb: int)
    requires 1 <= nb <= s.nextBuildNumber
    ensures var o := Resolve(s, store, s.nextBuildNumber - nb);
            && (o.None? && nb == 1 ==> Builds(s, store, f, nb) == Builds(s, store, f, nb + 1))
            && (o.None? && nb != 1 ==> Builds(s, store, f, nb) == [])
            && (o.Some? && o.value.startTime < f.minTime ==> Builds(s, store, f, nb) == [])
            && (o.Some? && o.value.startTime >= f.minTime && !Selected(o.value, s.category, f) ==>
                  Builds(s, store, f, nb) == Builds(s, store, f, nb + 1))
            && (o.Some? && o.value.startTime >= f.minTime && Selected(o.value, s.category, f) ==>
                  Builds(s, store, f, nb) == BuildItems(o.value) + Builds(s, store, f, nb + 1))
  {
  }

  /** One pass of the build loop at `getBuild(-nb)`: either the loop stops
      here, the stream being empty from `nb` on, or whatever goes out
      before the stream moves on to `nb + 1`. */
  method VisitBuild(s: BuilderState, store: Store, f: TimelineFilter, cur: BuilderState, nb: int,
                    eventIndex: int, e: Option<Event>, out: seq<Item>, ghost total: seq<Item>)
    returns (out': seq<Item>, stop: bool, eventIndex': int, e': Option<Event>, cur': BuilderState)
    requires 1 <= nb <= s.nextBuildNumber
    requires Cursor(s, eventIndex, e)
    requires cur.nextBuildNumber == s.nextBuildNumber
    requires forall m {:trigger Resolve(cur, store, m)} :: Resolve(cur, store, m) == Resolve(s, store, m)
    requires out + Merge(Pending(s, eventIndex), Builds(s, store, f, nb), f.minTime) == total
    ensures Cursor(s, eventIndex', e')
    ensures cur'.nextBuildNumber == s.nextBuildNumber
    ensures forall m {:trigger Resolve(cur', store, m)} :: Resolve(cur', store, m) == Resolve(s, store, m)
    ensures stop ==> Builds(s, store, f, nb) == [] && out' == out && eventIndex' == eventIndex && e' == e
    ensures !stop ==> out' + Merge(Pending(s, eventIndex'), Builds(s, store, f, nb + 1), f.minTime) == total
  {
    var lookup := GetBuild(cur, store, -nb);
    var found := lookup.0;
    cur' := lookup.1;
    assert found == Resolve(s, store, s.nextBuildNumber - nb);
    BuildsAt(s, store, f, nb);
    out', stop, eventIndex', e' := out, false, eventIndex, e;
    if found.None? {
      stop := nb != 1;
    } else if found.value.startTime < f.minTime {
      stop := true;
    } else if Selected(found.value, s.category, f) {
      var more;
      more, eventIndex', e' := EmitBuild(s, eventIndex, e, found.value, Builds(s, store, f, nb + 1), f.minTime);
      ConcatAssoc(out, more, Merge(Pending(s, eventIndex'), Builds(s, store, f, nb + 1), f.minTime));
      out' := out + more;
    }
  }

  /** `eventGenerator(branches, categories, committers, minTime)`, with the
      loops of builder.py: the output is the merge of the newest-first
      events with the build stream, and the build lookups leave what every
      number resolves to unchanged. */
  method EventGenerator(s: BuilderState, store: Store, f: TimelineFilter) returns (out: seq<Item>, s': BuilderState)
    ensures out == Merge(NewestFirst(s.events), Builds(s, store, f, 1), f.minTime)
    ensures forall m :: Resolve(s', store, m) == Resolve(s, store, m)
    ensures s'.nextBuildNumber == s.nextBuildNumber
  {
    var eventIndex := -1;
    var e := GetEvent(s, eventIndex);
    CursorEvent(s, 0);
    assert Pending(s, eventIndex) == NewestFirst(s.events);
    var nb;
    out, eventIndex, e, s', nb := BuildLoop(s, store, f, eventIndex, e);
    var last := EmitRemaining(s, eventIndex, e, f.minTime);
    out := out + last;
  }

  /** The build loop of `eventGenerator`, from the newest build back until
      the stream ends, with the event cursor starting at `eventIndex`. */
  method BuildLoop(s: BuilderState, store: Store, f: TimelineFilter, eventIndex: int, e: Option<Event>)
    returns (out: seq<Item>, eventIndex': int, e': Option<Event>, s': BuilderState, nb: int)
    requires Cursor(s, eventIndex, e)
    ensures Cursor(s, eventIndex', e')
    ensures out + Drain(Pending(s, eventIndex'), f.minTime) == Merge(Pending(s, eventIndex), Builds(s, store, f, 1), f.minTime)
    ensures forall m {:trigger Resolve(s', store, m)} :: Resolve(s', store, m) == Resolve(s, store, m)
    ensures s'.nextBuildNumber == s.nextBuildNumber
  {
    ghost var total := Merge(Pending(s, eventIndex), Builds(s, store, f, 1), f.minTime);
    out := [];
    s' := s;
    eventIndex', e' := eventIndex, e;
    nb := 1;
    while nb <= s.nextBuildNumber
      invariant 1 <= nb
      invariant Cursor(s, eventIndex', e')
      invariant s'.nextBuildNumber == s.nextBuildNumber
      invariant forall m {:trigger Resolve(s', store, m)} :: Resolve(s', store, m) == Resolve(s, store, m)
      invariant out + Merge(Pending(s, eventIndex'), Builds(s, store, f, nb), f.minTime) == total
      decreases s.nextBuildNumber - nb
    {
      var stop;
      out, stop, eventIndex', e', s' := VisitBuild(s, store, f, s', nb, eventIndex', e', out, total);
      if stop {
        break;
      }
      nb := nb + 1;
    }
    if nb > s.nextBuildNumber {
      BuildsPastEnd(s, store, f, nb);
    }
    MergeNoBuilds(Pending(s, eventIndex'), f.minTime);
  }

  lemma BuildsPastEnd(s: BuilderState, store: Store, f: TimelineFilter, nb: int)
    requires nb > s.nextBuildNumber
    ensures Builds(s, store, f, nb) == []
  {
  }

  lemma MergeNoBuilds(es: seq<Event>, minTime: int)
    ensures Merge(es, [], minTime) == Drain(es, minTime)
  {
  }

  /** The worked example: events at 1, 5 and 9 and one build whose steps
      started at 3 and 7 come out as E9, S7, E5, S3, the build, E1. */
  lemma MergeExample(b: Build)
    requires b.steps == [Step("compile", true, 3), Step("test", true, 7)]
    ensures var e1, e5, e9 := Event(1, 2, []), Event(5, 6, []), Event(9, 10, []);
            Merge(NewestFirst([e1, e5, e9]), BuildItems(b), 0)
            == [EventItem(e9), StepItem(Step("test", true, 7)), EventItem(e5),
                StepItem(Step("compile", true, 3)), BuildItem(b), EventItem(e1)]
  {
    var e1, e5, e9 := Event(1, 2, []), Event(5, 6, []), Event(9, 10, []);
    var s3, s7 := Step("compile", true, 3), Step("test", true, 7);
    assert NewestFirst([e1, e5, e9]) == [e9, e5, e1] by {
      NewestFirstAt([e1, e5, e9], 0);
      NewestFirstAt([e1, e5, e9], 1);
      NewestFirstAt([e1, e5, e9], 2);
    }
    assert b.steps[..1] == [s3];
    assert b.steps[..1][..0] == [];
    assert StartedSteps(b.steps[..1]) == [StepItem(s3)];
    assert StartedSteps(b.steps) == [StepItem(s7), StepItem(s3)];
    var items := [StepItem(s7), StepItem(s3), BuildItem(b)];
    assert BuildItems(b) == items;
    assert [e1][1..] == [];
    assert Drain([e1], 0) == [EventItem(e1)];
    assert Merge([e1], [], 0) == [EventItem(e1)];
    assert Merge([e1], [BuildItem(b)], 0) == [BuildItem(b), EventItem(e1)];
    assert Merge([e1], items[1..], 0) == [StepItem(s3), BuildItem(b), EventItem(e1)];
    assert Merge([e5, e1], items[1..], 0) == [EventItem(e5), StepItem(s3), BuildItem(b), EventItem(e1)];
    assert Merge([e5, e1], items, 0) == [StepItem(s7), EventItem(e5), StepItem(s3), BuildItem(b), EventItem(e1)];
  }
}

=== FILE: wrappers.dfy ===
/** Option and Result, the failure-compatible wrappers used throughout the model.
    `None` stands for Python's `None`; `Failure` stands for an exception the
    modelled code raises to its caller. */
module Wrappers {

  datatype Option<+T> = None | Some(value: T) {

    predicate IsFailure() {
      None?
    }

    function PropagateFailure<U>(): Option<U>
      requires None?
    {
      None
    }

    function Extract(): T
      requires Some?
    {
      value
    }

    /** The value, or `default` when there is none (Python's `d.get(k, default)`). */
    function GetOr(default: T): T {
      match this
      case Some(v) => v
      case None => default
    }
  }

  /** The exceptions the modelled code can raise. */
  datatype Error =
    | KeyError(key: string)
    | IndexError
    | TypeError
    | AttributeError
    | AssertionError
    | RuntimeError

  datatype Result<+R> = Success(value: R) | Failure(error: Error) {

    predicate IsFailure() {
      Failure?
    }

    function PropagateFailure<U>(): Result<U>
      requires Failure?
    {
      Failure(error)
    }

    function Extract(): R
      requires Success?
    {
      value
    }
  }
}
